=== FILE: README.md ===
# RIPLINE terminal in Dafny

A model of the browser terminal of the RIPLINE site. It covers three parts:

- **The in-memory Unix shell `UnixEmulator`.** This is a tree of directories and files. It has:
  - path resolution and the walk from the root;
  - the built-in commands: `help`, `ls`, `cd`, `pwd`, `cat`, `echo`, `clear`, `whoami`, `date`, `uname`, `env`, `history`, `mkdir`, `touch`, `rm` and `tree`;
  - the line interpreter `execute`, with `>` / `>>` redirection;
  - the redirection writer;
  - Tab completion.
- **The modal `vi` editor `ViEditor`.** It has normal, insert and command modes, the `:w`, `:q`, `:q!`, `:wq` and `:x` commands, and a yank register.
- **Pure logic of the terminal view.** The prompt shows the home directory as `~`. Tab rewrites the input line from the completion proposals, using the longest common prefix when there are several.

All of it is modelled as immutable data and pure functions. The one loop, `findCommonPrefix`, is a method with loop invariants.

## Modules

| file | module | models |
|---|---|---|
| `wrappers.dfy` | `Wrappers` | `Option` |
| `strings.dfy` | `Strings` | JavaScript string operations: `trim` (with the full `\s` set), `split(/\s+/)`, `split(c)`, `join`, decimal printing |
| `filesystem.dfy` | `FileSystem` | the node tree, `resolvePath`, `getNode`, and the single entry update every mutating command uses |
| `shell.dfy` | `Shell` | the shell state and the commands table, `writeToFile`, and the state invariant |
| `interpreter.dfy` | `Interpreter` | the redirection regular expressions and `execute` |
| `completion.dfy` | `Completion` | `getCompletions` |
| `editor.dfy` | `Editor` | `ViEditor` |
| `prompt.dfy` | `Prompt` | the `~` prompt, `findCommonPrefix` and the Tab rewrite of the terminal view |

### Filesystem

A directory is an insertion-ordered list of `(name, node)` pairs, because `ls`, `tree` and completion print entries in JavaScript key order. A file holds its text.

The invariant `Shell.Valid` says:

- no directory holds a name twice;
- the current and home directories are absolute and name directories;
- `PWD` equals the current directory.

Every command and every `execute` step keeps it.

The model keeps these behaviours of the code:

- **Absolute paths.** They are returned verbatim, so `..` inside them is not interpreted.
- **Relative `..`.** It stops at the root.
- **Empty files.** An empty file is falsy in JavaScript. So `ls`, `cd`, `cat` and the parent lookups of `mkdir`, `touch`, `rm` and redirection report it as missing (`Present`).
- **`mkdir /`.** The popped name of an empty component list is `undefined`, so `mkdir /` creates a directory called `undefined`.
- **`rm` through a file parent.** When `rm`'s parent is a non-empty file, its `in` test throws. The interpreter reports this as `Error executing rm: ...`.

### Redirection

`execute` splits a line with the lazy expressions `^(.+?)\s*>>\s*(.+)$` (tried first) and `^(.+?)\s*>\s*(.+)$`.

There are two descriptions of these matches, and `Interpreter.FirstMatchIsLeftmost` proves they agree:

- `SplitsAt` is the relation "the pattern matches with these groups".
- `FirstMatch` is a search for the shortest first group.

Three behaviours follow:

- `>>` anywhere on the line takes precedence over `>`. Within one operator the leftmost match wins, because the first group is lazy. So `echo a > b >> c` appends `a > b` to `c`.
- When the trimmed target is empty, the operator and the blank target are dropped. The command before them runs and its output is shown: `echo a >  ` prints `a`.
- An unknown command is reported before anything is written.

### Editor

The editor is a record. `HandleKey` returns the next editor and the effects for the host, in order: `Saved(filename, text)` and `Exited`. Closing is a flag; a closed editor ignores keys.

A key is `(name, shift, ctrl, meta)`:

- `G`, `D` and `Y` are the lower-case name with shift.
- `O` is `'O'` with shift.

The invariant is that there is a line and the row is on one. The column bound `col <= |line|` is kept by every key except `G` and `p`. Those two move to another line and leave the column as it was. This is proved, together with concrete editors that `G` and `p` take past the end of the line.

## Model

| member | source | states |
|---|---|---|
| FileSystem.Lookup | unix-commands.js:99-101 | a name is found exactly when it is one of the directory's names, and what is found is its entry |
| FileSystem.Put | unix-commands.js:263 | assigning an entry: the name then maps to the new node, every other name keeps its node, and a new name is added after all existing ones |
| FileSystem.Remove | unix-commands.js:313 | deleting an entry: the name is gone, every other name keeps its node, and a missing name changes nothing |
| FileSystem.ResolvePath | unix-commands.js:76-91 | an absolute path is returned unchanged; otherwise the result is absolute and its components are those of the current directory walked by the path's components |
| FileSystem.Walk | unix-commands.js:80-89 | a walk over well-formed components yields well-formed components (non-empty, without `/`) |
| FileSystem.WalkUp | unix-commands.js:84-85 | k `..` steps drop the last k components, and never go above the root |
| FileSystem.WalkDown | unix-commands.js:82-88 | without `..`, resolution only appends the steps that are not `.` |
| FileSystem.ResolveDotAndRoot | unix-commands.js:76-91 | `.` resolves to the current directory; any number of `..` from `/` stays at `/` |
| FileSystem.ComponentsOfPathOf | unix-commands.js:90 | rebuilding a path from components and splitting it again gives the same components |
| FileSystem.Get | unix-commands.js:96-105 | the empty path gives the start node; descending from a file or through a missing name gives nothing; a walk that finds something went through a directory holding the first name |
| FileSystem.GetFailsOnTheWay | unix-commands.js:98-103 | a walk that fails on the way, or reaches a file with names left, fails however far it was meant to go |
| FileSystem.GetFoundWalksDirs | unix-commands.js:98-103 | every proper prefix of a path that walks somewhere names a directory |
| FileSystem.GetNode | unix-commands.js:93-106 | an absolute path is walked as written; a relative one after resolving it against the current directory; `/` gives the root |
| FileSystem.GetAppend | unix-commands.js:93-106 | walking a concatenated path is walking its halves in turn; a walk through a missing name or a file fails |
| FileSystem.SetChildHit | unix-commands.js:263 | after an entry is set or deleted, walking to it finds exactly the new value |
| FileSystem.SetChildAt | unix-commands.js:313 | after an update, the parent directory holds its old entries with that one name put or removed |
| FileSystem.SetChildFrame | unix-commands.js:288 | an update changes nothing off the path to the updated entry |
| FileSystem.SetChildKeepsDirectories | unix-commands.js:420-424 | replacing or deleting a non-directory entry keeps every existing directory a directory |
| FileSystem.SetChildTidy | unix-commands.js:263 | updates keep every directory free of duplicate names |
| FileSystem.RemoveDistinct | unix-commands.js:313 | deleting keeps names distinct and adds none |
| Shell.InitialValid | unix-commands.js:7-35 | the default tree, `/home/user` and its environment satisfy the state invariant |
| Shell.Listing | unix-commands.js:149-152 | one shown name per entry, in order, with `/` after directory names |
| Shell.Ls | unix-commands.js:132-153 | a missing target or an empty file gives the "cannot access" error naming the operand or `.`; a file echoes the operand; an empty directory prints nothing; any other directory prints the shown names of its entries in order, two blanks apart |
| Shell.LsWords | unix-commands.js:146-152 | for a non-empty directory whose names are non-empty and hold no white space, splitting the output at white space gives exactly one shown name per entry, in creation order |
| Shell.Cd | unix-commands.js:155-178 | no operand goes home; a missing target or a file gives its error and changes nothing; a directory becomes the current path and `PWD` together; nothing else changes |
| Shell.Cat | unix-commands.js:184-200 | missing operand, missing target (also an empty file) and directory errors; otherwise exactly the file's content |
| Shell.StripQuotes | unix-commands.js:206 | at most one quote character is dropped at each end, independently |
| Shell.Echo | unix-commands.js:202-207 | the arguments joined by one blank, with one quote character dropped at the start and one at the end when present; so no arguments print nothing and a single word without quotes at its ends prints itself |
| Shell.EchoUnquotes | unix-commands.js:206 | one word between quotes is printed without them, even when the word itself starts or ends with a quote |
| Shell.EchoWords | unix-commands.js:202-207 | words without white space, with no quote at the two ends of the line, are echoed so that splitting the output gives them back |
| Shell.Env | unix-commands.js:228-232 | when no value holds a line break, the output splits into exactly the lines `USER=`, `HOME=`, `PWD=`, `PATH=` and `SHELL=` with their values, in the order the constructor creates the keys |
| Shell.Uname | unix-commands.js:221-226 | a single line starting with the system name; it is the name alone exactly when `-a` is not among the operands |
| Shell.HistoryLines | unix-commands.js:234-238 | line k is its 1-based number, two blanks, then the k-th recorded line |
| Shell.History | unix-commands.js:234-238 | an empty history prints nothing; a single command prints as line `1` |
| Shell.HistoryReadBack | unix-commands.js:234-238 | splitting the output at line breaks gives one numbered line per recorded command, oldest first, when no command holds a line break |
| Shell.Tree | unix-commands.js:318-341 | it throws exactly when the current path does not resolve; otherwise it prints the path with `/` first and changes nothing |
| Shell.RenderTreeLines | unix-commands.js:319-337 | the rendering has exactly one line per entry of the subtree |
| Shell.RenderIsPreorder | unix-commands.js:319-337 | the rendering of a subtree is its entries in depth-first pre-order, one line each; below an entry with later siblings the indentation gains `│   `, below a last entry it gains four blanks |
| Shell.TreeListsPreorder | unix-commands.js:318-341 | with single-line names and current path, the output splits into the current path with `/`, then exactly the pre-order item lines, then nothing |
| Shell.PreorderOfFiles | unix-commands.js:323-328 | for a directory of files only, item k is entry k behind `├── `, except the last, which is behind `└── ` |
| Shell.Mkdir | unix-commands.js:240-266 | missing operand, missing parent, file parent and existing name each give their error and change nothing; it succeeds exactly when the parent is a directory without that name, and the name then holds an empty directory |
| Shell.Touch | unix-commands.js:268-292 | parent errors as for `mkdir`; an existing file or directory is left as it is; a new name holds an empty file |
| Shell.TouchIn | unix-commands.js:287-291 | in a directory parent `touch` always succeeds silently: an existing name is left alone, a new one holds an empty file |
| Shell.TouchAddsOneEntry | unix-commands.js:287-291 | `touch` of a missing name appends exactly that name, holding an empty file, to its parent's names and changes nothing off the path |
| Shell.MkdirIn | unix-commands.js:259-265 | in a directory parent an existing name gives `File exists` and changes nothing; a new name holds an empty directory |
| Shell.Rm | unix-commands.js:294-303 | no operand gives `rm: missing operand`; otherwise the operand, resolved against the current directory, is removed as `RmTarget` states, with its failures reported under the operand |
| Shell.RmTarget | unix-commands.js:300-316 | it throws exactly when the parent is a non-empty file; a missing parent, a missing name or a directory gives its error and changes nothing; it succeeds exactly on a file, which is then gone |
| Shell.RmIn | unix-commands.js:305-315 | the three outcomes for a directory parent: missing, directory, or file removed |
| Shell.WriteToFile | unix-commands.js:400-430 | missing parent, file parent and directory target give their `bash:` error; otherwise the target holds the content, after the old content when appending to an existing file |
| Shell.WriteChangesOneEntry | unix-commands.js:420-425 | a successful write sets one entry of the parent: the other names keep their nodes, a missing leaf is appended to the names, an existing one keeps its place, and nothing off the path changes |
| Shell.Run | unix-commands.js:378-380 | dispatch on the command table; only `rm` and `tree` can throw; only `cd`, `mkdir`, `touch` and `rm` change the state, and none touches history or any variable except `PWD` |
| Shell.SetEntryValid | unix-commands.js:420-424 | storing or deleting a non-directory entry keeps the state invariant |
| Shell.MkdirValid | unix-commands.js:240-266 | `mkdir` keeps the state invariant |
| Shell.TouchValid | unix-commands.js:268-292 | `touch` keeps the state invariant |
| Shell.RmValid | unix-commands.js:294-316 | `rm` keeps the state invariant |
| Shell.CdValid | unix-commands.js:155-178 | `cd` keeps the state invariant |
| Shell.RunValid | unix-commands.js:378-380 | every command of the table keeps the state invariant |
| Shell.WriteValid | unix-commands.js:400-430 | a successful redirection keeps the state invariant |
| Shell.MkdirAddsOneEntry | unix-commands.js:259-263 | a successful `mkdir` appends exactly the new name to its parent's names and changes nothing off the path |
| Shell.RmRemovesOneEntry | unix-commands.js:305-313 | a successful `rm` removes exactly that name, leaves the parent's other names and everything off the path as they were |
| Shell.WriteThenCat | unix-commands.js:421-425 | after overwriting a path with non-empty text, `cat` of that path gives the text back |
| Shell.AppendConcatenates | unix-commands.js:422-423 | appending concatenates onto an existing file with no separator, and creates a missing file with just the text |
| Shell.MkdirRootMakesUndefined | unix-commands.js:245-248 | `mkdir /` creates the directory `undefined` in the root |
| Interpreter.FirstMatchIsLeftmost | unix-commands.js:358-359 | the search finds a match exactly when the expression matches, and its first group is the shortest possible (lazy `+?`) |
| Interpreter.TailMatchesIff | unix-commands.js:358-359 | `\s*(.+)$` matches a rest exactly when some non-empty suffix without line terminators follows only white space |
| Interpreter.RestMatchesIff | unix-commands.js:358-359 | from a given first group, the rest matches exactly when some operator position completes a match |
| Interpreter.ParseRedirection | unix-commands.js:358-369 | append exactly when `>>` matches; overwrite exactly when `>>` does not and `>` does; with no redirection the command is the whole line; both parts are trimmed |
| Interpreter.ParseAppendMatches | unix-commands.js:361-364 | an append parse carries the trimmed groups of the leftmost `>>` match |
| Interpreter.ParseOverwriteMatches | unix-commands.js:365-369 | an overwrite parse happens only when `>>` never matches, and carries the trimmed groups of the leftmost `>` match |
| Interpreter.ParseNoRedirectIff | unix-commands.js:358-369 | no redirection is reported exactly when neither expression matches |
| Interpreter.GroupsOfMatch | unix-commands.js:363-364 | the parsed file is the trimmed second group of the match, however far its white space reaches |
| Interpreter.NoOperatorNoMatch | unix-commands.js:358-359 | a line without `>` never matches |
| Interpreter.Dispatch | unix-commands.js:378-397 | an exception becomes `Error executing <cmd>: <message>`; without a target the output is shown; with a target the output is written and nothing is shown, or the write error is shown |
| Interpreter.Words | unix-commands.js:371-374 | the command part splits into at least one word, none holding white space; a blank command gives the single empty word; otherwise no word is empty |
| Interpreter.Execute | unix-commands.js:344-398 | a blank line does nothing; any other line is appended to history as typed; an unknown name gives `<name>: command not found` and nothing else changes |
| Interpreter.ExecuteValid | unix-commands.js:344-398 | every step keeps the state invariant |
| Interpreter.RedirectionIsSilent | unix-commands.js:389-394 | a successful redirection shows nothing |
| Interpreter.ThrownIsReported | unix-commands.js:379-383 | a throwing command leaves the state as it was apart from history, and shows the message behind the command name |
| Interpreter.HistoryListsItself | unix-commands.js:350 | `history` is recorded before it runs, so its last line is the line that ran it, numbered |
| Completion.CommandMatches | unix-commands.js:443-444 | exactly the command names that start with the word, never more than the table holds |
| Completion.CommandMatchesInOrder | unix-commands.js:443-444 | the matches are a subsequence of the table: the filter keeps table order |
| Completion.CommandCompletionsInOrder | unix-commands.js:441-445 | command proposals come in the order of the command table |
| Completion.CommandCompletions | unix-commands.js:441-445 | a one-word line proposes exactly the command names it starts |
| Completion.EntryMatches | unix-commands.js:468-473 | every proposal starts with the typed part; every entry whose name starts with it is proposed |
| Completion.EntryMatchesInOrder | unix-commands.js:468-473 | the proposals are a subsequence of the directory's listing: the filter keeps directory order |
| Completion.EntryMatchesFromEntries | unix-commands.js:468-473 | every proposal is the decorated name of an entry whose name starts with the typed part |
| Completion.EmptyPrefixIsListing | unix-commands.js:468-473 | with nothing typed after the last `/`, the proposals are what `ls` shows, in order |
| Completion.SearchDir | unix-commands.js:452-460 | a word without `/` searches the current directory; an absolute word searches its part up to the last `/` as written; a relative word searches the current directory walked by the components of that part |
| Completion.PathCompletions | unix-commands.js:462-476 | path proposals all start with the part after the last `/` |
| Completion.PathCompletionsMatchEntries | unix-commands.js:462-476 | a missing directory, an empty file or a file yields no proposals; otherwise exactly the matching entries are proposed, in directory order |
| Completion.GetCompletions | unix-commands.js:437-476 | a line completes a command name exactly when, once trimmed, it is a single word; the proposals themselves are stated by Completion.GetCompletionsKind, Completion.CompletionsOfTrimmed and Completion.PathCompletionsMatchEntries |
| Completion.CompleteWords | unix-commands.js:437-476 | one word completes a command; otherwise the last word completes a path |
| Completion.CompleteWordsPrefix | unix-commands.js:437-449 | the words complete a command name exactly when there is one word, and what is completed is always the last word |
| Completion.CompletionsOfTrimmed | unix-commands.js:437-439 | a trimmed line is completed from its words split at white space |
| Completion.GetCompletionsKind | unix-commands.js:437-449 | a trimmed line completes a command name exactly when it is one word |
| Completion.BlankLineProposesAll | unix-commands.js:437-445 | a blank line completes the empty command word and proposes the whole command table, in order |
| Completion.PathCompletionIsOfLastWord | unix-commands.js:437-449 | a trimmed line that completes a path has several words and completes the last one, whose part after `/` starts every proposal |
| Completion.DirectoriesMarked | unix-commands.js:470-473 | a proposed directory has a trailing `/` and a file does not |
| Prompt.PromptLine | src/components/Main.tsx:36-46 | the prompt starts with `user@ripline:` and ends with `$`; for a working directory not starting with `~`, the path shown between them expands back to that directory |
| Prompt.AbbreviateHome | src/components/Main.tsx:40-44 | the home directory shows as `~`; a path below it as `~` followed by the rest; every other path unchanged |
| Prompt.AbbreviateRoundTrip | src/components/Main.tsx:40-44 | the abbreviation loses nothing: expanding `~` gives the path back |
| Prompt.SiblingOfHomeUnchanged | src/components/Main.tsx:40-44 | `/home/userX` is not abbreviated when home is `/home/user` |
| Prompt.Lcp2 | src/components/Main.tsx:189-192 | a common prefix of both strings that cannot be extended |
| Prompt.LcpIsLongest | src/components/Main.tsx:182-196 | the fold is a common prefix of every string, and every common prefix is a prefix of it |
| Prompt.LcpStaysEmpty | src/components/Main.tsx:193 | once empty, the common prefix stays empty (the early `break` is sound) |
| Prompt.FindCommonPrefix | src/components/Main.tsx:182-196 | `""` for no matches, the match itself for one; otherwise the longest common prefix |
| Prompt.TabRewrite | src/components/Main.tsx:164-228 | no proposals change nothing; one proposal rewrites the line and shows nothing; several are shown two blanks apart |
| Prompt.TabRewriteSeveral | src/components/Main.tsx:180-227 | with several proposals the line is rewritten exactly when some common prefix of all of them is longer than the typed word (command) or its part after the last `/` (path); the new line is then the longest common prefix (command), or the line with its last word replaced by the directory part and the longest common prefix (path) |
| Prompt.Tab | src/components/Main.tsx:154-157 | a blank line is left alone |
| Prompt.TabCommandExtends | src/components/Main.tsx:167-206 | completing a command only lengthens the typed word; a single proposal gives a command name |
| Prompt.TabRewriteCommand | src/components/Main.tsx:167-206 | a single command proposal replaces the word, and a longer common prefix of several extends it |
| Prompt.ReplaceLastExtends | src/components/Main.tsx:171-179 | replacing the last word keeps every earlier word |
| Prompt.PathReplacementExtends | src/components/Main.tsx:209-227 | the directory part plus the proposal (or the longer common prefix) extends the typed word |
| Prompt.TabSinglePath | src/components/Main.tsx:159-179 | a single path proposal, a name without white space, replaces the last word by the typed directory part followed by the proposal; the earlier words are kept and nothing is shown |
| Prompt.TabRewritePathExtends | src/components/Main.tsx:171-227 | when the proposals are non-empty names without white space, completing a path keeps every earlier word and only lengthens the last one |
| Prompt.TabPathExtendsLastWord | src/components/Main.tsx:159-228 | the same for the proposals of the completion engine, under the same condition on the names |
| Editor.Open | vi-editor.js:5-17 | there is a line; the lines joined by line breaks give the text back; no line holds a line break |
| Editor.Save | vi-editor.js:294-300 | the host receives the lines joined by line breaks, and the buffer is no longer modified |
| Editor.Close | vi-editor.js:302-308 | the editor is closed and the host is told |
| Editor.ExecuteCommand | vi-editor.js:267-292 | the text is never changed; it closes exactly on `q!`, `wq`, `x` or an unmodified `q`; it saves exactly on `w`, `wq`, `x`, before closing; a refused `q` warns; anything else is reported unknown |
| Editor.NormalKey | vi-editor.js:131-207 | the invariant is kept; any change of the text marks it modified; only `o`/`O` enter insert mode with a changed text |
| Editor.Move | vi-editor.js:134-154 | a motion key changes only the cursor, and the cursor stays on a line |
| Editor.VerticalMotions | vi-editor.js:137-153 | `j`/`k` and the arrows move one line, stopping at the first and last line, and pull the column back to the end of the new line when it lies past it; `G` moves to the last line and changes nothing else |
| Editor.HorizontalMotions | vi-editor.js:135-151 | `h` moves left stopping at 0, `l` right stopping at the end of the line, `0` to the start and `$` to the end; nothing else changes |
| Editor.NormalEdit | vi-editor.js:156-207 | the invariant is kept; edits mark the text modified; only `o`/`O` enter insert mode with a changed text |
| Editor.InsertKey | vi-editor.js:209-246 | the invariant is kept; any change of the text marks it modified; only Escape leaves insert mode |
| Editor.CommandKey | vi-editor.js:248-265 | the text is unchanged; only Enter has effects, namely those of the command, and it clears the command line; a printable key is appended |
| Editor.HandleKey | vi-editor.js:116-129 | a closed editor ignores keys; the invariant is kept; edits mark the buffer modified; clearing `modified` happens only by saving the text; a close ends with the exit effect; the buffer closes with unsaved changes only through `q!` (`wq` and `x` save before closing) |
| Editor.ColumnBoundKept | vi-editor.js:131-246 | every key except `G` and `p` keeps the column within the line |
| Editor.GotoLastLineKeepsColumn | vi-editor.js:152-153 | `G` can leave the column past the end of the new line |
| Editor.PasteKeepsColumn | vi-editor.js:194-200 | `p` can leave the column past the end of the pasted line |
| Editor.OpenLineInsertsOneEmptyLine | vi-editor.js:162-173 | `o` / `O` insert exactly one empty line below / at the cursor, column 0, insert mode, modified |
| Editor.DeleteCharRemovesOne | vi-editor.js:176-181 | `x` removes exactly the character under the cursor, or does nothing past the end |
| Editor.DeleteToEndTruncates | vi-editor.js:182-185 | `D` keeps the first `col` characters of the cursor line, leaves every other line and the cursor where they were, and marks the text modified |
| Editor.YankCopiesLine | vi-editor.js:188-191 | `Y` puts the cursor's line, even an empty one, into the register and changes nothing else but the message |
| Editor.PasteInsertsBelow | vi-editor.js:194-200 | `p` with any non-empty register inserts it as a new line below the cursor and moves down to it, keeping the column and marking the buffer modified |
| Editor.YankThenPaste | vi-editor.js:188-200 | `Y` copies without changing the text; `p` then inserts the copy below and moves to it |
| Editor.NoOpKeys | vi-editor.js:194-200 | `p` with an empty register does nothing, nor does Backspace at the very start |
| Editor.LeaveCommandLine | vi-editor.js:248-263 | Escape, or Backspace emptying the command line, returns to normal mode without effects |
| Editor.TypeAndEscape | vi-editor.js:209-245 | in insert mode a printable key is inserted at the cursor, which moves right, leaving the other lines alone and marking the text modified; Escape returns to normal mode with the cursor one step left (not before the first column) |
| Editor.TypeThenBackspace | vi-editor.js:225-245 | in insert mode Backspace undoes a typed character |
| Editor.BackspaceDeletesBefore | vi-editor.js:226-230 | Backspace after the start of a line removes the character before the cursor and moves onto its place; past the end of the line only the cursor moves; other lines are unchanged |
| Editor.BackspaceJoinsLines | vi-editor.js:231-239 | Backspace at the start of a line below the first appends it to the line before, leaving one line fewer, with the cursor where the two meet |
| Editor.EnterThenBackspace | vi-editor.js:215-239 | Enter splits a line into two that concatenate to it, and Backspace at the start joins them back |
| Editor.ReopenSaved | vi-editor.js:294-296 | saved lines read back as the same lines |
| Editor.JoinEmpty | vi-editor.js:7 | only a single empty line saves as the empty text, which opens as a single empty line |
| Editor.TypeThenEnter | vi-editor.js:248-265 | typing characters then Enter runs the command line extended by them |
| Editor.ColonCommand | vi-editor.js:203-206 | `:`, a command and Enter have exactly the effects of that command, and close exactly when it quits |
| Editor.WriteQuitSavesThenExits | vi-editor.js:284-288 | `:wq` saves the current text, then exits |
| Strings.TrimStart | unix-commands.js:345 | a suffix of the input that is empty exactly for blank input and does not start with white space |
| Strings.TrimEnd | unix-commands.js:345 | a prefix of the input that is empty exactly for blank input and does not end with white space |
| Strings.TrimStartCutsRun | unix-commands.js:345 | what is cut off the start is exactly the leading run of white space |
| Strings.TrimEndCutsRun | unix-commands.js:345 | what is cut off the end is exactly the trailing run of white space |
| Strings.Trim | unix-commands.js:345 | the result has no white space at either end, is empty exactly for blank input, and leaves trimmed text alone |
| Strings.TrimIsWindow | unix-commands.js:345 | the result is the slice of the input that starts after its leading white space, with only white space after it |
| Strings.Tokens | unix-commands.js:372 | at least one piece, none holding white space; text without white space is its own single piece |
| Strings.TokensOfJoin | src/components/Main.tsx:178 | joining non-empty words without white space by a separator of white space and splitting again gives the words back |
| Strings.TokensOfTrimmedNonEmpty | unix-commands.js:372 | splitting trimmed non-empty text gives no empty word |
| Strings.JoinSplit | vi-editor.js:7 | splitting at line breaks and joining again gives the text back |
| Strings.SplitJoin | vi-editor.js:295 | joining lines without line breaks and splitting again gives the lines back |
| Strings.NatToStringRoundTrip | unix-commands.js:236 | the decimal digits printed for a number denote that number |

## Left out

- Persistence through `localStorage` (`saveToStorage`, `loadFromStorage`, `persistFileSystem`, `persistCurrentPath`). It is I/O. The model starts from a fresh session and treats every `persist*` call as a no-op.
- The clock read by `date`. Its text is passed to `Interpreter.Execute` as the parameter `now`.
- Lookups with `in` also match JavaScript prototype names such as `toString`. The command table and directories are modelled as finite name lists, and such names are not found.
- `Object.keys` lists integer-like keys first in numeric order. Directories are modelled in plain creation order.
- Engine error texts. The two thrown messages (`in` on a string, and `Object.entries` of `null` in `tree`) use V8's wording. Other engines word them differently.
- `Editor.HandleKey` counts the key name's length in characters, not in UTF-16 code units as JavaScript does. A key outside the Basic Multilingual Plane is therefore treated as printable here.
- String lengths and indices in general. JavaScript counts UTF-16 code units; the model counts characters (code points). They differ only for characters outside the Basic Multilingual Plane. This affects:
  - the editor's cursor column and line slices: `$` on a line holding one emoji puts the column at 2 in JavaScript but at 1 here;
  - `Prompt.FindCommonPrefix` and `Prompt.Lcp`: for two different emoji sharing a high surrogate, JavaScript returns the lone surrogate, and the model returns `""`;
  - the length comparisons of `Prompt.TabRewrite`, which the same surrogate pairs can decide differently.
- The completion facts `Completion.CompletionsOfTrimmed`, `Completion.GetCompletionsKind` and `Completion.PathCompletionIsOfLastWord` are stated for a trimmed line. Tab only ever passes a trimmed line; for other lines `getCompletions` trims first, which `Completion.GetCompletions` also does.
- Callbacks. The editor's save and exit callbacks are optional in the code. The model always emits the corresponding effects, and the host may ignore them.
- Rendering: the editor's DOM, status line and cursor drawing, and the terminal's output elements. Only their state is modelled.
- Which shell the terminal view drives. The view calls an external `UnixShell` library whose commands (`vi`, `su`, the user prompt) are not part of this model. The Tab logic here is instead applied to the proposals of `Completion.GetCompletions`, which have the same shape.
- Prompt.TabRewritePathExtends and Prompt.TabPathExtendsLastWord assume proposals are non-empty names without white space. A name holding a blank (possible through redirection to `"a b"`) would be split into two words when the line is re-read.
- `script.js`, `custom-commands.js`, `src/components/Terminal.tsx`, `src/components/Home.tsx`, `src/App.tsx` and `src/components/MatrixBackground.tsx`. These are animation, DOM wiring, or duplicates of the logic above.

=== FILE: completion.dfy ===
/**
 `getCompletions`: what Tab proposes for a partly typed line. A line of one
 word completes a command name from the command table; a longer line
 completes its last word as a path, listing the entries of the directory the
 word points into whose names start with the part after its last `/`.
 */
module Completion {
  import opened Wrappers
  import opened Strings
  import opened FileSystem
  import opened Shell

  datatype Kind = Command | Path

  /** The object `getCompletions` returns; `filePrefix` is only set when a
      directory was found to search. */
  datatype Completions = Completions(kind: Kind, matches: seq<string>, prefix: string, filePrefix: Option<string>)

  /** `p` starts every string of `ms`. */
  predicate IsCommonPrefix(p: string, ms: seq<string>) {
    forall k :: 0 <= k < |ms| ==> p <= ms[k]
  }

  /** `a` is `b` with some elements left out and the others kept in their
      order. */
  predicate InOrderWithin(a: seq<string>, b: seq<string>)
    decreases |b|
  {
    if a == [] then true
    else if b == [] then false
    else (a[0] == b[0] && InOrderWithin(a[1..], b[1..])) || InOrderWithin(a, b[1..])
  }

  /** `names.filter(n => n.startsWith(prefix))`: the names the prefix starts,
      in table order. */
  function CommandMatches(names: seq<string>, prefix: string): (r: seq<string>)
    ensures forall x :: x in r <==> x in names && prefix <= x
    ensures |r| <= |names|
  {
    if names == [] then []
    else
      var rest := CommandMatches(names[1..], prefix);
      if prefix <= names[0] then [names[0]] + rest else rest
  }

  /** The matches keep the order of the table: they are a subsequence of it. */
  lemma {:induction false} CommandMatchesInOrder(names: seq<string>, prefix: string)
    ensures InOrderWithin(CommandMatches(names, prefix), names)
    decreases |names|
  {
    if names != [] {
      var rest := CommandMatches(names[1..], prefix);
      CommandMatchesInOrder(names[1..], prefix);
      if prefix <= names[0] {
        assert ([names[0]] + rest)[1..] == rest;
      }
    }
  }

  /** The decorated names of the entries whose name starts with `fp`, in
      directory order. */
  function EntryMatches(es: Entries, fp: string): (r: seq<string>)
    ensures |r| <= |es|
    ensures forall k :: 0 <= k < |r| ==> fp <= r[k]
    ensures forall j :: 0 <= j < |es| && fp <= es[j].0 ==> Decorated(es[j]) in r
  {
    if es == [] then []
    else
      var rest := EntryMatches(es[1..], fp);
      assert forall j :: 1 <= j < |es| ==> es[j] == es[1..][j - 1];
      if fp <= es[0].0 then [Decorated(es[0])] + rest else rest
  }

  /** The matches keep directory order: they are a subsequence of the listing. */
  lemma {:induction false} EntryMatchesInOrder(es: Entries, fp: string)
    ensures InOrderWithin(EntryMatches(es, fp), Listing(es))
    decreases |es|
  {
    if es != [] {
      var rest := EntryMatches(es[1..], fp);
      EntryMatchesInOrder(es[1..], fp);
      assert Listing(es)[1..] == Listing(es[1..]);
      if fp <= es[0].0 {
        assert ([Decorated(es[0])] + rest)[1..] == rest;
      }
    }
  }

  /** `x` is the decorated name of an entry whose name starts with `fp`. */
  ghost predicate FromMatchingEntry(x: string, es: Entries, fp: string) {
    exists j :: 0 <= j < |es| && fp <= es[j].0 && x == Decorated(es[j])
  }

  /** Every proposal is the decorated name of an entry that matches. */
  lemma {:induction false} EntryMatchesFromEntries(es: Entries, fp: string)
    ensures forall x :: x in EntryMatches(es, fp) ==> FromMatchingEntry(x, es, fp)
  {
    if es != [] {
      var rest := EntryMatches(es[1..], fp);
      EntryMatchesFromEntries(es[1..], fp);
      forall x | x in rest ensures FromMatchingEntry(x, es, fp) {
        assert FromMatchingEntry(x, es[1..], fp);
        var j :| 0 <= j < |es[1..]| && fp <= es[1..][j].0 && x == Decorated(es[1..][j]);
        assert es[1..][j] == es[j + 1];
      }
      if fp <= es[0].0 {
        assert FromMatchingEntry(Decorated(es[0]), es, fp) by {
          assert 0 < |es|;
        }
      }
    }
  }

  /** With nothing typed after the last `/`, the proposals are exactly what
      `ls` prints for the directory, in the same order. */
  lemma {:induction false} EmptyPrefixIsListing(es: Entries)
    ensures EntryMatches(es, "") == Listing(es)
  {
    if es != [] {
      EmptyPrefixIsListing(es[1..]);
    }
  }

  /** The directory a path word is completed in: the resolved part up to its
      last `/`, or the current directory for a word without `/`. */
  function SearchDir(s: State, word: string): (r: string)
    ensures '/' !in word ==> r == s.cwd
    ensures '/' in word ==> IsAbsolute(r)
    ensures '/' in word && IsAbsolute(word) ==> r == DirPart(word)
    ensures '/' in word && !IsAbsolute(word) ==>
              Components(r) == Walk(Components(s.cwd), Components(DirPart(word)))
  {
    if '/' in word then
      DirPartKeepsStart(word);
      ResolvePath(s.cwd, DirPart(word))
    else s.cwd
  }

  /** A word holding `/` has a non-empty directory part, which starts the
      way the word does. */
  lemma DirPartKeepsStart(word: string)
    requires '/' in word
    ensures DirPart(word) != [] && DirPart(word)[0] == word[0]
    ensures IsAbsolute(DirPart(word)) <==> IsAbsolute(word)
  {
  }

  /** Completion of a path word: the entries of its search directory whose
      names start with the part after the last `/`; nothing when the search
      directory is missing, an empty file or a file. */
  function PathCompletions(s: State, word: string): (r: Completions)
    ensures r.kind == Path && r.prefix == word
    ensures IsCommonPrefix(BasePart(r.prefix), r.matches)
  {
    var filePrefix := BasePart(word);
    var node := GetNode(s.root, s.cwd, SearchDir(s, word));
    if !Present(node) || node.value.File? then Completions(Path, [], word, None)
    else Completions(Path, EntryMatches(node.value.entries, filePrefix), word, Some(filePrefix))
  }

  /** What a path word is completed against: an unusable search directory
      gives no proposals; otherwise the proposals are the decorated names of
      exactly those entries whose name starts with the part after the last `/`. */
  lemma PathCompletionsMatchEntries(s: State, word: string)
    ensures var r := PathCompletions(s, word);
            var dir := GetNode(s.root, s.cwd, SearchDir(s, word));
            && (r.filePrefix.None? <==> !Present(dir) || dir.value.File?)
            && (r.filePrefix.None? ==> r.matches == [])
            && (r.filePrefix.Some? ==>
                  && r.filePrefix.value == BasePart(word)
                  && var es := dir.value.entries;
                     && (forall j :: 0 <= j < |es| && BasePart(word) <= es[j].0 ==> Decorated(es[j]) in r.matches)
                     && (forall x :: x in r.matches ==> FromMatchingEntry(x, es, BasePart(word)))
                     && InOrderWithin(r.matches, Listing(es)))
  {
    var dir := GetNode(s.root, s.cwd, SearchDir(s, word));
    if Present(dir) && dir.value.Dir? {
      EntryMatchesFromEntries(dir.value.entries, BasePart(word));
      EntryMatchesInOrder(dir.value.entries, BasePart(word));
    }
  }

  /** Completion of a first word: every command name it starts. */
  function CommandCompletions(word: string): (r: Completions)
    ensures r.kind == Command && r.prefix == word
    ensures forall x :: x in r.matches <==> x in CommandNames && word <= x
  {
    Completions(Command, CommandMatches(CommandNames, word), word, None)
  }

  /** The proposed command names come in the order of the command table. */
  lemma CommandCompletionsInOrder(word: string)
    ensures InOrderWithin(CommandCompletions(word).matches, CommandNames)
  {
    CommandMatchesInOrder(CommandNames, word);
  }

  /** Completion of a line split into its words. */
  function CompleteWords(s: State, parts: seq<string>): (r: Completions)
    requires |parts| >= 1
    ensures r.kind == Command <==> |parts| == 1
    ensures r.kind == Command ==> r == CommandCompletions(parts[0])
    ensures r.kind == Path ==> r == PathCompletions(s, parts[|parts| - 1])
  {
    if |parts| == 1 then CommandCompletions(parts[0])
    else PathCompletions(s, parts[|parts| - 1])
  }

  /** `getCompletions(partial)`: a single word completes a command name,
      otherwise the last word completes a path. */
  /** The line, once trimmed, is a single word. */
  predicate OneWord(line: string) {
    |Tokens(Trim(line))| == 1
  }

  function GetCompletions(s: State, partial: string): (r: Completions)
    ensures r.kind == Command <==> OneWord(partial)
  {
    var words := Tokens(Trim(partial));
    CompleteWordsPrefix(s, words);
    CompleteWords(s, words)
  }

  /** The line Tab hands over is trimmed; it is completed as a command
      exactly when it is one word. */
  lemma GetCompletionsKind(s: State, partial: string)
    requires Trimmed(partial)
    ensures GetCompletions(s, partial).kind == Command <==> |Tokens(partial)| == 1
  {
    CompletionsOfTrimmed(s, partial);
    CompleteWordsPrefix(s, Tokens(partial));
  }

  /** A line of several words completes a path, a single word a command
      name, and what is completed is the last word. */
  lemma CompleteWordsPrefix(s: State, parts: seq<string>)
    requires |parts| >= 1
    ensures CompleteWords(s, parts).kind == Command <==> |parts| == 1
    ensures CompleteWords(s, parts).prefix == parts[|parts| - 1]
  {
    if |parts| == 1 {
      assert CompleteWords(s, parts).prefix == CommandCompletions(parts[0]).prefix;
    } else {
      assert CompleteWords(s, parts).prefix == PathCompletions(s, parts[|parts| - 1]).prefix;
    }
  }

  /** A blank line proposes every command, in table order. */
  lemma BlankLineProposesAll(s: State, partial: string)
    requires AllSpace(partial)
    ensures var r := GetCompletions(s, partial);
            r.kind == Command && r.prefix == "" && r.matches == CommandNames
  {
    assert Trim(partial) == "";
    assert Tokens("") == [""];
    CommandMatchesEmpty(CommandNames);
  }

  /** Every name starts with the empty prefix, so nothing is filtered out. */
  lemma {:induction false} CommandMatchesEmpty(names: seq<string>)
    ensures CommandMatches(names, "") == names
  {
    if names != [] {
      CommandMatchesEmpty(names[1..]);
    }
  }

  /** A trimmed line of several words completes its last word as a path. */
  lemma PathCompletionIsOfLastWord(s: State, partial: string)
    requires Trimmed(partial)
    requires GetCompletions(s, partial).kind == Path
    ensures |Tokens(partial)| > 1
    ensures GetCompletions(s, partial) == PathCompletions(s, Tokens(partial)[|Tokens(partial)| - 1])
    ensures GetCompletions(s, partial).prefix == Tokens(partial)[|Tokens(partial)| - 1]
    ensures IsCommonPrefix(BasePart(GetCompletions(s, partial).prefix), GetCompletions(s, partial).matches)
  {
    CompletionsOfTrimmed(s, partial);
    CompleteWordsPath(s, Tokens(partial));
  }

  lemma CompleteWordsPath(s: State, parts: seq<string>)
    requires |parts| >= 1 && CompleteWords(s, parts).kind == Path
    ensures |parts| > 1 && CompleteWords(s, parts) == PathCompletions(s, parts[|parts| - 1])
  {
  }

  /** A trimmed line is completed from its words split at white space. */
  lemma CompletionsOfTrimmed(s: State, partial: string)
    requires Trimmed(partial)
    ensures GetCompletions(s, partial) == CompleteWords(s, Tokens(partial))
  {
  }

  /** A word without `/` is completed against the whole word. */
  lemma WordWithoutSlash(word: string)
    requires '/' !in word
    ensures BasePart(word) == word && DirPart(word) == ""
  {
  }

  /** Proposed directories are marked with a trailing `/`, files are not. */
  lemma DirectoriesMarked(s: State, word: string, k: nat)
    requires k < |PathCompletions(s, word).matches|
    ensures var r := PathCompletions(s, word);
            var dir := GetNode(s.root, s.cwd, SearchDir(s, word));
            exists j :: 0 <= j < |dir.value.entries| &&
              var e := dir.value.entries[j];
              && BasePart(word) <= e.0
              && (e.1.Dir? ==> r.matches[k] == e.0 + "/")
              && (e.1.File? ==> r.matches[k] == e.0)
  {
    PathCompletionsMatchEntries(s, word);
    var r := PathCompletions(s, word);
    var dir := GetNode(s.root, s.cwd, SearchDir(s, word));
    assert r.matches[k] in r.matches;
    var j :| 0 <= j < |dir.value.entries| && BasePart(word) <= dir.value.entries[j].0
             && r.matches[k] == Decorated(dir.value.entries[j]);
  }
}

=== FILE: editor.dfy ===
/**
 The `vi` editor: a buffer of lines with a cursor and three modes. In normal
 mode keys move the cursor and edit whole characters or lines, in insert mode
 they type text, and in command mode they build a `:` command that writes
 the buffer, quits, or both. Writing and quitting are reported to the host as
 effects; the host stores the written text and drops the editor.
 */
module Editor {
  import opened Strings

  datatype Mode = Normal | Insert | CommandLine

  /** A key event: the key's name (a single character, or a name such as
      `Enter`) and the modifier flags the editor looks at. */
  datatype Key = Key(name: string, shift: bool, ctrl: bool, meta: bool)

  /** What the editor asks of its host: store the text, or close the editor. */
  datatype Effect = Saved(filename: string, content: string) | Exited

  datatype Editor = Editor(
    filename: string,
    lines: seq<string>,
    row: nat,
    col: nat,
    mode: Mode,
    command: string,
    yank: string,
    message: string,
    modified: bool,
    closed: bool)

  /** An editor after a key, with the effects the key produced, in order. */
  datatype Reaction = Reaction(editor: Editor, effects: seq<Effect>)

  /** The invariant every key keeps: there is a line, and the cursor is on one. */
  predicate Valid(e: Editor) {
    |e.lines| >= 1 && e.row < |e.lines|
  }

  /** The column is within the cursor's line (at most just past its end). */
  predicate ColumnInLine(e: Editor)
    requires Valid(e)
  {
    e.col <= |e.lines[e.row]|
  }

  const WriteRefused := "No write since last change (add ! to override)"

  // ---------------------------------------------------------------------
  // Slices as JavaScript takes them: out-of-range ends are clamped
  // ---------------------------------------------------------------------

  function Min(a: int, b: int): int {
    if a <= b then a else b
  }

  /** `line.slice(0, n)` for `n >= 0`. */
  function Take(line: string, n: nat): (r: string)
    ensures r <= line
    ensures |r| == Min(n, |line|)
  {
    line[..Min(n, |line|)]
  }

  /** `line.slice(n)` for `n >= 0`. */
  function Drop(line: string, n: nat): (r: string)
    ensures Take(line, n) + r == line
  {
    line[Min(n, |line|)..]
  }

  /** `lines.splice(i, 0, x)`. */
  function InsertAt(lines: seq<string>, i: nat, x: string): (r: seq<string>)
    requires i <= |lines|
    ensures |r| == |lines| + 1 && r[i] == x
    ensures r[..i] == lines[..i] && r[i + 1..] == lines[i..]
  {
    lines[..i] + [x] + lines[i..]
  }

  // ---------------------------------------------------------------------
  // Opening and the `:` commands
  // ---------------------------------------------------------------------

  /** A fresh editor on `content`: its lines are the text split at line
      breaks (one empty line for an empty text), the cursor at the start. */
  function Open(filename: string, content: string): (e: Editor)
    ensures Valid(e) && ColumnInLine(e)
    ensures e.mode == Normal && !e.modified && !e.closed
    ensures Join(e.lines, "\n") == content
    ensures forall k :: 0 <= k < |e.lines| ==> '\n' !in e.lines[k]
  {
    JoinSplit(content, '\n');
    var lines := if content == "" then [""] else Split(content, '\n');
    Editor(filename, lines, 0, 0, Normal, "", "", "", false, false)
  }

  /** `save`: hand the lines, joined by line breaks, to the host. */
  function Save(e: Editor): (r: Reaction)
    ensures r.editor == e.(modified := false)
    ensures r.effects == [Saved(e.filename, Join(e.lines, "\n"))]
  {
    Reaction(e.(modified := false), [Saved(e.filename, Join(e.lines, "\n"))])
  }

  /** `close`: the editor stops listening and tells the host it is done. */
  function Close(e: Editor): (r: Reaction)
    ensures r.editor == e.(closed := true) && r.effects == [Exited]
  {
    Reaction(e.(closed := true), [Exited])
  }

  predicate Writes(cmd: string) {
    cmd == "w" || cmd == "wq" || cmd == "x"
  }

  predicate Quits(cmd: string, modified: bool) {
    cmd == "q!" || cmd == "wq" || cmd == "x" || (cmd == "q" && !modified)
  }

  /** `executeCommand`: `w` writes, `q` quits unless there are unsaved
      changes, `q!` quits regardless, `wq` and `x` write and quit; anything
      else is reported as unknown. */
  function ExecuteCommand(e: Editor, cmd: string): (r: Reaction)
    ensures r.editor.lines == e.lines && r.editor.row == e.row && r.editor.col == e.col
    ensures r.editor.filename == e.filename && r.editor.yank == e.yank
    ensures r.editor.closed <==> e.closed || Quits(cmd, e.modified)
    ensures Writes(cmd) <==> Saved(e.filename, Join(e.lines, "\n")) in r.effects
    ensures Quits(cmd, e.modified) <==> Exited in r.effects
    ensures |r.effects| <= 2 && (|r.effects| == 2 ==> r.effects[1] == Exited)
    ensures r.editor.modified <==> e.modified && !Writes(cmd)
    ensures !Quits(cmd, e.modified) ==> r.editor.mode == Normal
    ensures cmd == "q" && e.modified ==> r.editor.message == WriteRefused
    ensures !Writes(cmd) && !Quits(cmd, e.modified) && cmd != "q" ==>
              r.editor.message == "Not an editor command: " + cmd
  {
    if cmd == "w" then
      var s := Save(e);
      Reaction(s.editor.(message := "\"" + e.filename + "\" " + NatToString(|e.lines|) + "L written", mode := Normal), s.effects)
    else if cmd == "q" then
      if e.modified then Reaction(e.(message := WriteRefused, mode := Normal), [])
      else Close(e)
    else if cmd == "q!" then Close(e)
    else if cmd == "wq" || cmd == "x" then
      var s := Save(e);
      var c := Close(s.editor);
      Reaction(c.editor, s.effects + c.effects)
    else Reaction(e.(message := "Not an editor command: " + cmd, mode := Normal), [])
  }

  // ---------------------------------------------------------------------
  // The three modes
  // ---------------------------------------------------------------------

  /** `handleNormalMode`: the motion keys only move the cursor; the other
      keys are tried in the order the handler tests them. */
  function NormalKey(e: Editor, k: Key): (r: Editor)
    requires Valid(e) && e.mode == Normal
    ensures Valid(r)
    ensures r.filename == e.filename && r.closed == e.closed
    ensures r.mode != CommandLine ==> r.command == e.command
    ensures r.lines != e.lines ==> r.modified
    ensures r.mode == Insert ==> r.lines == e.lines || k.name == "o" || (k.name == "O" && k.shift)
  {
    if Motion(k) then Move(e, k) else NormalEdit(e, k)
  }

  /** The keys of normal mode that move the cursor. */
  predicate Motion(k: Key) {
    var key := k.name;
    || key == "h" || key == "ArrowLeft" || key == "j" || key == "ArrowDown"
    || key == "k" || key == "ArrowUp" || key == "l" || key == "ArrowRight"
    || key == "0" || key == "$" || (key == "g" && k.shift)
  }

  /** A motion key: only the cursor changes, and it stays on a line. */
  function Move(e: Editor, k: Key): (r: Editor)
    requires Valid(e) && Motion(k)
    ensures Valid(r)
    ensures r == e.(row := r.row, col := r.col)
  {
    var key := k.name;
    var line := e.lines[e.row];
    if key == "h" || key == "ArrowLeft" then e.(col := if e.col == 0 then 0 else e.col - 1)
    else if key == "j" || key == "ArrowDown" then
      var row := Min(|e.lines| - 1, e.row + 1);
      e.(row := row, col := Min(e.col, |e.lines[row]|))
    else if key == "k" || key == "ArrowUp" then
      var row := if e.row == 0 then 0 else e.row - 1;
      e.(row := row, col := Min(e.col, |e.lines[row]|))
    else if key == "l" || key == "ArrowRight" then e.(col := Min(|line|, e.col + 1))
    else if key == "0" then e.(col := 0)
    else if key == "$" then e.(col := |line|)
    else e.(row := |e.lines| - 1)
  }

  /** The keys of normal mode that switch mode or edit. */
  function NormalEdit(e: Editor, k: Key): (r: Editor)
    requires Valid(e) && e.mode == Normal
    ensures Valid(r)
    ensures r.filename == e.filename && r.closed == e.closed
    ensures r.mode != CommandLine ==> r.command == e.command
    ensures r.lines != e.lines ==> r.modified
    ensures r.mode == Insert ==> r.lines == e.lines || k.name == "o" || (k.name == "O" && k.shift)
  {
    var key := k.name;
    var line := e.lines[e.row];
    if key == "i" then e.(mode := Insert)
    else if key == "a" then e.(col := Min(|line|, e.col + 1), mode := Insert)
    else if key == "o" then
      e.(lines := InsertAt(e.lines, e.row + 1, ""), row := e.row + 1, col := 0, mode := Insert, modified := true)
    else if key == "O" && k.shift then
      e.(lines := InsertAt(e.lines, e.row, ""), col := 0, mode := Insert, modified := true)
    else if key == "x" then
      if e.col < |line| then e.(lines := e.lines[e.row := line[..e.col] + line[e.col + 1..]], modified := true)
      else e
    else if key == "d" && k.shift then e.(lines := e.lines[e.row := Take(line, e.col)], modified := true)
    else if key == "y" && k.shift then e.(yank := line, message := "yanked line")
    else if key == "p" then
      if e.yank != "" then
        e.(lines := InsertAt(e.lines, e.row + 1, e.yank), row := e.row + 1, modified := true)
      else e
    else if key == ":" then e.(mode := CommandLine, command := "")
    else e
  }

  /** A key that types itself: one character, no Ctrl or Meta. */
  predicate Printable(k: Key) {
    |k.name| == 1 && !k.ctrl && !k.meta
  }

  /** `handleInsertMode`. */
  function InsertKey(e: Editor, k: Key): (r: Editor)
    requires Valid(e) && e.mode == Insert
    ensures Valid(r)
    ensures r.filename == e.filename && r.closed == e.closed && r.command == e.command && r.yank == e.yank
    ensures r.lines != e.lines ==> r.modified
    ensures r.mode == Normal <==> k.name == "Escape"
    ensures r.mode != Normal ==> r.mode == Insert
  {
    var key := k.name;
    var line := e.lines[e.row];
    if key == "Escape" then e.(mode := Normal, col := if e.col == 0 then 0 else e.col - 1)
    else if key == "Enter" then
      var before := Take(line, e.col);
      var after := Drop(line, e.col);
      e.(lines := e.lines[..e.row] + [before, after] + e.lines[e.row + 1..], row := e.row + 1, col := 0, modified := true)
    else if key == "Backspace" then
      if e.col > 0 then
        e.(lines := e.lines[e.row := Take(line, e.col - 1) + Drop(line, e.col)], col := e.col - 1, modified := true)
      else if e.row > 0 then
        var prev := e.lines[e.row - 1];
        e.(lines := e.lines[..e.row - 1] + [prev + line] + e.lines[e.row + 1..], row := e.row - 1, col := |prev|, modified := true)
      else e
    else if Printable(k) then
      e.(lines := e.lines[e.row := Take(line, e.col) + key + Drop(line, e.col)], col := e.col + 1, modified := true)
    else e
  }

  /** `handleCommandMode`: keys edit the command line; Enter runs it. */
  function CommandKey(e: Editor, k: Key): (r: Reaction)
    requires Valid(e)
    ensures Valid(r.editor)
    ensures r.editor.lines == e.lines && r.editor.filename == e.filename
    ensures r.effects != [] ==> k.name == "Enter"
    ensures k.name == "Enter" ==> r == ExecuteCommand(e, e.command).(editor := ExecuteCommand(e, e.command).editor.(command := ""))
    ensures k.name != "Enter" ==> r.editor.closed == e.closed && r.editor.modified == e.modified
    ensures Printable(k) && k.name != "Escape" ==> r.editor.command == e.command + k.name && r.editor.mode == e.mode
  {
    var key := k.name;
    if key == "Escape" then Reaction(e.(mode := Normal, command := ""), [])
    else if key == "Enter" then
      var x := ExecuteCommand(e, e.command);
      Reaction(x.editor.(command := ""), x.effects)
    else if key == "Backspace" then
      var b := if e.command == "" then "" else e.command[..|e.command| - 1];
      Reaction(e.(command := b, mode := if b == "" then Normal else e.mode), [])
    else if Printable(k) then Reaction(e.(command := e.command + key), [])
    else Reaction(e, [])
  }

  /** `handleKey`: a closed editor no longer listens; otherwise the message
      line is cleared and the key goes to the handler of the current mode. */
  function HandleKey(e: Editor, k: Key): (r: Reaction)
    requires Valid(e)
    ensures Valid(r.editor)
    ensures e.closed ==> r == Reaction(e, [])
    ensures r.editor.filename == e.filename
    ensures r.editor.lines != e.lines ==> r.editor.modified
    ensures r.effects != [] ==> !e.closed && e.mode == CommandLine && k.name == "Enter"
    ensures !e.closed && r.editor.closed ==> r.effects != [] && r.effects[|r.effects| - 1] == Exited
    ensures r.editor.closed && r.editor.modified ==> e.closed || e.command == "q!"
    ensures e.modified && !r.editor.modified ==> Saved(e.filename, Join(e.lines, "\n")) in r.effects
  {
    if e.closed then Reaction(e, [])
    else
      var e0 := e.(message := "");
      match e.mode
      case Normal => Reaction(NormalKey(e0, k), [])
      case Insert => Reaction(InsertKey(e0, k), [])
      case CommandLine => CommandKey(e0, k)
  }

  // ---------------------------------------------------------------------
  // Properties of the key handling
  // ---------------------------------------------------------------------

  /** The column stays within the cursor's line under every key except `G`
      and `p` in normal mode, which move the cursor to another line and
      leave the column where it was. */
  lemma ColumnBoundKept(e: Editor, k: Key)
    requires Valid(e) && ColumnInLine(e)
    requires !(e.mode == Normal && ((k.name == "g" && k.shift) || k.name == "p"))
    ensures ColumnInLine(HandleKey(e, k).editor)
  {
    var e0 := e.(message := "");
    if !e.closed && e.mode == Normal {
      assert HandleKey(e, k).editor == NormalKey(e0, k);
    } else if !e.closed && e.mode == Insert {
      assert HandleKey(e, k).editor == InsertKey(e0, k);
    }
  }

  /** The vertical motions move one line down or up, stopping at the first
      and last lines, and pull the column back to the end of the new line
      when it lies past it; `G` moves to the last line and touches nothing
      else, not even the column. */
  lemma VerticalMotions(e: Editor)
    requires Valid(e) && e.mode == Normal && !e.closed
    ensures var down := if e.row + 1 < |e.lines| then e.row + 1 else e.row;
            forall name | name == "j" || name == "ArrowDown" ::
              HandleKey(e, Plain(name)).editor == e.(message := "", row := down, col := Min(e.col, |e.lines[down]|))
    ensures var up := if e.row > 0 then e.row - 1 else 0;
            forall name | name == "k" || name == "ArrowUp" ::
              HandleKey(e, Plain(name)).editor == e.(message := "", row := up, col := Min(e.col, |e.lines[up]|))
    ensures HandleKey(e, Key("g", true, false, false)).editor == e.(message := "", row := |e.lines| - 1)
  {
  }

  /** The horizontal motions: one column left stopping at 0, one right
      stopping at the end of the line, `0` to the start and `$` to the end. */
  lemma HorizontalMotions(e: Editor)
    requires Valid(e) && e.mode == Normal && !e.closed
    ensures var line := e.lines[e.row];
            && (forall name | name == "h" || name == "ArrowLeft" ::
                  HandleKey(e, Plain(name)).editor == e.(message := "", col := if e.col > 0 then e.col - 1 else 0))
            && (forall name | name == "l" || name == "ArrowRight" ::
                  HandleKey(e, Plain(name)).editor == e.(message := "", col := Min(e.col + 1, |line|)))
            && HandleKey(e, Plain("0")).editor == e.(message := "", col := 0)
            && HandleKey(e, Plain("$")).editor == e.(message := "", col := |line|)
  {
  }

  /** `G` keeps a column that lies past the end of the last line. */
  lemma GotoLastLineKeepsColumn(e: Editor)
    requires e == Editor("f", ["abc", ""], 0, 3, Normal, "", "", "", false, false)
    ensures Valid(e) && ColumnInLine(e)
    ensures !ColumnInLine(HandleKey(e, Key("g", true, false, false)).editor)
  {
  }

  /** `p` moves to the pasted line and keeps a column past its end. */
  lemma PasteKeepsColumn(e: Editor)
    requires e == Editor("f", ["abcd"], 0, 4, Normal, "", "x", "", false, false)
    ensures Valid(e) && ColumnInLine(e)
    ensures !ColumnInLine(HandleKey(e, Key("p", false, false, false)).editor)
  {
  }

  /** `o` opens an empty line below the cursor, `O` one at the cursor; both
      put the cursor at its start in insert mode. */
  lemma OpenLineInsertsOneEmptyLine(e: Editor, k: Key)
    requires Valid(e) && e.mode == Normal && !e.closed
    requires k.name == "o" || (k.name == "O" && k.shift)
    ensures var r := HandleKey(e, k).editor;
            var at := if k.name == "o" then e.row + 1 else e.row;
            && |r.lines| == |e.lines| + 1
            && r.lines[..at] == e.lines[..at] && r.lines[at] == "" && r.lines[at + 1..] == e.lines[at..]
            && r.row == at && r.col == 0 && r.mode == Insert && r.modified
  {
  }

  /** `x` removes exactly the character under the cursor, and does nothing
      when the cursor is past the end of the line. */
  lemma DeleteCharRemovesOne(e: Editor)
    requires Valid(e) && e.mode == Normal && !e.closed
    ensures var line := e.lines[e.row];
            var r := HandleKey(e, Plain("x")).editor;
            && |r.lines| == |e.lines| && r.row == e.row && r.col == e.col
            && (forall i :: 0 <= i < |e.lines| && i != e.row ==> r.lines[i] == e.lines[i])
            && (e.col < |line| ==>
                  && |r.lines[e.row]| == |line| - 1
                  && r.lines[e.row][..e.col] == line[..e.col]
                  && r.lines[e.row][e.col..] == line[e.col + 1..]
                  && r.modified)
            && (e.col >= |line| ==> r == e.(message := ""))
  {
  }

  /** `D` keeps the first `col` characters of the line. */
  lemma DeleteToEndTruncates(e: Editor)
    requires Valid(e) && e.mode == Normal && !e.closed
    ensures var line := e.lines[e.row];
            var r := HandleKey(e, Key("d", true, false, false)).editor;
            && r.lines[e.row] <= line
            && |r.lines[e.row]| == Min(e.col, |line|)
            && |r.lines| == |e.lines| && r.modified
            && (forall i :: 0 <= i < |e.lines| && i != e.row ==> r.lines[i] == e.lines[i])
            && r.row == e.row && r.col == e.col
  {
  }

  /** `p` with an empty register and Backspace at the very start of the
      buffer change nothing but the message line. */
  lemma NoOpKeys(e: Editor)
    requires Valid(e) && !e.closed
    ensures e.mode == Normal && e.yank == "" ==> HandleKey(e, Plain("p")).editor == e.(message := "")
    ensures e.mode == Insert && e.row == 0 && e.col == 0 ==>
              HandleKey(e, Plain("Backspace")).editor == e.(message := "")
  {
  }

  /** In insert mode a printable key goes in at the cursor, which moves past
      it; Escape goes back to normal mode one column to the left, stopping
      at the start of the line. */
  lemma TypeAndEscape(e: Editor, k: Key)
    requires Valid(e) && e.mode == Insert && !e.closed
    ensures Printable(k) ==>
              var r := HandleKey(e, k).editor;
              && |r.lines| == |e.lines|
              && r.lines[e.row] == Take(e.lines[e.row], e.col) + k.name + Drop(e.lines[e.row], e.col)
              && (forall i :: 0 <= i < |e.lines| && i != e.row ==> r.lines[i] == e.lines[i])
              && r.row == e.row && r.col == e.col + 1 && r.mode == Insert && r.modified
    ensures k.name == "Escape" ==>
              var r := HandleKey(e, k).editor;
              && r.lines == e.lines && r.row == e.row && r.mode == Normal
              && r.col == if e.col == 0 then 0 else e.col - 1
  {
  }

  /** Escape, or a Backspace that empties the command line, returns from
      command mode to normal mode without running anything. */
  lemma LeaveCommandLine(e: Editor, k: Key)
    requires Valid(e) && e.mode == CommandLine && !e.closed
    requires k.name == "Escape" || (k.name == "Backspace" && |e.command| <= 1)
    ensures var r := HandleKey(e, k);
            && r.effects == [] && r.editor.mode == Normal && r.editor.command == ""
            && r.editor.lines == e.lines && r.editor.modified == e.modified
  {
  }

  function Plain(name: string): Key {
    Key(name, false, false, false)
  }

  /** In insert mode Backspace undoes a typed character. */
  lemma TypeThenBackspace(e: Editor, c: char)
    requires Valid(e) && ColumnInLine(e) && e.mode == Insert && !e.closed
    ensures var typed := HandleKey(e, Plain([c])).editor;
            var back := HandleKey(typed, Plain("Backspace")).editor;
            && typed.lines[e.row] == Take(e.lines[e.row], e.col) + [c] + Drop(e.lines[e.row], e.col)
            && back.lines == e.lines && back.row == e.row && back.col == e.col && back.mode == Insert
  {
    var line := e.lines[e.row];
    var typed := HandleKey(e, Plain([c])).editor;
    var t := typed.lines[e.row];
    assert Take(t, e.col) == Take(line, e.col);
    assert Drop(t, e.col + 1) == Drop(line, e.col);
    assert e.lines[e.row := line] == e.lines;
  }

  /** In insert mode Backspace at the start of a line joins it to the line
      before, undoing the split made by Enter. */
  lemma EnterThenBackspace(e: Editor)
    requires Valid(e) && ColumnInLine(e) && e.mode == Insert && !e.closed
    ensures var split := HandleKey(e, Plain("Enter")).editor;
            var back := HandleKey(split, Plain("Backspace")).editor;
            && |split.lines| == |e.lines| + 1
            && split.lines[e.row] + split.lines[e.row + 1] == e.lines[e.row]
            && back.lines == e.lines && back.row == e.row && back.col == e.col
  {
    var line := e.lines[e.row];
    var split := HandleKey(e, Plain("Enter")).editor;
    assert split.lines[e.row] == Take(line, e.col);
    assert split.lines[e.row + 1] == Drop(line, e.col);
    var back := HandleKey(split, Plain("Backspace")).editor;
    assert split.lines[..e.row] == e.lines[..e.row];
    assert split.lines[e.row + 2..] == e.lines[e.row + 1..];
    assert back.lines == e.lines[..e.row] + [line] + e.lines[e.row + 1..];
    assert e.lines == e.lines[..e.row] + [line] + e.lines[e.row + 1..];
  }

  /** `Y` then `p` puts a copy of a non-empty line below it and moves there. */
  lemma YankThenPaste(e: Editor)
    requires Valid(e) && e.mode == Normal && !e.closed && e.lines[e.row] != ""
    ensures var yanked := HandleKey(e, Key("y", true, false, false));
            var pasted := HandleKey(yanked.editor, Plain("p")).editor;
            && yanked.editor.lines == e.lines && yanked.editor.message == "yanked line"
            && pasted.lines == InsertAt(e.lines, e.row + 1, e.lines[e.row])
            && pasted.row == e.row + 1 && pasted.modified
  {
  }

  /** `Y` copies the cursor's line, whatever it holds, into the register and
      changes nothing else but the message. */
  lemma YankCopiesLine(e: Editor)
    requires Valid(e) && e.mode == Normal && !e.closed
    ensures HandleKey(e, Key("y", true, false, false)).editor
              == e.(yank := e.lines[e.row], message := "yanked line")
  {
  }

  /** `p` with a non-empty register inserts it as a new line below the
      cursor and moves down to it, keeping the column. */
  lemma PasteInsertsBelow(e: Editor)
    requires Valid(e) && e.mode == Normal && !e.closed && e.yank != ""
    ensures var r := HandleKey(e, Plain("p")).editor;
            && |r.lines| == |e.lines| + 1
            && r.lines[..e.row + 1] == e.lines[..e.row + 1]
            && r.lines[e.row + 1] == e.yank
            && r.lines[e.row + 2..] == e.lines[e.row + 1..]
            && r.row == e.row + 1 && r.col == e.col && r.modified
            && r.yank == e.yank && r.mode == Normal
  {
  }

  /** Backspace inside a line removes the character before the cursor and
      moves the cursor onto its place; past the end of the line there is no
      such character and only the cursor moves. */
  lemma BackspaceDeletesBefore(e: Editor)
    requires Valid(e) && e.mode == Insert && !e.closed && e.col > 0
    ensures var line := e.lines[e.row];
            var r := HandleKey(e, Plain("Backspace")).editor;
            && |r.lines| == |e.lines|
            && (forall i :: 0 <= i < |e.lines| && i != e.row ==> r.lines[i] == e.lines[i])
            && r.row == e.row && r.col == e.col - 1 && r.mode == Insert && r.modified
            && (e.col <= |line| ==>
                  && |r.lines[e.row]| == |line| - 1
                  && r.lines[e.row][..e.col - 1] == line[..e.col - 1]
                  && r.lines[e.row][e.col - 1..] == line[e.col..])
            && (e.col > |line| ==> r.lines[e.row] == line)
  {
  }

  /** Backspace at the start of a line below the first joins the line onto
      the end of the one before, leaving one line fewer, with the cursor at
      the join. */
  lemma BackspaceJoinsLines(e: Editor)
    requires Valid(e) && e.mode == Insert && !e.closed && e.col == 0 && e.row > 0
    ensures var prev := e.lines[e.row - 1];
            var r := HandleKey(e, Plain("Backspace")).editor;
            && |r.lines| == |e.lines| - 1
            && r.lines[..e.row - 1] == e.lines[..e.row - 1]
            && r.lines[e.row - 1] == prev + e.lines[e.row]
            && r.lines[e.row..] == e.lines[e.row + 1..]
            && r.row == e.row - 1 && r.col == |prev| && r.mode == Insert && r.modified
  {
  }

  /** What was saved reads back as the same lines, as long as no line holds
      a line break (the lines of an opened file never do). */
  lemma ReopenSaved(filename: string, lines: seq<string>)
    requires |lines| >= 1
    requires forall k :: 0 <= k < |lines| ==> '\n' !in lines[k]
    ensures Open(filename, Join(lines, "\n")).lines == lines
  {
    SplitJoin(lines, '\n');
    assert "\n" == ['\n'];
    JoinEmpty(lines);
  }

  /** Only a single empty line saves as the empty text. */
  lemma JoinEmpty(lines: seq<string>)
    requires |lines| >= 1
    ensures Join(lines, "\n") == "" <==> lines == [""]
  {
    if |lines| > 1 {
      assert |Join(lines, "\n")| >= 1;
    }
  }

  // ---------------------------------------------------------------------
  // Typing a `:` command
  // ---------------------------------------------------------------------

  /** The keys in `ks` one after another, with all effects in order. */
  function Feed(e: Editor, ks: seq<Key>): (r: Reaction)
    requires Valid(e)
    ensures Valid(r.editor)
    ensures e.closed ==> r == Reaction(e, [])
    decreases |ks|
  {
    if ks == [] then Reaction(e, [])
    else
      var first := HandleKey(e, ks[0]);
      var rest := Feed(first.editor, ks[1..]);
      Reaction(rest.editor, first.effects + rest.effects)
  }

  /** The plain key for every character of `s`. */
  function CharKeys(s: string): (r: seq<Key>)
    ensures |r| == |s|
    ensures forall i :: 0 <= i < |s| ==> r[i] == Plain([s[i]])
  {
    seq(|s|, i requires 0 <= i < |s| => Plain([s[i]]))
  }

  /** On the command line, typing the characters of `s` and then Enter runs
      the command line extended by `s`. */
  lemma {:induction false} TypeThenEnter(e: Editor, s: string)
    requires Valid(e) && e.mode == CommandLine && !e.closed
    ensures var r := Feed(e, CharKeys(s) + [Plain("Enter")]);
            var x := ExecuteCommand(e, e.command + s);
            && r.effects == x.effects
            && r.editor.lines == e.lines
            && (r.editor.closed <==> Quits(e.command + s, e.modified))
    decreases |s|
  {
    if s == [] {
      assert CharKeys(s) + [Plain("Enter")] == [Plain("Enter")];
      assert e.command + s == e.command;
      EnterRunsCommand(e);
    } else {
      TypeCommandChar(e, s[0]);
      assert CharKeys(s) + [Plain("Enter")] == [Plain([s[0]])] + (CharKeys(s[1..]) + [Plain("Enter")]);
      FeedQuietKey(e, Plain([s[0]]), CharKeys(s[1..]) + [Plain("Enter")]);
      TypeThenEnter(e.(message := "", command := e.command + [s[0]]), s[1..]);
      assert (e.command + [s[0]]) + s[1..] == e.command + s;
    }
  }

  /** A key without effects only hands its editor on to the keys after it. */
  lemma FeedQuietKey(e: Editor, k: Key, ks: seq<Key>)
    requires Valid(e) && HandleKey(e, k).effects == []
    ensures Feed(e, [k] + ks) == Feed(HandleKey(e, k).editor, ks)
  {
    assert ([k] + ks)[1..] == ks;
  }

  /** On the command line a character key extends the command. */
  lemma TypeCommandChar(e: Editor, c: char)
    requires Valid(e) && e.mode == CommandLine && !e.closed
    ensures HandleKey(e, Plain([c])) == Reaction(e.(message := "", command := e.command + [c]), [])
  {
  }

  /** On the command line Enter runs the command typed so far. */
  lemma EnterRunsCommand(e: Editor)
    requires Valid(e) && e.mode == CommandLine && !e.closed
    ensures var r := Feed(e, [Plain("Enter")]);
            var x := ExecuteCommand(e, e.command);
            && r.effects == x.effects
            && r.editor.lines == e.lines
            && (r.editor.closed <==> Quits(e.command, e.modified))
  {
    assert [Plain("Enter")][1..] == [];
  }

  /** Typing `:`, a command and Enter in normal mode runs that command: its
      effects are exactly those of `executeCommand`, and the editor closes
      exactly when the command quits. */
  lemma ColonCommand(e: Editor, cmd: string)
    requires Valid(e) && e.mode == Normal && !e.closed
    ensures var r := Feed(e, [Plain(":")] + CharKeys(cmd) + [Plain("Enter")]);
            && r.effects == ExecuteCommand(e, cmd).effects
            && (r.editor.closed <==> Quits(cmd, e.modified))
  {
    assert HandleKey(e, Plain(":")) == Reaction(e.(message := "", mode := CommandLine, command := ""), []);
    assert [Plain(":")] + CharKeys(cmd) + [Plain("Enter")] == [Plain(":")] + (CharKeys(cmd) + [Plain("Enter")]);
    FeedQuietKey(e, Plain(":"), CharKeys(cmd) + [Plain("Enter")]);
    TypeThenEnter(e.(message := "", mode := CommandLine, command := ""), cmd);
    assert "" + cmd == cmd;
  }

  /** `:wq` hands the current text to the host and then closes. */
  lemma WriteQuitSavesThenExits(e: Editor)
    requires Valid(e) && e.mode == Normal && !e.closed
    ensures Feed(e, [Plain(":")] + CharKeys("wq") + [Plain("Enter")]).effects
            == [Saved(e.filename, Join(e.lines, "\n")), Exited]
  {
    ColonCommand(e, "wq");
  }
}

=== FILE: filesystem.dfy ===
/**
 The virtual filesystem of the emulator: a tree whose directories map names
 to nodes in creation order, path arithmetic over it (`resolvePath`), the
 walk from the root (`getNode`), and the single tree update that every
 mutating command is built from (set or delete one entry of one directory).
 */
module FileSystem {
  import opened Wrappers
  import opened Strings

  /** A file holds its text; a directory holds its entries in the order they
      were created, which is the order listing commands show them in. */
  datatype Node = File(content: string) | Dir(entries: seq<(string, Node)>)

  type Entries = seq<(string, Node)>

  function Names(es: Entries): (r: seq<string>)
    ensures |r| == |es|
  {
    if es == [] then [] else [es[0].0] + Names(es[1..])
  }

  predicate Distinct(ns: seq<string>) {
    forall i, j :: 0 <= i < j < |ns| ==> ns[i] != ns[j]
  }

  /** `name in dir` followed by `dir[name]`: the node stored under a name. */
  function Lookup(es: Entries, n: string): (r: Option<Node>)
    ensures r.Some? <==> n in Names(es)
    ensures r.Some? ==> (n, r.value) in es
  {
    if es == [] then None
    else if es[0].0 == n then Some(es[0].1)
    else Lookup(es[1..], n)
  }

  /** `dir[name] = v`: an existing entry keeps its place and gets the new
      node; a new name is appended after all others. */
  function Put(es: Entries, n: string, v: Node): (r: Entries)
    ensures Lookup(r, n) == Some(v)
    ensures forall m :: m != n ==> Lookup(r, m) == Lookup(es, m)
    ensures Names(r) == if n in Names(es) then Names(es) else Names(es) + [n]
    ensures forall k :: 0 <= k < |r| ==> r[k] == (n, v) || r[k] in es
  {
    if es == [] then [(n, v)]
    else if es[0].0 == n then
      assert ([(n, v)] + es[1..])[1..] == es[1..];
      [(n, v)] + es[1..]
    else
      var rest := Put(es[1..], n, v);
      assert ([es[0]] + rest)[1..] == rest;
      [es[0]] + rest
  }

  /** `delete dir[name]`. */
  function Remove(es: Entries, n: string): (r: Entries)
    ensures Lookup(r, n) == None
    ensures forall m :: m != n ==> Lookup(r, m) == Lookup(es, m)
    ensures n !in Names(es) ==> r == es
    ensures forall k :: 0 <= k < |r| ==> r[k] in es
  {
    if es == [] then []
    else if es[0].0 == n then Remove(es[1..], n)
    else [es[0]] + Remove(es[1..], n)
  }

  /** Walks `path` from `node`: every component must name an entry of a
      directory; descending into a file, or a missing name, yields `None`. */
  function Get(node: Node, path: seq<string>): (r: Option<Node>)
    ensures path == [] ==> r == Some(node)
    ensures path != [] && node.File? ==> r.None?
    ensures path != [] && node.Dir? && path[0] !in Names(node.entries) ==> r.None?
    ensures path != [] && r.Some? ==> node.Dir? && Lookup(node.entries, path[0]).Some?
    decreases |path|
  {
    if path == [] then Some(node)
    else match node
      case File(_) => None
      case Dir(es) =>
        match Lookup(es, path[0])
        case None => None
        case Some(child) => Get(child, path[1..])
  }

  /** A walk that fails on the way fails however far it was meant to go,
      and a walk that reaches a file can go no further. */
  lemma GetFailsOnTheWay(node: Node, p: seq<string>, q: seq<string>)
    ensures Get(node, p).None? ==> Get(node, p + q).None?
    ensures q != [] && Get(node, p).Some? && Get(node, p).value.File? ==> Get(node, p + q).None?
  {
    GetAppend(node, p, q);
  }

  /** Every proper prefix of a path that walks somewhere names a directory. */
  lemma GetFoundWalksDirs(node: Node, p: seq<string>, q: seq<string>)
    requires Get(node, p).Some? && q < p
    ensures IsDirAt(node, q)
  {
    var rest := p[|q|..];
    assert p == q + rest;
    GetAppend(node, q, rest);
  }

  predicate IsDirAt(root: Node, path: seq<string>) {
    Get(root, path).Some? && Get(root, path).value.Dir?
  }

  /** JavaScript truthiness of a lookup: `null` and the empty file `''` are
      both falsy, so callers that test `!node` treat an empty file as missing. */
  predicate Present(o: Option<Node>) {
    o.Some? && o.value != File("")
  }

  /** Sets (`Some`) or deletes (`None`) the entry `n` of the directory at
      `path`, rebuilding the directories above it. */
  function SetChild(node: Node, path: seq<string>, n: string, v: Option<Node>): (r: Node)
    requires IsDirAt(node, path)
    ensures r.Dir?
    decreases |path|
  {
    var es := node.entries;
    if path == [] then
      Dir(if v.Some? then Put(es, n, v.value) else Remove(es, n))
    else
      var child := Lookup(es, path[0]).value;
      Dir(Put(es, path[0], SetChild(child, path[1..], n, v)))
  }

  /** Deleting an entry keeps the names of the others distinct. */
  lemma {:induction false} RemoveDistinct(es: Entries, n: string)
    requires Distinct(Names(es))
    ensures Distinct(Names(Remove(es, n)))
    ensures forall m :: m in Names(Remove(es, n)) ==> m in Names(es)
  {
    if es != [] {
      assert Names(es) == [es[0].0] + Names(es[1..]);
      assert Distinct(Names(es[1..])) by {
        forall i, j | 0 <= i < j < |Names(es[1..])| ensures Names(es[1..])[i] != Names(es[1..])[j] {
          assert Names(es[1..])[i] == Names(es)[i + 1];
          assert Names(es[1..])[j] == Names(es)[j + 1];
        }
      }
      RemoveDistinct(es[1..], n);
      if es[0].0 != n {
        var r := Remove(es[1..], n);
        assert Remove(es, n) == [es[0]] + r;
        assert ([es[0]] + r)[1..] == r;
        assert Names([es[0]] + r) == [es[0].0] + Names(r);
        assert es[0].0 !in Names(es[1..]) by {
          forall i | 0 <= i < |Names(es[1..])| ensures Names(es[1..])[i] != es[0].0 {
            assert Names(es[1..])[i] == Names(es)[i + 1];
            assert Names(es)[0] == es[0].0;
          }
        }
      }
    }
  }

  /** No directory anywhere in the tree holds two entries with the same
      name, as for the keys of a JavaScript object. */
  predicate Tidy(node: Node)
    decreases node
  {
    node.Dir? ==>
      && Distinct(Names(node.entries))
      && forall k :: 0 <= k < |node.entries| ==> Tidy(node.entries[k].1)
  }

  /** Setting an entry to a tidy node (or deleting it) keeps the tree tidy. */
  lemma {:induction false} SetChildTidy(node: Node, path: seq<string>, n: string, v: Option<Node>)
    requires IsDirAt(node, path) && Tidy(node)
    requires v.Some? ==> Tidy(v.value)
    ensures Tidy(SetChild(node, path, n, v))
    decreases |path|
  {
    var es := node.entries;
    if path != [] {
      var child := Lookup(es, path[0]).value;
      assert Tidy(child) by {
        var k :| 0 <= k < |es| && es[k] == (path[0], child);
      }
      SetChildTidy(child, path[1..], n, v);
    }
    if path == [] && v.None? {
      RemoveDistinct(es, n);
    }
    var r := SetChild(node, path, n, v);
    forall k | 0 <= k < |r.entries| ensures Tidy(r.entries[k].1) {
      if r.entries[k] in es {
        var i :| 0 <= i < |es| && es[i] == r.entries[k];
      }
    }
  }

  /** Walking a concatenated path is walking its two halves in turn. */
  lemma {:induction false} GetAppend(node: Node, p: seq<string>, q: seq<string>)
    ensures Get(node, p + q) == if Get(node, p).Some? then Get(Get(node, p).value, q) else None
    decreases |p|
  {
    if p == [] {
      assert p + q == q;
    } else {
      assert (p + q)[0] == p[0];
      assert (p + q)[1..] == p[1..] + q;
      match node
      case File(_) =>
      case Dir(es) =>
        match Lookup(es, p[0])
        case None =>
        case Some(child) => GetAppend(child, p[1..], q);
    }
  }

  /** After setting entry `n` of the directory at `path`, walking to
      `path + [n]` finds exactly what was set. */
  lemma {:induction false} SetChildHit(node: Node, path: seq<string>, n: string, v: Option<Node>)
    requires IsDirAt(node, path)
    ensures Get(SetChild(node, path, n, v), path + [n]) == v
    decreases |path|
  {
    var es := node.entries;
    if path == [] {
      assert [n][1..] == [];
    } else {
      var child := Lookup(es, path[0]).value;
      assert (path + [n])[0] == path[0];
      assert (path + [n])[1..] == path[1..] + [n];
      SetChildHit(child, path[1..], n, v);
    }
  }

  /** After setting entry `n` of the directory at `path`, that directory
      holds exactly its old entries with `n` put or removed. */
  lemma {:induction false} SetChildAt(node: Node, path: seq<string>, n: string, v: Option<Node>)
    requires IsDirAt(node, path)
    ensures var es := Get(node, path).value.entries;
            Get(SetChild(node, path, n, v), path) == Some(Dir(if v.Some? then Put(es, n, v.value) else Remove(es, n)))
    decreases |path|
  {
    if path != [] {
      var child := Lookup(node.entries, path[0]).value;
      SetChildAt(child, path[1..], n, v);
    }
  }

  /** Setting one entry changes nothing off the path to it: every walk that
      neither stops on the way to the entry nor goes through it is unchanged. */
  lemma {:induction false} SetChildFrame(node: Node, path: seq<string>, n: string, v: Option<Node>, q: seq<string>)
    requires IsDirAt(node, path)
    requires !(q <= path) && !(path + [n] <= q)
    ensures Get(SetChild(node, path, n, v), q) == Get(node, q)
    decreases |path|
  {
    var es := node.entries;
    if path == [] {
      assert q != [];
      assert [n] <= q <==> q[0] == n;
    } else {
      assert q != [];
      var child := Lookup(es, path[0]).value;
      if q[0] == path[0] {
        assert q == [q[0]] + q[1..];
        assert path == [path[0]] + path[1..];
        assert path + [n] == [path[0]] + (path[1..] + [n]);
        SetChildFrame(child, path[1..], n, v, q[1..]);
      }
    }
  }

  /** Setting one entry keeps every directory on the way to it a directory. */
  lemma {:induction false} SetChildAbove(node: Node, path: seq<string>, n: string, v: Option<Node>, q: seq<string>)
    requires IsDirAt(node, path)
    requires q <= path
    ensures IsDirAt(SetChild(node, path, n, v), q)
    decreases |path|
  {
    if q != [] {
      var child := Lookup(node.entries, path[0]).value;
      assert q[0] == path[0];
      assert q[1..] <= path[1..];
      SetChildAbove(child, path[1..], n, v, q[1..]);
    }
  }

  /** Replacing or deleting an entry that is not a directory never makes an
      existing directory disappear: every path naming a directory before still
      names one afterwards. */
  lemma {:induction false} SetChildKeepsDirectories(node: Node, path: seq<string>, n: string, v: Option<Node>, q: seq<string>)
    requires IsDirAt(node, path)
    requires var prev := Get(node, path + [n]); prev.None? || prev.value.File?
    requires IsDirAt(node, q)
    ensures IsDirAt(SetChild(node, path, n, v), q)
  {
    if q <= path {
      SetChildAbove(node, path, n, v, q);
    } else if path + [n] <= q {
      var rest := q[|path| + 1..];
      assert q == (path + [n]) + rest;
      GetAppend(node, path + [n], rest);
      assert false;
    } else {
      SetChildFrame(node, path, n, v, q);
    }
  }

  /** `p.split('/').filter(p => p)`. */
  function NonEmpty(ss: seq<string>): (r: seq<string>)
    ensures forall k :: 0 <= k < |r| ==> r[k] != [] && r[k] in ss
    ensures (forall k :: 0 <= k < |ss| ==> ss[k] != []) ==> r == ss
  {
    if ss == [] then []
    else if ss[0] == [] then NonEmpty(ss[1..])
    else [ss[0]] + NonEmpty(ss[1..])
  }

  /** The names a path string walks through: its `/`-separated pieces with
      empty pieces dropped. */
  function Components(p: string): (r: seq<string>)
    ensures ValidComponents(r)
  {
    var r := NonEmpty(Split(p, '/'));
    assert forall k :: 0 <= k < |r| ==> '/' !in r[k] by {
      forall k | 0 <= k < |r| ensures '/' !in r[k] {
        var ss := Split(p, '/');
        var i :| 0 <= i < |ss| && ss[i] == r[k];
      }
    }
    r
  }

  predicate ValidComponents(ps: seq<string>) {
    forall k :: 0 <= k < |ps| ==> ps[k] != [] && '/' !in ps[k]
  }

  /** `'/' + parts.join('/')`. */
  function PathOf(ps: seq<string>): string {
    "/" + Join(ps, "/")
  }

  /** Reading the components back out of a rebuilt path gives the components. */
  lemma ComponentsOfPathOf(ps: seq<string>)
    requires ValidComponents(ps)
    ensures Components(PathOf(ps)) == ps
  {
    var s := PathOf(ps);
    assert IndexOf(s, '/') == 0;
    assert s[..0] == [];
    assert s[1..] == Join(ps, "/");
    if ps == [] {
      assert s[1..] == [];
      assert Split(s[1..], '/') == [[]];
      assert Split(s, '/') == [[], []];
      assert NonEmpty([[]]) == [];
    } else {
      SplitJoin(ps, '/');
      assert Split(s, '/') == [[]] + ps;
    }
  }

  predicate IsAbsolute(p: string) {
    |p| > 0 && p[0] == '/'
  }

  /** The loop of `resolvePath` over relative components: `..` pops the last
      component (doing nothing at the root), `.` is skipped, any other name
      is pushed. */
  function Walk(parts: seq<string>, steps: seq<string>): (r: seq<string>)
    ensures ValidComponents(parts) && ValidComponents(steps) ==> ValidComponents(r)
    decreases |steps|
  {
    if steps == [] then parts
    else if steps[0] == ".." then Walk(if parts == [] then [] else parts[..|parts| - 1], steps[1..])
    else if steps[0] == "." then Walk(parts, steps[1..])
    else Walk(parts + [steps[0]], steps[1..])
  }

  /** `resolvePath`: an absolute path (one starting with `/`) is returned
      exactly as given, so `.` and `..` inside it are not interpreted; a
      relative path is applied to the components of the current directory. */
  function ResolvePath(cwd: string, path: string): (r: string)
    ensures IsAbsolute(path) ==> r == path
    ensures IsAbsolute(r)
    ensures !IsAbsolute(path) ==> Components(r) == Walk(Components(cwd), Components(path))
  {
    if IsAbsolute(path) then path
    else
      var ps := Walk(Components(cwd), Components(path));
      ComponentsOfPathOf(ps);
      PathOf(ps)
  }

  /** Looks a path up the way `getNode` does: resolve it, then walk from the root. */
  function GetNode(root: Node, cwd: string, path: string): (r: Option<Node>)
    ensures IsAbsolute(path) ==> r == Get(root, Components(path))
    ensures !IsAbsolute(path) ==> r == Get(root, Walk(Components(cwd), Components(path)))
    ensures path == "/" ==> r == Some(root)
  {
    assert Components("/") == [] by {
      ComponentsOfPathOf([]);
    }
    Get(root, Components(ResolvePath(cwd, path)))
  }

  function Repeat(s: string, k: nat): (r: seq<string>)
    ensures |r| == k
    ensures forall i :: 0 <= i < k ==> r[i] == s
  {
    if k == 0 then [] else [s] + Repeat(s, k - 1)
  }

  /** A run of `..` steps pops one component each and stops at the root. */
  lemma {:induction false} WalkUp(parts: seq<string>, k: nat)
    ensures Walk(parts, Repeat("..", k)) == parts[..if k <= |parts| then |parts| - k else 0]
  {
    if k > 0 {
      var steps := Repeat("..", k);
      assert steps[1..] == Repeat("..", k - 1);
      var popped := if parts == [] then [] else parts[..|parts| - 1];
      WalkUp(popped, k - 1);
    }
  }

  /** The names pushed by a walk: every step except `.`. */
  function Pushed(steps: seq<string>): seq<string> {
    if steps == [] then []
    else if steps[0] == "." then Pushed(steps[1..])
    else [steps[0]] + Pushed(steps[1..])
  }

  /** Without `..`, a walk only appends the non-`.` steps to the components. */
  lemma {:induction false} WalkDown(parts: seq<string>, steps: seq<string>)
    requires ".." !in steps
    ensures Walk(parts, steps) == parts + Pushed(steps)
    decreases |steps|
  {
    if steps != [] {
      assert ".." !in steps[1..] by { assert forall x :: x in steps[1..] ==> x in steps; }
      if steps[0] == "." {
        WalkDown(parts, steps[1..]);
      } else {
        WalkDown(parts + [steps[0]], steps[1..]);
      }
    }
  }

  /** Resolving `.` against a normalised current directory gives it back,
      and resolving `..` from the root stays at the root however often it is
      repeated. */
  lemma ResolveDotAndRoot(ps: seq<string>, k: nat)
    requires ValidComponents(ps)
    ensures ResolvePath(PathOf(ps), ".") == PathOf(ps)
    ensures Components(ResolvePath("/", Join(Repeat("..", k), "/"))) == []
  {
    ComponentsOfPathOf(ps);
    assert Components(".") == ["."] by {
      assert Split(".", '/') == ["."];
    }
    assert Walk(ps, ["."]) == ps;
    var up := Join(Repeat("..", k), "/");
    assert Components("/") == [] by {
      ComponentsOfPathOf([]);
    }
    if k == 0 {
      assert up == "";
      assert Split("", '/') == [""];
    } else {
      assert up[0] == '.' by { JoinFirst(Repeat("..", k)); }
      UpComponents(k);
      WalkUp([], k);
    }
  }

  lemma JoinFirst(ss: seq<string>)
    requires |ss| >= 1 && ss[0] != []
    ensures Join(ss, "/") != [] && Join(ss, "/")[0] == ss[0][0]
  {
  }

  lemma UpComponents(k: nat)
    ensures Components(Join(Repeat("..", k), "/")) == Repeat("..", k)
  {
    if k == 0 {
      assert Split("", '/') == [""];
    } else {
      SplitJoin(Repeat("..", k), '/');
    }
  }
}

=== FILE: interpreter.dfy ===
/**
 `execute`: one command line in, the next shell state and the text to show
 out. The line is recorded in the history, split at the first redirection
 operator the way the two lazy regular expressions `^(.+?)\s*>>\s*(.+)$` and
 `^(.+?)\s*>\s*(.+)$` split it, tokenised on white space and dispatched
 through the command table; the output of a command is then either shown or
 written to the redirection target.
 */
module Interpreter {
  import opened Wrappers
  import opened Strings
  import opened FileSystem
  import opened Shell

  /** No character of `s` is a line terminator, so `.` matches all of it. */
  predicate LineFree(s: string) {
    forall k :: 0 <= k < |s| ==> !IsLineTerminator(s[k])
  }

  // ---------------------------------------------------------------------
  // The regular expression, as a relation
  // ---------------------------------------------------------------------

  /** `^(.+?)\s*OP\s*(.+)$` matches `s` with the first group `s[..i]`, the
      operator at `j` and the second group `s[m..]`: both groups are
      non-empty and free of line terminators, and what lies between them
      and the operator is white space. */
  predicate SplitsAt(s: string, op: string, i: int, j: int, m: int) {
    && 0 < i <= j && j + |op| <= m < |s|
    && LineFree(s[..i])
    && AllSpace(s[i..j])
    && s[j..j + |op|] == op
    && AllSpace(s[j + |op|..m])
    && LineFree(s[m..])
  }

  // ---------------------------------------------------------------------
  // The regular expression, as a search
  // ---------------------------------------------------------------------

  /** Index just past the last line terminator of `u`, or 0 when it has none. */
  function AfterLastBreak(u: string): (n: nat)
    ensures n <= |u|
    ensures LineFree(u[n..])
    ensures n > 0 ==> IsLineTerminator(u[n - 1])
  {
    if u == [] then 0
    else if IsLineTerminator(u[|u| - 1]) then |u|
    else
      var n := AfterLastBreak(u[..|u| - 1]);
      assert u[n..] == u[..|u| - 1][n..] + [u[|u| - 1]];
      n
  }

  /** Whether `\s*(.+)$` matches all of `u`: the greedy white-space run may
      give characters back, so it is enough that some non-empty, terminator
      free suffix is preceded only by white space. */
  predicate TailMatches(u: string) {
    var n := AfterLastBreak(u);
    n < |u| && AllSpace(u[..n])
  }

  lemma TailMatchesIff(u: string)
    ensures TailMatches(u) <==> exists m :: 0 <= m < |u| && AllSpace(u[..m]) && LineFree(u[m..])
  {
    var n := AfterLastBreak(u);
    if TailMatches(u) {
      assert 0 <= n < |u| && AllSpace(u[..n]) && LineFree(u[n..]);
    }
    if m :| 0 <= m < |u| && AllSpace(u[..m]) && LineFree(u[m..]) {
      assert forall k :: m <= k < |u| ==> !IsLineTerminator(u[k]) by {
        forall k | m <= k < |u| ensures !IsLineTerminator(u[k]) {
          assert u[m..][k - m] == u[k];
        }
      }
      assert u[..n] == u[..m][..n];
    }
  }

  /** Whether the pattern after the first group matches the rest `t` of the
      line: the white-space run before the operator is greedy and cannot
      give back anything, since the operator does not start with white space. */
  predicate RestMatches(t: string, op: string) {
    var a := SpaceRun(t);
    a + |op| <= |t| && t[a..a + |op|] == op && TailMatches(t[a + |op|..])
  }

  /** The lazy first group: tries `s[..i]` for `i = start, start + 1, ...`
      while the group stays free of line terminators. */
  function Scan(s: string, op: string, start: nat): (r: Option<nat>)
    requires 1 <= start
    ensures r.Some? ==> start <= r.value < |s| && RestMatches(s[r.value..], op)
    decreases |s| - start
  {
    if start >= |s| || IsLineTerminator(s[start - 1]) then None
    else if RestMatches(s[start..], op) then Some(start)
    else Scan(s, op, start + 1)
  }

  /** The length of the first group of the leftmost match, if any. */
  function FirstMatch(s: string, op: string): (r: Option<nat>)
    ensures r.Some? ==> 0 < r.value < |s|
  {
    if s == [] then None else Scan(s, op, 1)
  }

  /** The operators start with a character that is not white space. */
  predicate Operator(op: string) {
    op != [] && !IsSpace(op[0])
  }

  /** The rest `s[i..]` matches exactly when some operator position and
      second-group start complete a match of the whole pattern at `i`. */
  lemma RestMatchesIff(s: string, op: string, i: nat)
    requires Operator(op) && 0 < i < |s| && LineFree(s[..i])
    ensures RestMatches(s[i..], op) <==> exists j, m :: SplitsAt(s, op, i, j, m)
  {
    if RestMatches(s[i..], op) {
      RestMatchesSplits(s, op, i);
    }
    if j, m :| SplitsAt(s, op, i, j, m) {
      SplitsRestMatches(s, op, i, j, m);
    }
  }

  lemma RestMatchesSplits(s: string, op: string, i: nat)
    requires Operator(op) && 0 < i < |s| && LineFree(s[..i])
    requires RestMatches(s[i..], op)
    ensures exists j, m :: SplitsAt(s, op, i, j, m)
  {
    var t := s[i..];
    var a := SpaceRun(t);
    var u := t[a + |op|..];
    TailMatchesIff(u);
    var m :| 0 <= m < |u| && AllSpace(u[..m]) && LineFree(u[m..]);
    assert s[i..i + a] == t[..a];
    assert s[i + a..i + a + |op|] == t[a..a + |op|];
    assert s[i + a + |op|..i + a + |op| + m] == u[..m];
    assert s[i + a + |op| + m..] == u[m..];
    assert SplitsAt(s, op, i, i + a, i + a + |op| + m);
  }

  /** In a match, the white space before the operator is exactly the greedy run. */
  lemma OperatorAtRun(s: string, op: string, i: nat, j: int, m: int)
    requires Operator(op) && SplitsAt(s, op, i, j, m)
    ensures SpaceRun(s[i..]) == j - i
  {
    var t := s[i..];
    assert t[..j - i] == s[i..j];
    assert t[j - i] == s[j..j + |op|][0];
    SpaceRunExact(t, j - i);
  }

  lemma SplitsRestMatches(s: string, op: string, i: nat, j: int, m: int)
    requires Operator(op) && SplitsAt(s, op, i, j, m)
    ensures RestMatches(s[i..], op)
  {
    var t := s[i..];
    OperatorAtRun(s, op, i, j, m);
    var a := j - i;
    assert t[a..a + |op|] == s[j..j + |op|];
    var u := t[a + |op|..];
    assert u == s[j + |op|..];
    var k := m - j - |op|;
    assert u[..k] == s[j + |op|..m];
    assert u[k..] == s[m..];
    TailMatchesIff(u);
  }

  lemma {:induction false} ScanComplete(s: string, op: string, start: nat, i: nat, j: int, m: int)
    requires Operator(op) && 1 <= start <= i
    requires SplitsAt(s, op, i, j, m)
    requires LineFree(s[..start - 1])
    ensures Scan(s, op, start).Some? && Scan(s, op, start).value <= i
    decreases |s| - start
  {
    assert s[..start] == s[..i][..start];
    assert LineFree(s[..start]);
    assert !IsLineTerminator(s[start - 1]) by { assert s[..start][start - 1] == s[start - 1]; }
    if !RestMatches(s[start..], op) {
      if start == i {
        RestMatchesIff(s, op, i);
      } else {
        ScanComplete(s, op, start + 1, i, j, m);
      }
    }
  }

  lemma {:induction false} ScanSound(s: string, op: string, start: nat)
    requires Operator(op) && 1 <= start
    requires Scan(s, op, start).Some?
    requires LineFree(s[..start - 1])
    ensures Scan(s, op, start).value <= |s| && LineFree(s[..Scan(s, op, start).value])
    ensures exists j, m :: SplitsAt(s, op, Scan(s, op, start).value, j, m)
    decreases |s| - start
  {
    LineFreeExtends(s, start - 1);
    if RestMatches(s[start..], op) {
      assert Scan(s, op, start).value == start;
      RestMatchesIff(s, op, start);
    } else {
      assert Scan(s, op, start) == Scan(s, op, start + 1);
      ScanSound(s, op, start + 1);
    }
  }

  lemma LineFreeExtends(s: string, n: nat)
    requires n < |s| && LineFree(s[..n]) && !IsLineTerminator(s[n])
    ensures LineFree(s[..n + 1])
  {
    assert forall k :: 0 <= k < n ==> s[..n + 1][k] == s[..n][k];
  }

  /** `FirstMatch` finds exactly the lazy group: it succeeds if and only if
      the pattern matches, and then its group is the shortest possible. */
  lemma FirstMatchIsLeftmost(s: string, op: string)
    requires Operator(op)
    ensures FirstMatch(s, op).Some? ==> exists j, m :: SplitsAt(s, op, FirstMatch(s, op).value, j, m)
    ensures forall i, j, m :: SplitsAt(s, op, i, j, m) ==>
              FirstMatch(s, op).Some? && FirstMatch(s, op).value <= i
  {
    if FirstMatch(s, op).Some? {
      ScanSound(s, op, 1);
    }
    forall i, j, m | SplitsAt(s, op, i, j, m)
      ensures FirstMatch(s, op).Some? && FirstMatch(s, op).value <= i
    {
      ScanComplete(s, op, 1, i, j, m);
    }
  }

  // ---------------------------------------------------------------------
  // Redirection
  // ---------------------------------------------------------------------

  datatype Redirect = Redirect(mode: WriteMode, file: string)

  /** The command part of a line and the redirection found in it. */
  datatype Parsed = Parsed(command: string, redirect: Option<Redirect>)

  /** The trimmed second group of the match whose first group is `s[..i]`:
      what follows the operator after the white space run. */
  function FileGroup(s: string, op: string, i: nat): string
    requires i < |s|
  {
    TrimFrom(s, OpEnd(s, op, i))
  }

  /** Where the operator ends when the first group is `s[..i]`. */
  function OpEnd(s: string, op: string, i: nat): nat
    requires i < |s|
  {
    i + SpaceRun(s[i..]) + |op|
  }

  /** `s[k..]` trimmed, or nothing when `k` lies past the end. */
  function TrimFrom(s: string, k: nat): string {
    if k <= |s| then Trim(s[k..]) else ""
  }

  /** `>>` is looked for first; only a line without an append match is
      searched for `>`. Both parts are trimmed. */
  function ParseRedirection(line: string): (r: Parsed)
    ensures r.redirect.Some? && r.redirect.value.mode == Append <==> FirstMatch(line, ">>").Some?
    ensures r.redirect.Some? && r.redirect.value.mode == Overwrite <==>
              FirstMatch(line, ">>").None? && FirstMatch(line, ">").Some?
    ensures r.redirect.None? ==> r.command == line
    ensures r.redirect.Some? ==> Trimmed(r.command) && Trimmed(r.redirect.value.file)
  {
    match FirstMatch(line, ">>")
    case Some(i) =>
      Parsed(Trim(line[..i]), Some(Redirect(Append, FileGroup(line, ">>", i))))
    case None =>
      match FirstMatch(line, ">")
      case Some(i) =>
        Parsed(Trim(line[..i]), Some(Redirect(Overwrite, FileGroup(line, ">", i))))
      case None => Parsed(line, None)
  }

  /** Leading white space does not change what `trim` gives. */
  lemma {:induction false} TrimSpacePrefix(a: string, b: string)
    requires AllSpace(a)
    ensures Trim(a + b) == Trim(b)
  {
    TrimStartSpacePrefix(a, b);
  }

  lemma {:induction false} TrimStartSpacePrefix(a: string, b: string)
    requires AllSpace(a)
    ensures TrimStart(a + b) == TrimStart(b)
  {
    if a != [] {
      assert (a + b)[0] == a[0];
      assert (a + b)[1..] == a[1..] + b;
      TrimStartSpacePrefix(a[1..], b);
    } else {
      assert a + b == b;
    }
  }

  /** The groups computed for a match are the trimmed groups of the regular
      expression, whichever way its greedy second run ends. */
  lemma GroupsOfMatch(s: string, op: string, i: nat, j: int, m: int)
    requires Operator(op) && SplitsAt(s, op, i, j, m)
    ensures FileGroup(s, op, i) == Trim(s[m..])
  {
    OperatorAtRun(s, op, i, j, m);
    assert OpEnd(s, op, i) == j + |op|;
    GroupsAfterGap(s, op, i, j + |op|, m);
  }

  /** The second group, trimmed, is what follows the operator, trimmed:
      the white space between them is dropped by `trim` anyway. */
  lemma GroupsAfterGap(s: string, op: string, i: nat, k: nat, m: nat)
    requires i < |s| && k == OpEnd(s, op, i)
    requires k <= m <= |s| && AllSpace(s[k..m])
    ensures FileGroup(s, op, i) == Trim(s[m..])
  {
    TrimAfterGap(s, k, m);
  }

  lemma TrimAfterGap(s: string, k: nat, m: nat)
    requires k <= m <= |s| && AllSpace(s[k..m])
    ensures Trim(s[k..]) == Trim(s[m..])
  {
    SliceAt(s, k, m);
    TrimSpacePrefix(s[k..m], s[m..]);
  }

  lemma SliceAt(s: string, k: nat, m: nat)
    requires k <= m <= |s|
    ensures s[k..] == s[k..m] + s[m..]
  {
  }

  /** The leftmost match of `op`, when there is one, gives the parse its
      command and file: the trimmed groups of the shortest first group. */
  lemma LeftmostGroups(line: string, op: string)
    requires Operator(op) && FirstMatch(line, op).Some?
    ensures var i := FirstMatch(line, op).value;
            exists j, m :: SplitsAt(line, op, i, j, m) && FileGroup(line, op, i) == Trim(line[m..])
  {
    FirstMatchIsLeftmost(line, op);
    var i := FirstMatch(line, op).value;
    var j, m :| SplitsAt(line, op, i, j, m);
    GroupsOfMatch(line, op, i, j, m);
  }

  /** The parse agrees with the regular expressions: `>>` is reported when
      its pattern matches, with the trimmed groups of the leftmost match. */
  lemma ParseAppendMatches(line: string)
    ensures var r := ParseRedirection(line);
            r.redirect.Some? && r.redirect.value.mode == Append ==>
              exists i, j, m ::
                && SplitsAt(line, ">>", i, j, m)
                && r.command == Trim(line[..i]) && r.redirect.value.file == Trim(line[m..])
                && (forall i', j', m' :: SplitsAt(line, ">>", i', j', m') ==> i <= i')
  {
    if FirstMatch(line, ">>").Some? {
      FirstMatchIsLeftmost(line, ">>");
      LeftmostGroups(line, ">>");
    }
  }

  /** `>` is reported only when `>>` does not match and `>` does, again with
      the trimmed groups of the leftmost match. */
  lemma ParseOverwriteMatches(line: string)
    ensures var r := ParseRedirection(line);
            r.redirect.Some? && r.redirect.value.mode == Overwrite ==>
              && (forall i, j, m :: !SplitsAt(line, ">>", i, j, m))
              && exists i, j, m ::
                   && SplitsAt(line, ">", i, j, m)
                   && r.command == Trim(line[..i]) && r.redirect.value.file == Trim(line[m..])
                   && (forall i', j', m' :: SplitsAt(line, ">", i', j', m') ==> i <= i')
  {
    FirstMatchIsLeftmost(line, ">>");
    if FirstMatch(line, ">>").None? && FirstMatch(line, ">").Some? {
      FirstMatchIsLeftmost(line, ">");
      LeftmostGroups(line, ">");
    }
  }

  /** No redirection is reported exactly when neither pattern matches. */
  lemma ParseNoRedirectIff(line: string)
    ensures ParseRedirection(line).redirect.None? <==>
              forall i, j, m :: !SplitsAt(line, ">>", i, j, m) && !SplitsAt(line, ">", i, j, m)
  {
    FirstMatchIsLeftmost(line, ">>");
    FirstMatchIsLeftmost(line, ">");
  }

  /** A line without the operator's first character never matches. */
  lemma NoOperatorNoMatch(s: string, op: string)
    requires Operator(op) && op[0] !in s
    ensures FirstMatch(s, op).None?
  {
    if s != [] {
      NoOperatorScan(s, op, 1);
    }
  }

  lemma {:induction false} NoOperatorScan(s: string, op: string, start: nat)
    requires Operator(op) && op[0] !in s && 1 <= start
    ensures Scan(s, op, start).None?
    decreases |s| - start
  {
    if start < |s| && !IsLineTerminator(s[start - 1]) {
      var t := s[start..];
      assert forall k :: 0 <= k < |t| ==> t[k] != op[0] by {
        forall k | 0 <= k < |t| ensures t[k] != op[0] {
          assert t[k] == s[start + k];
        }
      }
      NoOperatorScan(s, op, start + 1);
    }
  }

  // ---------------------------------------------------------------------
  // execute
  // ---------------------------------------------------------------------

  datatype Step = Step(state: State, output: string)

  /** The words of the command part: `actualCommand.trim().split(/\s+/)`. */
  function Words(line: string): (r: seq<string>)
    ensures |r| >= 1
    ensures forall k :: 0 <= k < |r| ==> SpaceFree(r[k])
    ensures AllSpace(ParseRedirection(line).command) ==> r == [""]
    ensures !AllSpace(ParseRedirection(line).command) ==> forall k :: 0 <= k < |r| ==> r[k] != []
  {
    var t := Trim(ParseRedirection(line).command);
    if t == [] then Tokens(t)
    else
      TokensOfTrimmedNonEmpty(t);
      Tokens(t)
  }

  /** Running a known command and delivering its output: an exception is
      reported behind the command name; with a non-empty redirection target
      the output is written there (an error message replacing it on failure)
      and nothing is shown. */
  function Dispatch(s: State, name: string, args: seq<string>, redirect: Option<Redirect>, now: string): (r: Step)
    ensures r.state.history == s.history
    ensures r.state.env.user == s.env.user && r.state.env.home == s.env.home
    ensures Run(s, name, args, now).Thrown? ==> r == Step(s, "Error executing " + name + ": " + Run(s, name, args, now).message)
    ensures Run(s, name, args, now).Returned? && (redirect.None? || redirect.value.file == "") ==>
              r == Step(Run(s, name, args, now).state, Run(s, name, args, now).output)
    ensures Run(s, name, args, now).Returned? && redirect.Some? && redirect.value.file != "" ==>
              var w := WriteToFile(Run(s, name, args, now).state, redirect.value.file, Run(s, name, args, now).output, redirect.value.mode);
              && (w.Written? ==> r.output == "" && r.state.root == w.root)
              && (w.WriteFailed? ==> r == Step(Run(s, name, args, now).state, w.message))
  {
    match Run(s, name, args, now)
    case Thrown(msg) => Step(s, "Error executing " + name + ": " + msg)
    case Returned(s2, out) =>
      if redirect.Some? && redirect.value.file != "" then
        match WriteToFile(s2, redirect.value.file, out, redirect.value.mode)
        case WriteFailed(msg) => Step(s2, msg)
        case Written(root) => Step(s2.(root := root), "")
      else Step(s2, out)
  }

  /** `execute(line)`, with `now` standing for the clock `date` reads. A
      blank line does nothing; any other line is recorded, and an unknown
      command name is reported without running or writing anything. */
  function Execute(s: State, line: string, now: string): (r: Step)
    ensures AllSpace(line) ==> r == Step(s, "")
    ensures !AllSpace(line) ==> r.state.history == s.history + [line]
    ensures !AllSpace(line) && Words(line)[0] !in CommandNames ==>
              r == Step(s.(history := s.history + [line]), Words(line)[0] + ": command not found")
    ensures r.state.env.user == s.env.user && r.state.env.home == s.env.home
  {
    if Trim(line) == "" then Step(s, "")
    else
      var s1 := s.(history := s.history + [line]);
      var words := Words(line);
      if words[0] !in CommandNames then Step(s1, words[0] + ": command not found")
      else Dispatch(s1, words[0], words[1..], ParseRedirection(line).redirect, now)
  }

  /** Every step keeps the invariant of the shell state. */
  lemma ExecuteValid(s: State, line: string, now: string)
    requires Valid(s)
    ensures Valid(Execute(s, line, now).state)
  {
    if !AllSpace(line) {
      var s1 := s.(history := s.history + [line]);
      var p := ParseRedirection(line);
      var name := Words(line)[0];
      var args := Words(line)[1..];
      if name in CommandNames {
        RunValid(s1, name, args, now);
        var r := Run(s1, name, args, now);
        if r.Returned? && p.redirect.Some? && p.redirect.value.file != "" {
          WriteValid(r.state, p.redirect.value.file, r.output, p.redirect.value.mode);
        }
      }
    }
  }

  /** Redirected output is not shown: when the command returns and the file
      is written, the step prints nothing, and the file then holds the output
      (after whatever it held before, when appending). */
  lemma RedirectionIsSilent(s: State, line: string, now: string)
    requires !AllSpace(line)
    requires var p := ParseRedirection(line); p.redirect.Some? && p.redirect.value.file != ""
    requires Words(line)[0] in CommandNames
    requires var r := Run(s.(history := s.history + [line]), Words(line)[0], Words(line)[1..], now);
             && r.Returned?
             && WriteToFile(r.state, ParseRedirection(line).redirect.value.file, r.output,
                            ParseRedirection(line).redirect.value.mode).Written?
    ensures Execute(s, line, now).output == ""
  {
  }

  /** A command that throws shows its message behind the command name and
      leaves the filesystem and current directory as they were. */
  lemma ThrownIsReported(s: State, line: string, now: string)
    requires !AllSpace(line) && Words(line)[0] in CommandNames
    requires Run(s.(history := s.history + [line]), Words(line)[0], Words(line)[1..], now).Thrown?
    ensures var msg := Run(s.(history := s.history + [line]), Words(line)[0], Words(line)[1..], now).message;
            Execute(s, line, now) == Step(s.(history := s.history + [line]), "Error executing " + Words(line)[0] + ": " + msg)
  {
  }

  /** `history` is recorded before it runs, so its last line is the raw
      line that ran it. */
  lemma HistoryListsItself(s: State, line: string, now: string)
    requires !AllSpace(line) && ParseRedirection(line).redirect.None?
    requires Words(line)[0] == "history"
    ensures var out := Execute(s, line, now).output;
            var last := NatToString(|s.history| + 1) + "  " + line;
            |last| <= |out| && out[|out| - |last|..] == last
  {
    var s1 := s.(history := s.history + [line]);
    ExecuteHistory(s, line, now);
    var h := HistoryLines(s1.history);
    JoinEndsWithLast(h, "\n");
    assert h[|h| - 1] == NatToString(|s.history| + 1) + "  " + line;
  }

  lemma ExecuteHistory(s: State, line: string, now: string)
    requires !AllSpace(line) && ParseRedirection(line).redirect.None?
    requires Words(line)[0] == "history"
    ensures Execute(s, line, now).output == History(s.(history := s.history + [line]))
  {
    var s1 := s.(history := s.history + [line]);
    HistoryKnown();
    ExecuteKnown(s, line, now);
    RunHistory(s1, Words(line)[1..], now);
  }

  lemma HistoryKnown()
    ensures "history" in CommandNames
  {
    assert CommandNames[11] == "history";
  }

  /** A known command name on a non-blank line is dispatched on the state
      that has the line recorded. */
  lemma ExecuteKnown(s: State, line: string, now: string)
    requires !AllSpace(line) && Words(line)[0] in CommandNames
    ensures Execute(s, line, now)
         == Dispatch(s.(history := s.history + [line]), Words(line)[0], Words(line)[1..], ParseRedirection(line).redirect, now)
  {
  }

  lemma RunHistory(s: State, args: seq<string>, now: string)
    ensures Run(s, "history", args, now) == Returned(s, History(s))
  {
  }

  /** The bare line `history` runs the command without redirection. */
  lemma HistoryWords(line: string)
    requires line == "history"
    ensures !AllSpace(line)
    ensures ParseRedirection(line) == Parsed(line, None)
    ensures Words(line) == [line]
  {
    assert !IsSpace(line[0]);
    NoOperatorNoMatch(line, ">>");
    NoOperatorNoMatch(line, ">");
    assert SpaceFree(line);
    assert Trim(line) == line;
  }

  lemma {:induction false} JoinEndsWithLast(parts: seq<string>, sep: string)
    requires |parts| >= 1
    ensures var j := Join(parts, sep);
            var last := parts[|parts| - 1];
            |last| <= |j| && j[|j| - |last|..] == last
  {
    if |parts| > 1 {
      JoinEndsWithLast(parts[1..], sep);
      var rest := Join(parts[1..], sep);
      assert Join(parts, sep) == (parts[0] + sep) + rest;
    }
  }
}

=== FILE: prompt.dfy ===
/**
 The pure logic of the terminal view: the prompt, which shows the home
 directory as `~`, and what Tab does to the input line with the proposals of
 the completion engine: one proposal is taken, several are narrowed to their
 longest common prefix when that says more than what was typed.
 */
module Prompt {
  import opened Wrappers
  import opened Strings
  import opened FileSystem
  import opened Shell
  import opened Completion

  // ---------------------------------------------------------------------
  // The prompt
  // ---------------------------------------------------------------------

  /** The path as the prompt shows it: the home directory itself is `~`, and
      a path below it is `~` followed by the rest after the home directory. */
  function AbbreviateHome(path: string, home: string): (r: string)
    ensures path == home || home + "/" <= path ==> |r| >= 1 && r[0] == '~' && home + r[1..] == path
    ensures !(path == home || home + "/" <= path) ==> r == path
  {
    if path == home then "~"
    else if home + "/" <= path then
      assert path == home + path[|home|..];
      "~" + path[|home|..]
    else path
  }

  /** Reading a shown path back: `~` and `~/...` stand for the home directory. */
  function ExpandHome(shown: string, home: string): string {
    if shown == "~" then home
    else if "~/" <= shown then home + shown[1..]
    else shown
  }

  /** The abbreviation loses nothing: expanding it gives the path back, for
      every path that does not itself start with `~` (every absolute path). */
  lemma AbbreviateRoundTrip(path: string, home: string)
    requires path == [] || path[0] != '~'
    ensures ExpandHome(AbbreviateHome(path, home), home) == path
  {
    var r := AbbreviateHome(path, home);
    if path != home && home + "/" <= path {
      assert path[|home|] == '/';
      assert r[..2] == "~/";
    }
  }

  /** Only whole components count: a sibling whose name merely starts with
      the home directory's name is shown in full. */
  lemma SiblingOfHomeUnchanged(home: string)
    requires home == "/home/user"
    ensures AbbreviateHome(home + "X", home) == home + "X"
  {
    assert (home + "X")[|home|] == 'X';
    assert !(home + "/" <= home + "X") by {
      assert (home + "/")[|home|] == '/';
    }
  }

  /** The prompt `user@ripline:path$`; the path shown between the colon and
      the final `$` expands back to the working directory. */
  function PromptLine(user: string, path: string, home: string): (r: string)
    ensures user + "@ripline:" <= r && |r| >= |user| + 10 && r[|r| - 1] == '$'
    ensures path == [] || path[0] != '~' ==> ExpandHome(r[|user| + 9..|r| - 1], home) == path
  {
    var shown := AbbreviateHome(path, home);
    var r := user + "@ripline:" + shown + "$";
    assert r[|user| + 9..|r| - 1] == shown;
    if path == [] || path[0] != '~' then AbbreviateRoundTrip(path, home); r else r
  }

  // ---------------------------------------------------------------------
  // Longest common prefix
  // ---------------------------------------------------------------------

  /** The longest common prefix of two strings. */
  function Lcp2(a: string, b: string): (r: string)
    ensures r <= a && r <= b
    ensures |r| == |a| || |r| == |b| || a[|r|] != b[|r|]
  {
    if a == [] || b == [] || a[0] != b[0] then []
    else [a[0]] + Lcp2(a[1..], b[1..])
  }

  lemma {:induction false} Lcp2Longest(a: string, b: string, p: string)
    requires p <= a && p <= b
    ensures p <= Lcp2(a, b)
  {
    if p != [] {
      assert a[0] == p[0] == b[0];
      assert p[1..] <= a[1..] && p[1..] <= b[1..];
      Lcp2Longest(a[1..], b[1..], p[1..]);
    }
  }

  /** Once two strings agree on their first `j` characters and differ (or
      one ends) at `j`, their longest common prefix has length `j`. */
  lemma {:induction false} Lcp2Exact(a: string, b: string, j: nat)
    requires j <= |a| && j <= |b| && a[..j] == b[..j]
    requires j == |a| || j == |b| || a[j] != b[j]
    ensures Lcp2(a, b) == a[..j]
  {
    if j > 0 {
      assert a[1..][..j - 1] == a[..j][1..];
      assert b[1..][..j - 1] == b[..j][1..];
      assert a[0] == a[..j][0] && b[0] == b[..j][0];
      Lcp2Exact(a[1..], b[1..], j - 1);
    }
  }

  /** The longest common prefix of a list, folded from the left; `""` for
      the empty list. */
  function Lcp(ms: seq<string>): string
    decreases |ms|
  {
    if |ms| == 0 then ""
    else if |ms| == 1 then ms[0]
    else Lcp2(Lcp(ms[..|ms| - 1]), ms[|ms| - 1])
  }

  /** `Lcp` is a common prefix of a non-empty list, and every common prefix
      is a prefix of it. */
  lemma {:induction false} LcpIsLongest(ms: seq<string>, p: string)
    requires |ms| > 0
    ensures IsCommonPrefix(Lcp(ms), ms)
    ensures IsCommonPrefix(p, ms) ==> p <= Lcp(ms)
    decreases |ms|
  {
    if |ms| > 1 {
      var init := ms[..|ms| - 1];
      var last := ms[|ms| - 1];
      LcpIsLongest(init, p);
      var l := Lcp(init);
      forall k | 0 <= k < |ms| ensures Lcp(ms) <= ms[k] {
        if k < |ms| - 1 {
          assert init[k] == ms[k];
          PrefixTrans(Lcp(ms), l, ms[k]);
        }
      }
      if IsCommonPrefix(p, ms) {
        assert IsCommonPrefix(p, init) by {
          forall k | 0 <= k < |init| ensures p <= init[k] {
            assert init[k] == ms[k];
          }
        }
        Lcp2Longest(l, last, p);
      }
    }
  }

  lemma PrefixTrans(a: string, b: string, c: string)
    requires a <= b && b <= c
    ensures a <= c
  {
    assert c[..|a|] == b[..|a|];
  }

  /** Once the common prefix of the first `i` strings is empty it stays empty. */
  lemma {:induction false} LcpStaysEmpty(ms: seq<string>, i: nat)
    requires 1 <= i <= |ms| && Lcp(ms[..i]) == ""
    ensures Lcp(ms) == ""
    decreases |ms| - i
  {
    if i < |ms| {
      assert ms[..i + 1][..i] == ms[..i];
      assert Lcp(ms[..i + 1]) == Lcp2(Lcp(ms[..i]), ms[i]);
      LcpStaysEmpty(ms, i + 1);
    } else {
      assert ms[..i] == ms;
    }
  }

  /** `findCommonPrefix`: start from the first match and cut it down to the
      part shared with each further match, stopping early once nothing is
      shared. */
  method FindCommonPrefix(matches: seq<string>) returns (common: string)
    ensures |matches| == 0 ==> common == ""
    ensures |matches| == 1 ==> common == matches[0]
    ensures |matches| > 0 ==> IsCommonPrefix(common, matches)
    ensures |matches| > 0 ==> forall p :: IsCommonPrefix(p, matches) ==> p <= common
    ensures common == Lcp(matches)
  {
    if |matches| == 0 {
      return "";
    }
    common := matches[0];
    var i := 1;
    assert matches[..1] == [matches[0]];
    while i < |matches|
      invariant 1 <= i <= |matches|
      invariant common == Lcp(matches[..i])
    {
      var m := matches[i];
      var j := 0;
      while j < |common| && j < |m| && common[j] == m[j]
        invariant 0 <= j <= |common| && j <= |m|
        invariant common[..j] == m[..j]
      {
        j := j + 1;
      }
      Lcp2Exact(common, m, j);
      assert matches[..i + 1][..i] == matches[..i];
      common := common[..j];
      i := i + 1;
      if common == "" {
        LcpStaysEmpty(matches, i);
        break;
      }
    }
    assert matches[..|matches|] == matches;
    forall p | IsCommonPrefix(p, matches) ensures p <= common {
      LcpIsLongest(matches, p);
    }
    LcpIsLongest(matches, "");
  }

  // ---------------------------------------------------------------------
  // Tab
  // ---------------------------------------------------------------------

  /** What Tab does: the new input line, if it changes, and the proposals
      shown below the line (two blanks apart), if there are several. */
  datatype TabResult = TabResult(input: Option<string>, shown: Option<string>)

  /** The words of `partial` with the last one replaced, joined by one blank. */
  function ReplaceLast(partial: string, word: string): string {
    var parts := Tokens(partial);
    Join(parts[..|parts| - 1] + [word], " ")
  }

  /** The rewrite of the trimmed input `partial` given its completions. */
  function TabRewrite(partial: string, c: Completions): (r: TabResult)
    ensures |c.matches| == 0 ==> r == TabResult(None, None)
    ensures |c.matches| == 1 ==> r.input.Some? && r.shown.None?
    ensures |c.matches| > 1 ==> r.shown == Some(Join(c.matches, "  "))
  {
    if |c.matches| == 1 then
      var m := c.matches[0];
      TabResult(Some(if c.kind == Command then m else ReplaceLast(partial, DirPart(c.prefix) + m)), None)
    else if |c.matches| > 1 then
      var cp := Lcp(c.matches);
      var input :=
        if c.kind == Command then (if |cp| > |partial| then Some(cp) else None)
        else if |cp| > |BasePart(c.prefix)| then Some(ReplaceLast(partial, DirPart(c.prefix) + cp))
        else None;
      TabResult(input, Some(Join(c.matches, "  ")))
    else TabResult(None, None)
  }

  /** `p` is a common prefix of `ms` that every other common prefix is a
      prefix of. */
  ghost predicate LongestCommonPrefix(p: string, ms: seq<string>) {
    IsCommonPrefix(p, ms) && forall q :: IsCommonPrefix(q, ms) ==> q <= p
  }

  /** Several proposals change the line exactly when they share a prefix
      longer than what was typed (the whole word for a command, the part
      after the last `/` for a path); the line then gets their longest
      common prefix in place of the word, or of its name part. */
  lemma TabRewriteSeveral(partial: string, c: Completions)
    requires |c.matches| > 1
    ensures c.kind == Command ==>
              (TabRewrite(partial, c).input.Some? <==> exists p :: IsCommonPrefix(p, c.matches) && |p| > |partial|)
    ensures c.kind == Command && TabRewrite(partial, c).input.Some? ==>
              LongestCommonPrefix(TabRewrite(partial, c).input.value, c.matches)
    ensures c.kind == Path ==>
              (TabRewrite(partial, c).input.Some? <==>
                 exists p :: IsCommonPrefix(p, c.matches) && |p| > |BasePart(c.prefix)|)
    ensures c.kind == Path && TabRewrite(partial, c).input.Some? ==>
              exists w :: LongestCommonPrefix(w, c.matches) && |w| > |BasePart(c.prefix)|
                          && TabRewrite(partial, c).input.value == ReplaceLast(partial, DirPart(c.prefix) + w)
  {
    var cp := Lcp(c.matches);
    LcpIsLongest(c.matches, "");
    assert LongestCommonPrefix(cp, c.matches) by {
      forall q | IsCommonPrefix(q, c.matches) ensures q <= cp {
        LcpIsLongest(c.matches, q);
      }
    }
  }

  /** Tab on the input line `value`: a blank line is left alone; otherwise
      the trimmed line is completed. */
  function Tab(s: State, value: string): (r: TabResult)
    ensures AllSpace(value) ==> r == TabResult(None, None)
  {
    var partial := Trim(value);
    if partial == "" then TabResult(None, None)
    else TabRewrite(partial, GetCompletions(s, partial))
  }

  /** Completing a command word only ever lengthens it: the new input starts
      with what was typed, and a single proposal is a command name. */
  lemma TabCommandExtends(s: State, value: string)
    requires !AllSpace(value)
    requires GetCompletions(s, Trim(value)).kind == Command
    ensures Tab(s, value).input.Some? ==> Trim(value) <= Tab(s, value).input.value
    ensures |GetCompletions(s, Trim(value)).matches| == 1 ==>
              Tab(s, value).input.Some? && Tab(s, value).input.value in CommandNames
  {
    var partial := Trim(value);
    CommandCompletionIsOfLine(s, partial);
    TabRewriteCommand(partial);
  }

  /** A trimmed line that completes a command name is that one word. */
  lemma CommandCompletionIsOfLine(s: State, partial: string)
    requires Trimmed(partial)
    requires GetCompletions(s, partial).kind == Command
    ensures GetCompletions(s, partial) == CommandCompletions(partial)
  {
    CompletionsOfTrimmed(s, partial);
  }

  /** The rewrite of a command word extends it, and a single proposal is
      taken as it is. */
  lemma TabRewriteCommand(partial: string)
    ensures var r := TabRewrite(partial, CommandCompletions(partial));
            r.input.Some? ==> partial <= r.input.value
    ensures var c := CommandCompletions(partial);
            |c.matches| == 1 ==> TabRewrite(partial, c).input == Some(c.matches[0]) && c.matches[0] in CommandNames
  {
    var c := CommandCompletions(partial);
    if |c.matches| == 1 {
      assert c.matches[0] in c.matches;
    } else if |c.matches| > 1 {
      assert IsCommonPrefix(partial, c.matches) by {
        forall k | 0 <= k < |c.matches| ensures partial <= c.matches[k] {
          assert c.matches[k] in c.matches;
        }
      }
      LcpIsLongest(c.matches, partial);
    }
  }

  /** Replacing the last word by a longer word without white space keeps
      the earlier words and leaves the same number of words. */
  lemma ReplaceLastExtends(partial: string, w: string)
    requires Trimmed(partial) && partial != []
    requires w != [] && SpaceFree(w)
    requires Tokens(partial)[|Tokens(partial)| - 1] <= w
    ensures var parts := Tokens(partial);
            Tokens(ReplaceLast(partial, w)) == parts[..|parts| - 1] + [w]
    ensures LastWordExtended(Tokens(partial), ReplaceLast(partial, w))
  {
    var parts := Tokens(partial);
    var newParts := parts[..|parts| - 1] + [w];
    var line := ReplaceLast(partial, w);
    assert line == Join(newParts, " ");
    ReplacedWordsProper(partial, w);
    TokensOfJoin(newParts, " ");
    assert Tokens(line) == newParts;
    LastReplacedExtended(parts, w, line);
  }

  /** The words after the replacement are non-empty and free of white space. */
  lemma ReplacedWordsProper(partial: string, w: string)
    requires Trimmed(partial) && partial != []
    requires w != [] && SpaceFree(w)
    ensures WordNames(Tokens(partial)[..|Tokens(partial)| - 1] + [w])
  {
    TokensOfTrimmedNonEmpty(partial);
  }

  lemma LastReplacedExtended(parts: seq<string>, w: string, line: string)
    requires |parts| >= 1 && parts[|parts| - 1] <= w
    requires Tokens(line) == parts[..|parts| - 1] + [w]
    ensures LastWordExtended(parts, line)
  {
    assert Tokens(line)[..|parts| - 1] == parts[..|parts| - 1];
  }

  /** The word that replaces a path word `word`: its directory part followed
      by a proposal, or by the common prefix of several proposals that says
      more than the typed part after the last `/`, is an extension of it. */
  lemma PathReplacementExtends(word: string, matches: seq<string>)
    requires SpaceFree(word)
    requires |matches| >= 1
    requires forall k :: 0 <= k < |matches| ==> matches[k] != [] && SpaceFree(matches[k])
    requires forall k :: 0 <= k < |matches| ==> BasePart(word) <= matches[k]
    requires |matches| > 1 ==> |Lcp(matches)| > |BasePart(word)|
    ensures var tail := if |matches| == 1 then matches[0] else Lcp(matches);
            && word <= DirPart(word) + tail
            && DirPart(word) + tail != []
            && SpaceFree(DirPart(word) + tail)
  {
    var tail := if |matches| == 1 then matches[0] else Lcp(matches);
    if |matches| > 1 {
      LcpIsLongest(matches, "");
      PrefixOfLonger(BasePart(word), tail, matches[0]);
      PrefixSpaceFree(tail, matches[0]);
    }
    assert BasePart(word) <= tail;
    assert word == DirPart(word) + BasePart(word);
    PrefixSpaceFree(DirPart(word), word);
  }

  /** The words of `line` are those of `parts` with only the last one
      lengthened. */
  predicate LastWordExtended(parts: seq<string>, line: string) {
    var newParts := Tokens(line);
    && |parts| >= 1
    && |newParts| == |parts|
    && newParts[..|parts| - 1] == parts[..|parts| - 1]
    && parts[|parts| - 1] <= newParts[|parts| - 1]
  }

  /** Proposals that read back as one word each. */
  predicate WordNames(matches: seq<string>) {
    forall k :: 0 <= k < |matches| ==> matches[k] != [] && SpaceFree(matches[k])
  }

  /** Completing a path keeps every earlier word and only lengthens the last
      one (the directory part followed by the proposal or the common prefix),
      provided the proposals are non-empty names without white space. */
  lemma TabRewritePathExtends(partial: string, c: Completions)
    requires Trimmed(partial) && partial != []
    requires c.kind == Path && c.prefix == Tokens(partial)[|Tokens(partial)| - 1]
    requires IsCommonPrefix(BasePart(c.prefix), c.matches)
    requires WordNames(c.matches)
    ensures var r := TabRewrite(partial, c);
            r.input.Some? ==> LastWordExtended(Tokens(partial), r.input.value)
  {
    var r := TabRewrite(partial, c);
    if r.input.Some? {
      assert SpaceFree(c.prefix);
      var tail := if |c.matches| == 1 then c.matches[0] else Lcp(c.matches);
      assert r.input.value == ReplaceLast(partial, DirPart(c.prefix) + tail);
      PathReplacementExtends(c.prefix, c.matches);
      ReplaceLastExtends(partial, DirPart(c.prefix) + tail);
      assert LastWordExtended(Tokens(partial), ReplaceLast(partial, DirPart(c.prefix) + tail));
    }
  }

  /** A single path proposal replaces the last word by the typed directory
      part followed by the proposal, and keeps every earlier word. */
  lemma TabSinglePath(partial: string, c: Completions)
    requires Trimmed(partial) && partial != []
    requires c.kind == Path && c.prefix == Tokens(partial)[|Tokens(partial)| - 1]
    requires |c.matches| == 1 && BasePart(c.prefix) <= c.matches[0]
    requires WordNames(c.matches)
    ensures var r := TabRewrite(partial, c);
            var parts := Tokens(partial);
            && r.input.Some? && r.shown.None?
            && Tokens(r.input.value) == parts[..|parts| - 1] + [DirPart(c.prefix) + c.matches[0]]
  {
    var m := c.matches[0];
    assert TabRewrite(partial, c) == TabResult(Some(ReplaceLast(partial, DirPart(c.prefix) + m)), None);
    assert SpaceFree(c.prefix);
    assert forall k :: 0 <= k < |c.matches| ==> BasePart(c.prefix) <= c.matches[k] by {
      assert c.matches == [m];
    }
    PathReplacementExtends(c.prefix, c.matches);
    ReplaceLastExtends(partial, DirPart(c.prefix) + m);
  }

  /** `TabRewritePathExtends` for the proposals the completion engine makes. */
  lemma TabPathExtendsLastWord(s: State, value: string)
    requires !AllSpace(value)
    requires var c := GetCompletions(s, Trim(value)); c.kind == Path && WordNames(c.matches)
    ensures var r := Tab(s, value);
            r.input.Some? ==> LastWordExtended(Tokens(Trim(value)), r.input.value)
  {
    var partial := Trim(value);
    var c := GetCompletions(s, partial);
    PathCompletionIsOfLastWord(s, partial);
    TabRewritePathExtends(partial, c);
    assert Tab(s, value) == TabRewrite(partial, c);
  }

  /** Of two prefixes of the same string, the shorter is a prefix of the longer. */
  lemma PrefixOfLonger(a: string, b: string, c: string)
    requires a <= c && b <= c && |a| <= |b|
    ensures a <= b
  {
    assert b[..|a|] == c[..|a|];
  }

  lemma PrefixSpaceFree(a: string, b: string)
    requires a <= b && SpaceFree(b)
    ensures SpaceFree(a)
  {
    assert forall k :: 0 <= k < |a| ==> a[k] == b[k];
  }
}

=== FILE: shell.dfy ===
/**
 The state of the emulated shell and its built-in commands: the filesystem
 tree, the current directory, the environment and the history, and one
 function per entry of the command table. Each command returns the next
 state and its output, or the message of the exception it throws.
 */
module Shell {
  import opened Wrappers
  import opened Strings
  import opened FileSystem

  /** The five variables the emulator defines, in the order `env` prints them. */
  datatype Environment = Environment(user: string, home: string, pwd: string, path: string, shell: string)

  datatype State = State(root: Node, cwd: string, env: Environment, history: seq<string>)

  /** A command either returns (possibly having changed the state) or throws. */
  datatype Outcome = Returned(state: State, output: string) | Thrown(message: string)

  datatype WriteMode = Overwrite | Append

  /** The literal `clear` returns; the host clears the screen when it sees it. */
  const ClearSentinel := "__CLEAR__"

  /** The command table, in declaration order (the order completion lists it in). */
  const CommandNames: seq<string> :=
    ["help", "ls", "cd", "pwd", "cat", "echo", "clear", "whoami", "date",
     "uname", "env", "history", "mkdir", "touch", "rm", "tree"]

  const ReadmeText := "Welcome to RIPLINE!\n\nWe build habit tracking apps and mobile games.\nType \"help\" for available commands."
  const AboutText := "RIPLINE Development\n\nFocused on creating meaningful software experiences.\n\nCurrent Projects:\n- Habit Tracking Application\n- Mobile Games (Coming Soon)"
  const MotdText := "Welcome to the RIPLINE Terminal!\nType \"help\" for available commands.\n"

  /** The shape of the default filesystem, with the three file texts as parameters. */
  function DefaultTree(readme: string, about: string, motd: string): Node {
    Dir([
      ("home", Dir([
        ("user", Dir([
          ("README.txt", File(readme)),
          ("about.txt", File(about))
        ]))
      ])),
      ("etc", Dir([
        ("motd", File(motd))
      ]))
    ])
  }

  function DefaultRoot(): Node {
    DefaultTree(ReadmeText, AboutText, MotdText)
  }

  /** The state of a fresh session: nothing was restored from storage. */
  function Initial(): State {
    State(DefaultRoot(), "/home/user",
          Environment("user", "/home/user", "/home/user", "/usr/local/bin:/usr/bin:/bin", "/bin/bash"),
          [])
  }

  /** What every reachable state satisfies: the root is a directory, the
      current and home directories are absolute paths naming directories,
      `PWD` mirrors the current directory, and no directory holds two
      entries of the same name. */
  predicate Valid(s: State) {
    && s.root.Dir?
    && Tidy(s.root)
    && IsAbsolute(s.cwd) && IsDirAt(s.root, Components(s.cwd))
    && IsAbsolute(s.env.home) && IsDirAt(s.root, Components(s.env.home))
    && s.env.pwd == s.cwd
  }

  /** `args[0]` when the JavaScript test `!args[0]` fails, i.e. when it is
      present and non-empty. */
  function Arg0(args: seq<string>): Option<string> {
    if |args| > 0 && args[0] != "" then Some(args[0]) else None
  }

  /** How `mkdir`, `touch`, `rm` and redirection split their operand: the
      rebuilt path of the resolved components without the last one, and the
      last one. `parts.pop()` on an empty array gives `undefined`, which is
      then used as the name "undefined". */
  datatype Target = Target(parentPath: string, leaf: string)

  function TargetOf(cwd: string, arg: string): (t: Target)
    ensures IsAbsolute(t.parentPath)
    ensures ValidComponents(Components(t.parentPath))
  {
    var parts := Components(ResolvePath(cwd, arg));
    if parts == [] then Target(PathOf([]), "undefined")
    else Target(PathOf(parts[..|parts| - 1]), parts[|parts| - 1])
  }

  /** The components a target's entry lives at. */
  function TargetPath(t: Target): seq<string> {
    Components(t.parentPath) + [t.leaf]
  }

  /** Unless the operand resolves to the root, the target's entry is exactly
      the node the operand names. */
  lemma TargetPathOf(cwd: string, arg: string)
    requires Components(ResolvePath(cwd, arg)) != []
    ensures TargetPath(TargetOf(cwd, arg)) == Components(ResolvePath(cwd, arg))
  {
    var parts := Components(ResolvePath(cwd, arg));
    ComponentsOfPathOf(parts[..|parts| - 1]);
    assert parts == parts[..|parts| - 1] + [parts[|parts| - 1]];
  }

  /** The parent a target is created in, looked up the way the commands do. */
  function ParentOf(s: State, t: Target): Option<Node> {
    GetNode(s.root, s.cwd, t.parentPath)
  }

  lemma ParentIsAtComponents(s: State, t: Target)
    requires IsAbsolute(t.parentPath)
    ensures ParentOf(s, t) == Get(s.root, Components(t.parentPath))
  {
  }

  /** The shell `s` with entry `t.leaf` of the directory `t.parentPath` set or deleted. */
  function SetEntry(s: State, t: Target, v: Option<Node>): State
    requires IsAbsolute(t.parentPath) && IsDirAt(s.root, Components(t.parentPath))
  {
    s.(root := SetChild(s.root, Components(t.parentPath), t.leaf, v))
  }

  // ---------------------------------------------------------------------
  // Commands without effect on the tree
  // ---------------------------------------------------------------------

  const HelpText :=
    "Available commands:\n"
    + "  help          - Show this help message\n"
    + "  ls            - List directory contents\n"
    + "  cd [dir]      - Change directory\n"
    + "  pwd           - Print working directory\n"
    + "  cat [file]    - Display file contents\n"
    + "  echo [text]   - Display a line of text\n"
    + "  clear         - Clear the terminal\n"
    + "  whoami        - Print current user\n"
    + "  date          - Display current date and time\n"
    + "  uname         - Print system information\n"
    + "  env           - Print environment variables\n"
    + "  history       - Show command history\n"
    + "  mkdir [dir]   - Create a directory\n"
    + "  touch [file]  - Create an empty file\n"
    + "  rm [file]     - Remove a file\n"
    + "  tree          - Display directory tree\n"
    + "\n"
    + "Type any command to try it out!"

  /** An entry as `ls` and completion show it: directories get a trailing `/`. */
  function Decorated(e: (string, Node)): string {
    if e.1.Dir? then e.0 + "/" else e.0
  }

  function Listing(es: Entries): (r: seq<string>)
    ensures |r| == |es|
    ensures forall k :: 0 <= k < |es| ==> r[k] == Decorated(es[k])
  {
    if es == [] then [] else [Decorated(es[0])] + Listing(es[1..])
  }

  /** `ls [path]`: a missing (or empty-file) target is an error naming the
      operand or `.`, a file target prints the operand back, and a directory
      prints its decorated entries separated by two blanks. */
  function Ls(s: State, args: seq<string>): (r: string)
    ensures var node := GetNode(s.root, s.cwd, Arg0(args).GetOr(s.cwd));
            && (!Present(node) ==> r == "ls: cannot access '" + Arg0(args).GetOr(".") + "': No such file or directory")
            && (Present(node) && node.value.File? ==> r == Arg0(args).GetOr("."))
            && (Present(node) && node.value.Dir? && node.value.entries == [] ==> r == "")
            && (Present(node) && node.value.Dir? ==> r == Join(Listing(node.value.entries), "  "))
  {
    var shown := Arg0(args).GetOr(".");
    var node := GetNode(s.root, s.cwd, Arg0(args).GetOr(s.cwd));
    if !Present(node) then "ls: cannot access '" + shown + "': No such file or directory"
    else if node.value.File? then shown
    else Join(Listing(node.value.entries), "  ")
  }

  /** Splitting the listing of a non-empty directory at white space gives
      one word per entry, in creation order, each directory marked with `/`,
      as long as no name is empty or holds white space. */
  lemma LsWords(s: State, args: seq<string>)
    requires var node := GetNode(s.root, s.cwd, Arg0(args).GetOr(s.cwd));
             && Present(node) && node.value.Dir? && node.value.entries != []
             && forall k :: 0 <= k < |node.value.entries| ==>
                  node.value.entries[k].0 != [] && SpaceFree(node.value.entries[k].0)
    ensures Tokens(Ls(s, args)) == Listing(GetNode(s.root, s.cwd, Arg0(args).GetOr(s.cwd)).value.entries)
  {
    var es := GetNode(s.root, s.cwd, Arg0(args).GetOr(s.cwd)).value.entries;
    var ls := Listing(es);
    forall k | 0 <= k < |ls| ensures ls[k] != [] && SpaceFree(ls[k]) {
      assert ls[k] == Decorated(es[k]);
    }
    TokensOfJoin(ls, "  ");
  }

  /** `cd [dir]`: without an operand go home; otherwise the operand must name
      a directory. A failure leaves the state untouched; a success moves
      `currentPath` and `PWD` together. */
  function Cd(s: State, args: seq<string>): (r: Outcome)
    ensures r.Returned?
    ensures r.state.root == s.root && r.state.history == s.history
    ensures r.state.env.(pwd := s.env.pwd) == s.env
    ensures r.output != "" ==> r.state == s
    ensures r.output == "" ==> r.state.cwd == r.state.env.pwd
    ensures Arg0(args).None? ==> r.state.cwd == s.env.home && r.output == ""
    ensures Arg0(args).Some? ==>
              var p := ResolvePath(s.cwd, args[0]);
              var node := GetNode(s.root, s.cwd, p);
              && (!Present(node) ==> r.output == "cd: " + args[0] + ": No such file or directory")
              && (Present(node) && node.value.File? ==> r.output == "cd: " + args[0] + ": Not a directory")
              && (Present(node) && node.value.Dir? ==> r.output == "" && r.state.cwd == p)
  {
    match Arg0(args)
    case None =>
      Returned(s.(cwd := s.env.home, env := s.env.(pwd := s.env.home)), "")
    case Some(a) =>
      var p := ResolvePath(s.cwd, a);
      var node := GetNode(s.root, s.cwd, p);
      if !Present(node) then Returned(s, "cd: " + a + ": No such file or directory")
      else if node.value.File? then Returned(s, "cd: " + a + ": Not a directory")
      else Returned(s.(cwd := p, env := s.env.(pwd := p)), "")
  }

  /** `cat file`: the content of a non-empty file; an empty file reads as missing. */
  function Cat(s: State, args: seq<string>): (r: string)
    ensures Arg0(args).None? ==> r == "cat: missing file operand"
    ensures Arg0(args).Some? ==>
              var node := GetNode(s.root, s.cwd, args[0]);
              && (!Present(node) ==> r == "cat: " + args[0] + ": No such file or directory")
              && (Present(node) && node.value.Dir? ==> r == "cat: " + args[0] + ": Is a directory")
              && (Present(node) && node.value.File? ==> r == node.value.content)
  {
    match Arg0(args)
    case None => "cat: missing file operand"
    case Some(a) =>
      var node := GetNode(s.root, s.cwd, a);
      if !Present(node) then "cat: " + a + ": No such file or directory"
      else if node.value.Dir? then "cat: " + a + ": Is a directory"
      else node.value.content
  }

  predicate IsQuote(c: char) {
    c == '"' || c == '\''
  }

  /** `text.replace(/^["']|["']$/g, '')`: drops one quote character at the
      start and one at the end, independently of each other. */
  function StripQuotes(t: string): (r: string)
    ensures var i := if |t| > 0 && IsQuote(t[0]) then 1 else 0;
            var j := if |t| > i && IsQuote(t[|t| - 1]) then 1 else 0;
            r == t[i..|t| - j]
  {
    var u := if |t| > 0 && IsQuote(t[0]) then t[1..] else t;
    if |u| > 0 && IsQuote(u[|u| - 1]) then u[..|u| - 1] else u
  }

  /** `echo`: the arguments joined by one blank, with surrounding quotes removed. */
  function Echo(args: seq<string>): (r: string)
    ensures args == [] ==> r == ""
    ensures |args| == 1 && args[0] != [] && !IsQuote(args[0][0]) && !IsQuote(args[0][|args[0]| - 1]) ==> r == args[0]
    ensures |r| <= |Join(args, " ")|
    ensures var t := Join(args, " ");
            var i := if |t| > 0 && IsQuote(t[0]) then 1 else 0;
            var j := if |t| > i && IsQuote(t[|t| - 1]) then 1 else 0;
            r == t[i..|t| - j]
  {
    StripQuotes(Join(args, " "))
  }

  /** A single word between quotes is echoed without them, even when the
      word itself starts or ends with a quote: only one is removed at each
      end. */
  lemma EchoUnquotes(open: char, w: string, close: char)
    requires IsQuote(open) && IsQuote(close)
    ensures Echo([[open] + w + [close]]) == w
  {
    var t := [open] + w + [close];
    assert t[1..|t| - 1] == w;
  }

  /** Words without white space and without a quote at either end of the
      line are echoed so that splitting the output gives them back. */
  lemma EchoWords(args: seq<string>)
    requires |args| >= 1 && forall k :: 0 <= k < |args| ==> args[k] != [] && SpaceFree(args[k])
    requires !IsQuote(args[0][0]) && !IsQuote(args[|args| - 1][|args[|args| - 1]| - 1])
    ensures Tokens(Echo(args)) == args
  {
    var t := Join(args, " ");
    JoinHead(args, " ");
    JoinLast(args, " ");
    assert StripQuotes(t) == t[0..|t|];
    assert t[0..|t|] == t;
    TokensOfJoin(args, " ");
  }

  /** The lines `history` prints: a 1-based number, two blanks, the raw line. */
  function HistoryLines(h: seq<string>): (r: seq<string>)
    ensures |r| == |h|
    ensures forall k :: 0 <= k < |h| ==> r[k] == NatToString(k + 1) + "  " + h[k]
  {
    seq(|h|, k requires 0 <= k < |h| => NatToString(k + 1) + "  " + h[k])
  }

  function History(s: State): (r: string)
    ensures s.history == [] ==> r == ""
    ensures |s.history| == 1 ==> r == "1  " + s.history[0]
  {
    Join(HistoryLines(s.history), "\n")
  }

  /** The output of `history` splits at line breaks into one numbered line
      per recorded command, oldest first, when no command holds a break. */
  lemma HistoryReadBack(s: State)
    requires s.history != [] && forall k :: 0 <= k < |s.history| ==> '\n' !in s.history[k]
    ensures Split(History(s), '\n') == HistoryLines(s.history)
  {
    var ls := HistoryLines(s.history);
    forall k | 0 <= k < |ls| ensures '\n' !in ls[k] {
      var d := NatToString(k + 1);
      assert ls[k] == d + "  " + s.history[k];
      assert '\n' !in d;
    }
    SplitJoin(ls, '\n');
  }

  /** No variable's value holds a line break. */
  predicate SingleLineEnv(e: Environment) {
    '\n' !in e.user && '\n' !in e.home && '\n' !in e.pwd && '\n' !in e.path && '\n' !in e.shell
  }

  /** `env` prints one `KEY=value` line per variable, in the order the
      constructor creates the keys. */
  function Env(s: State): (r: string)
    ensures SingleLineEnv(s.env) ==>
              Split(r, '\n') == ["USER=" + s.env.user, "HOME=" + s.env.home, "PWD=" + s.env.pwd,
                                 "PATH=" + s.env.path, "SHELL=" + s.env.shell]
  {
    var e := s.env;
    var ls := ["USER=" + e.user, "HOME=" + e.home, "PWD=" + e.pwd, "PATH=" + e.path, "SHELL=" + e.shell];
    if SingleLineEnv(e) then
      assert forall k :: 0 <= k < |ls| ==> '\n' !in ls[k] by {
        assert '\n' !in ls[0] && '\n' !in ls[1] && '\n' !in ls[2] && '\n' !in ls[3] && '\n' !in ls[4];
      }
      SplitJoin(ls, '\n');
      Join(ls, "\n")
    else
      Join(ls, "\n")
  }

  /** `uname` names the system; `-a` anywhere among the operands adds the
      release, machine and operating system on the same line. */
  function Uname(args: seq<string>): (r: string)
    ensures "RIPLINE" <= r && '\n' !in r
    ensures r == "RIPLINE" <==> "-a" !in args
  {
    if "-a" in args then
      var rest := " 1.0.0 RIPLINE Terminal x86_64 GNU/JavaScript";
      assert |rest| > 0;
      assert '\n' !in rest;
      "RIPLINE" + rest
    else "RIPLINE"
  }

  // ---------------------------------------------------------------------
  // tree
  // ---------------------------------------------------------------------

  /** Every entry of `es` is strictly below `owner`, the directory they come
      from; recursion into a child then shrinks `owner`. */
  ghost predicate Below(es: Entries, owner: Node) {
    forall k :: 0 <= k < |es| ==> es[k].1 < owner
  }

  /** `buildTree`: one line per entry in depth-first pre-order; the last entry
      of a directory gets the closing connector and no bar below it. */
  function RenderEntries(es: Entries, prefix: string, ghost owner: Node): string
    requires Below(es, owner)
    decreases owner, |es|
  {
    if es == [] then ""
    else
      var isLast := |es| == 1;
      var name := es[0].0;
      var value := es[0].1;
      var line := TreeLine(prefix, isLast, name, value.Dir?);
      var below :=
        if value.Dir? then RenderEntries(value.entries, prefix + (if isLast then "    " else "│   "), value)
        else "";
      line + below + RenderEntries(es[1..], prefix, owner)
  }

  /** One line of `tree`: the branch, the name, and a `/` after a directory. */
  function TreeLine(prefix: string, isLast: bool, name: string, isDir: bool): string {
    prefix + (if isLast then "└── " else "├── ") + name + (if isDir then "/\n" else "\n")
  }

  function RenderTree(es: Entries): string {
    RenderEntries(es, "", Dir(es))
  }

  /** The entries `Object.entries` sees in a string: one per character,
      named by its index. */
  function CharEntries(c: string): Entries {
    seq(|c|, k requires 0 <= k < |c| => (NatToString(k), File([c[k]])))
  }

  /** `tree`: the current path with a `/`, then the rendered subtree. Only a
      current directory that no longer resolves makes it throw. */
  function Tree(s: State): (r: Outcome)
    ensures r.Returned? <==> GetNode(s.root, s.cwd, s.cwd).Some?
    ensures r.Returned? ==> r.state == s && s.cwd + "/\n" <= r.output
  {
    match GetNode(s.root, s.cwd, s.cwd)
    case None => Thrown("Cannot convert undefined or null to object")
    case Some(Dir(es)) => Returned(s, s.cwd + "/\n" + RenderTree(es))
    case Some(File(c)) => Returned(s, s.cwd + "/\n" + RenderTree(CharEntries(c)))
  }

  /** Number of entries below a directory, counting all descendants. */
  function EntryCount(es: Entries, ghost owner: Node): nat
    requires Below(es, owner)
    decreases owner, |es|
  {
    if es == [] then 0
    else
      var value := es[0].1;
      1 + (if value.Dir? then EntryCount(value.entries, value) else 0) + EntryCount(es[1..], owner)
  }

  function Newlines(s: string): nat {
    if s == [] then 0 else (if s[0] == '\n' then 1 else 0) + Newlines(s[1..])
  }

  lemma {:induction false} NewlinesAppend(a: string, b: string)
    ensures Newlines(a + b) == Newlines(a) + Newlines(b)
  {
    if a == [] {
      assert a + b == b;
    } else {
      assert (a + b)[0] == a[0];
      assert (a + b)[1..] == a[1..] + b;
      NewlinesAppend(a[1..], b);
    }
  }

  lemma {:induction false} NoNewlines(s: string)
    requires '\n' !in s
    ensures Newlines(s) == 0
  {
    if s != [] {
      assert s == [s[0]] + s[1..];
      NoNewlines(s[1..]);
    }
  }

  /** No name anywhere below holds a line break. */
  ghost predicate SingleLineNames(es: Entries, owner: Node)
    requires Below(es, owner)
    decreases owner, |es|
  {
    es != [] ==>
      && '\n' !in es[0].0
      && (es[0].1.Dir? ==> SingleLineNames(es[0].1.entries, es[0].1))
      && SingleLineNames(es[1..], owner)
  }

  lemma TreeLineNewlines(prefix: string, isLast: bool, name: string, isDir: bool)
    requires '\n' !in prefix && '\n' !in name
    ensures Newlines(TreeLine(prefix, isLast, name, isDir)) == 1
  {
    var bar := if isLast then "└── " else "├── ";
    var tail := if isDir then "/\n" else "\n";
    NoNewlines(prefix);
    NoNewlines(bar);
    NoNewlines(name);
    NewlinesAppend(prefix, bar);
    NewlinesAppend(prefix + bar, name);
    NewlinesAppend(prefix + bar + name, tail);
    assert Newlines(tail) == 1 by {
      assert "\n"[1..] == [];
      assert "/\n"[1..] == "\n";
    }
  }

  /** `tree` prints exactly one line per entry of the subtree. */
  lemma {:induction false} RenderTreeLines(es: Entries, prefix: string, owner: Node)
    requires Below(es, owner)
    requires '\n' !in prefix
    requires SingleLineNames(es, owner)
    ensures Newlines(RenderEntries(es, prefix, owner)) == EntryCount(es, owner)
    decreases owner, |es|
  {
    if es != [] {
      var isLast := |es| == 1;
      var name := es[0].0;
      var value := es[0].1;
      var line := TreeLine(prefix, isLast, name, value.Dir?);
      TreeLineNewlines(prefix, isLast, name, value.Dir?);
      var below := if value.Dir? then RenderEntries(value.entries, prefix + (if isLast then "    " else "│   "), value) else "";
      if value.Dir? {
        var p2 := prefix + (if isLast then "    " else "│   ");
        assert '\n' !in p2;
        RenderTreeLines(value.entries, p2, value);
      }
      RenderTreeLines(es[1..], prefix, owner);
      assert RenderEntries(es, prefix, owner) == line + below + RenderEntries(es[1..], prefix, owner);
      NewlinesAppend(line, below);
      NewlinesAppend(line + below, RenderEntries(es[1..], prefix, owner));
      assert Newlines(below) == if value.Dir? then EntryCount(value.entries, value) else 0;
    }
  }

  /** A line of `tree` as data: for each enclosing directory below the
      listed one, whether it was the last entry of its own directory
      (outermost first); whether the entry is the last of its directory; and
      its name, with a `/` after a directory. */
  datatype TreeItem = TreeItem(enclosing: seq<bool>, last: bool, shown: string)

  /** The indentation under the enclosing directories: a bar below each one
      that has later siblings, blanks below each one that was last. */
  function Indent(enclosing: seq<bool>): string {
    if enclosing == [] then ""
    else Indent(enclosing[..|enclosing| - 1]) + (if enclosing[|enclosing| - 1] then "    " else "│   ")
  }

  /** The text of one item: indentation, the closing connector for a last
      entry and the branching one otherwise, then the shown name. */
  function ItemLine(it: TreeItem): string {
    Indent(it.enclosing) + (if it.last then "└── " else "├── ") + it.shown
  }

  function ItemLines(items: seq<TreeItem>): (r: seq<string>)
    ensures |r| == |items|
    ensures forall k :: 0 <= k < |items| ==> r[k] == ItemLine(items[k])
  {
    seq(|items|, k requires 0 <= k < |items| => ItemLine(items[k]))
  }

  /** The entries of a subtree in depth-first pre-order: an entry, then
      everything below it, then its later siblings. */
  function Preorder(es: Entries, enclosing: seq<bool>, ghost owner: Node): seq<TreeItem>
    requires Below(es, owner)
    decreases owner, |es|
  {
    if es == [] then []
    else
      var isLast := |es| == 1;
      var value := es[0].1;
      var below := if value.Dir? then Preorder(value.entries, enclosing + [isLast], value) else [];
      [TreeItem(enclosing, isLast, Decorated(es[0]))] + below + Preorder(es[1..], enclosing, owner)
  }

  /** Lines each followed by a line break. */
  function Unlines(ls: seq<string>): string {
    if ls == [] then "" else ls[0] + "\n" + Unlines(ls[1..])
  }

  lemma {:induction false} UnlinesAppend(a: seq<string>, b: seq<string>)
    ensures Unlines(a + b) == Unlines(a) + Unlines(b)
  {
    if a != [] {
      assert (a + b)[0] == a[0];
      assert (a + b)[1..] == a[1..] + b;
      UnlinesAppend(a[1..], b);
    } else {
      assert a + b == b;
    }
  }

  lemma ItemLinesAppend(a: seq<TreeItem>, b: seq<TreeItem>)
    ensures ItemLines(a + b) == ItemLines(a) + ItemLines(b)
  {
    assert forall k :: 0 <= k < |a + b| ==> ItemLines(a + b)[k] == (ItemLines(a) + ItemLines(b))[k];
  }

  lemma IndentGrows(enclosing: seq<bool>, b: bool)
    ensures Indent(enclosing + [b]) == Indent(enclosing) + (if b then "    " else "│   ")
  {
    assert (enclosing + [b])[..|enclosing|] == enclosing;
  }

  lemma ItemLineOfEntry(enclosing: seq<bool>, isLast: bool, e: (string, Node))
    ensures TreeLine(Indent(enclosing), isLast, e.0, e.1.Dir?) == ItemLine(TreeItem(enclosing, isLast, Decorated(e))) + "\n"
  {
    var head := Indent(enclosing) + (if isLast then "└── " else "├── ");
    if e.1.Dir? {
      assert head + e.0 + "/\n" == head + (e.0 + "/") + "\n";
    }
  }

  /** The rendered subtree is its pre-order items, one line each. */
  lemma {:induction false} RenderIsPreorder(es: Entries, enclosing: seq<bool>, owner: Node)
    requires Below(es, owner)
    ensures RenderEntries(es, Indent(enclosing), owner) == Unlines(ItemLines(Preorder(es, enclosing, owner)))
    decreases owner, |es|
  {
    if es != [] {
      var isLast := |es| == 1;
      var value := es[0].1;
      var item := TreeItem(enclosing, isLast, Decorated(es[0]));
      var below := if value.Dir? then Preorder(value.entries, enclosing + [isLast], value) else [];
      var rest := Preorder(es[1..], enclosing, owner);
      var line := TreeLine(Indent(enclosing), isLast, es[0].0, value.Dir?);
      var belowText :=
        if value.Dir? then RenderEntries(value.entries, Indent(enclosing) + (if isLast then "    " else "│   "), value)
        else "";
      assert RenderEntries(es, Indent(enclosing), owner) == line + belowText + RenderEntries(es[1..], Indent(enclosing), owner);
      ItemLineOfEntry(enclosing, isLast, es[0]);
      if value.Dir? {
        IndentGrows(enclosing, isLast);
        RenderIsPreorder(value.entries, enclosing + [isLast], value);
      }
      assert belowText == Unlines(ItemLines(below));
      RenderIsPreorder(es[1..], enclosing, owner);
      ItemLinesAppend([item] + below, rest);
      ItemLinesAppend([item], below);
      UnlinesAppend(ItemLines([item]) + ItemLines(below), ItemLines(rest));
      UnlinesAppend(ItemLines([item]), ItemLines(below));
      assert ItemLines([item]) == [ItemLine(item)];
      assert Unlines([ItemLine(item)]) == ItemLine(item) + "\n";
    }
  }

  /** Splitting lines that hold no line break, each followed by one, gives
      the lines back. */
  lemma {:induction false} SplitUnlines(ls: seq<string>, rest: string)
    requires forall k :: 0 <= k < |ls| ==> '\n' !in ls[k]
    ensures Split(Unlines(ls) + rest, '\n') == ls + Split(rest, '\n')
  {
    if ls == [] {
      assert Unlines(ls) + rest == rest;
    } else {
      var tail := Unlines(ls[1..]) + rest;
      var pieces := Split(tail, '\n');
      assert Split(Unlines(ls) + rest, '\n') == [ls[0]] + pieces by {
        assert Unlines(ls) + rest == ls[0] + "\n" + tail;
        SplitLine(ls[0], tail);
      }
      assert pieces == ls[1..] + Split(rest, '\n') by {
        SplitUnlines(ls[1..], rest);
      }
      assert ls == [ls[0]] + ls[1..];
    }
  }

  /** One step of `Split`: a line without a break, then the break. */
  lemma SplitLine(line: string, tail: string)
    requires '\n' !in line
    ensures Split(line + "\n" + tail, '\n') == [line] + Split(tail, '\n')
  {
    var s := line + "\n" + tail;
    IndexOfPrefix(line, '\n', "\n" + tail);
    assert s == line + ("\n" + tail);
    assert s[..|line|] == line;
    assert s[|line| + 1..] == tail;
  }

  lemma IndentSingleLine(enclosing: seq<bool>)
    ensures '\n' !in Indent(enclosing)
  {
    if enclosing != [] {
      IndentSingleLine(enclosing[..|enclosing| - 1]);
    }
  }

  lemma ConnectorSingleLine(last: bool)
    ensures '\n' !in (if last then "└── " else "├── ")
  {
  }

  /** Every shown name of a subtree with single-line names is a single line. */
  lemma {:induction false} PreorderSingleLine(es: Entries, enclosing: seq<bool>, owner: Node)
    requires Below(es, owner) && SingleLineNames(es, owner)
    ensures forall it :: it in Preorder(es, enclosing, owner) ==> '\n' !in it.shown
    decreases owner, |es|
  {
    if es != [] {
      var value := es[0].1;
      if value.Dir? {
        PreorderSingleLine(value.entries, enclosing + [|es| == 1], value);
      }
      PreorderSingleLine(es[1..], enclosing, owner);
    }
  }

  /** The output of `tree` for a directory: the current path with a `/` on
      the first line, then one line per entry of the subtree in depth-first
      pre-order, each with its indentation, connector and shown name. */
  lemma TreeListsPreorder(s: State, es: Entries)
    requires GetNode(s.root, s.cwd, s.cwd) == Some(Dir(es))
    requires '\n' !in s.cwd && SingleLineNames(es, Dir(es))
    ensures Split(Tree(s).output, '\n') == [s.cwd + "/"] + ItemLines(Preorder(es, [], Dir(es))) + [""]
  {
    var items := Preorder(es, [], Dir(es));
    var ls := [s.cwd + "/"] + ItemLines(items);
    TreeOutputUnlines(s, es);
    PreorderSingleLine(es, [], Dir(es));
    ItemLinesSingleLine(items);
    assert forall k :: 0 <= k < |ls| ==> '\n' !in ls[k];
    SplitUnlines(ls, "");
    assert Unlines(ls) + "" == Unlines(ls);
    assert Split("", '\n') == [""];
  }

  lemma TreeOutputUnlines(s: State, es: Entries)
    requires GetNode(s.root, s.cwd, s.cwd) == Some(Dir(es))
    ensures Tree(s).output == Unlines([s.cwd + "/"] + ItemLines(Preorder(es, [], Dir(es))))
  {
    var lines := ItemLines(Preorder(es, [], Dir(es)));
    TreeOutputOfDir(s, es);
    RenderIsPreorder(es, [], Dir(es));
    UnlinesCons(s.cwd + "/", lines);
    SlashLine(s.cwd, Unlines(lines));
  }

  lemma TreeOutputOfDir(s: State, es: Entries)
    requires GetNode(s.root, s.cwd, s.cwd) == Some(Dir(es))
    ensures Tree(s).output == s.cwd + "/\n" + RenderTree(es)
  {
  }

  lemma SlashLine(a: string, b: string)
    ensures a + "/" + "\n" + b == a + "/\n" + b
  {
    assert "/" + "\n" == "/\n";
  }

  lemma UnlinesCons(x: string, ls: seq<string>)
    ensures Unlines([x] + ls) == x + "\n" + Unlines(ls)
  {
    assert ([x] + ls)[1..] == ls;
  }

  lemma ItemLinesSingleLine(items: seq<TreeItem>)
    requires forall it :: it in items ==> '\n' !in it.shown
    ensures forall k :: 0 <= k < |items| ==> '\n' !in ItemLines(items)[k]
  {
    forall k | 0 <= k < |items| ensures '\n' !in ItemLines(items)[k] {
      var it := items[k];
      assert it in items;
      IndentSingleLine(it.enclosing);
      ConnectorSingleLine(it.last);
    }
  }

  /** For a directory holding only files, line `k` shows entry `k` behind
      the branching connector, and the last entry behind the closing one. */
  lemma {:induction false} PreorderOfFiles(es: Entries, enclosing: seq<bool>, owner: Node)
    requires Below(es, owner)
    requires forall k :: 0 <= k < |es| ==> es[k].1.File?
    ensures |Preorder(es, enclosing, owner)| == |es|
    ensures forall k :: 0 <= k < |es| ==>
              Preorder(es, enclosing, owner)[k] == TreeItem(enclosing, k == |es| - 1, es[k].0)
    decreases |es|
  {
    if es != [] {
      PreorderOfFiles(es[1..], enclosing, owner);
      var rest := Preorder(es[1..], enclosing, owner);
      assert Preorder(es, enclosing, owner) == [TreeItem(enclosing, |es| == 1, es[0].0)] + rest;
      forall k | 1 <= k < |es| ensures Preorder(es, enclosing, owner)[k] == TreeItem(enclosing, k == |es| - 1, es[k].0) {
        assert es[1..][k - 1] == es[k];
      }
    }
  }

  // ---------------------------------------------------------------------
  // Commands that change the tree
  // ---------------------------------------------------------------------

  /** `mkdir dir`: creates one empty directory in an existing directory. A
      missing parent, a file parent or an existing name is an error that
      leaves the state as it was. */
  function Mkdir(s: State, args: seq<string>): (r: Outcome)
    ensures r.Returned?
    ensures r.state.cwd == s.cwd && r.state.env == s.env && r.state.history == s.history
    ensures r.output != "" ==> r.state == s
    ensures Arg0(args).None? ==> r.output == "mkdir: missing operand"
    ensures Arg0(args).Some? ==>
              var t := TargetOf(s.cwd, args[0]);
              var parent := ParentOf(s, t);
              var msg := "mkdir: cannot create directory '" + args[0] + "': ";
              && (!Present(parent) ==> r.output == msg + "No such file or directory")
              && (Present(parent) && parent.value.File? ==> r.output == msg + "Not a directory")
              && (Present(parent) && parent.value.Dir? && Get(s.root, TargetPath(t)).Some? ==>
                    r.output == msg + "File exists")
              && (r.output == "" <==> Present(parent) && parent.value.Dir? && Get(s.root, TargetPath(t)).None?)
              && (r.output == "" ==> Get(r.state.root, TargetPath(t)) == Some(Dir([])))
  {
    match Arg0(args)
    case None => Returned(s, "mkdir: missing operand")
    case Some(a) =>
      var t := TargetOf(s.cwd, a);
      var parent := ParentOf(s, t);
      var msg := "mkdir: cannot create directory '" + a + "': ";
      if !Present(parent) then Returned(s, msg + "No such file or directory")
      else if parent.value.File? then Returned(s, msg + "Not a directory")
      else MkdirIn(s, t, msg)
  }

  /** The part of `mkdir` after the parent was found to be a directory. */
  function MkdirIn(s: State, t: Target, msg: string): (r: Outcome)
    requires IsAbsolute(t.parentPath)
    requires Present(ParentOf(s, t)) && ParentOf(s, t).value.Dir?
    ensures Get(s.root, TargetPath(t)).Some? ==> r == Returned(s, msg + "File exists")
    ensures Get(s.root, TargetPath(t)).None? ==>
              && r == Returned(SetEntry(s, t, Some(Dir([]))), "")
              && Get(r.state.root, TargetPath(t)) == Some(Dir([]))
  {
    var parent := ParentOf(s, t);
    GetAppend(s.root, Components(t.parentPath), [t.leaf]);
    if t.leaf in Names(parent.value.entries) then Returned(s, msg + "File exists")
    else
      SetChildHit(s.root, Components(t.parentPath), t.leaf, Some(Dir([])));
      Returned(SetEntry(s, t, Some(Dir([]))), "")
  }

  /** `touch file`: creates an empty file unless the name already exists, in
      which case the existing file or directory is left as it is. */
  function Touch(s: State, args: seq<string>): (r: Outcome)
    ensures r.Returned?
    ensures r.state.cwd == s.cwd && r.state.env == s.env && r.state.history == s.history
    ensures r.output != "" ==> r.state == s
    ensures Arg0(args).None? ==> r.output == "touch: missing file operand"
    ensures Arg0(args).Some? ==>
              var t := TargetOf(s.cwd, args[0]);
              var parent := ParentOf(s, t);
              var msg := "touch: cannot touch '" + args[0] + "': ";
              && (!Present(parent) ==> r.output == msg + "No such file or directory")
              && (Present(parent) && parent.value.File? ==> r.output == msg + "Not a directory")
              && (Present(parent) && parent.value.Dir? ==> r.output == "")
              && (Present(parent) && parent.value.Dir? && Get(s.root, TargetPath(t)).Some? ==> r.state == s)
              && (Present(parent) && parent.value.Dir? && Get(s.root, TargetPath(t)).None? ==>
                    Get(r.state.root, TargetPath(t)) == Some(File("")))
  {
    match Arg0(args)
    case None => Returned(s, "touch: missing file operand")
    case Some(a) =>
      var t := TargetOf(s.cwd, a);
      var parent := ParentOf(s, t);
      var msg := "touch: cannot touch '" + a + "': ";
      if !Present(parent) then Returned(s, msg + "No such file or directory")
      else if parent.value.File? then Returned(s, msg + "Not a directory")
      else TouchIn(s, t)
  }

  /** The part of `touch` after the parent was found to be a directory. */
  function TouchIn(s: State, t: Target): (r: Outcome)
    requires IsAbsolute(t.parentPath)
    requires Present(ParentOf(s, t)) && ParentOf(s, t).value.Dir?
    ensures r.Returned? && r.output == ""
    ensures r.state.cwd == s.cwd && r.state.env == s.env && r.state.history == s.history
    ensures Get(s.root, TargetPath(t)).Some? ==> r.state == s
    ensures Get(s.root, TargetPath(t)).None? ==> Get(r.state.root, TargetPath(t)) == Some(File(""))
  {
    var parent := ParentOf(s, t);
    GetAppend(s.root, Components(t.parentPath), [t.leaf]);
    if t.leaf in Names(parent.value.entries) then Returned(s, "")
    else
      SetChildHit(s.root, Components(t.parentPath), t.leaf, Some(File("")));
      Returned(SetEntry(s, t, Some(File(""))), "")
  }

  /** The message of the `TypeError` thrown by `name in text` when `text` is
      a string (V8 wording). */
  function InOperatorError(name: string, text: string): string {
    "Cannot use 'in' operator to search for '" + name + "' in " + text
  }

  /** The start of every message of a failing `rm`. */
  function RmFailure(name: string): string {
    "rm: cannot remove '" + name + "': "
  }

  /** `rm file`: the named target is removed as `RmTarget` says. */
  function Rm(s: State, args: seq<string>): (r: Outcome)
    ensures Arg0(args).None? ==> r == Returned(s, "rm: missing operand")
    ensures Arg0(args).Some? ==> r == RmTarget(s, TargetOf(s.cwd, args[0]), RmFailure(args[0]))
  {
    match Arg0(args)
    case None => Returned(s, "rm: missing operand")
    case Some(a) => RmTarget(s, TargetOf(s.cwd, a), RmFailure(a))
  }

  /** Removing one file. A missing name and a directory are errors that
      leave the state as it was; a parent that is a non-empty file makes the
      `in` test throw. */
  function RmTarget(s: State, t: Target, msg: string): (r: Outcome)
    requires IsAbsolute(t.parentPath)
    ensures r.Returned? ==> r.state.cwd == s.cwd && r.state.env == s.env && r.state.history == s.history
    ensures r.Returned? && r.output != msg + "No such file or directory" && r.output != msg + "Is a directory" ==>
              r.output == ""
    ensures r.Returned? && r.output != "" ==> r.state == s
    ensures r.Thrown? <==> Present(ParentOf(s, t)) && ParentOf(s, t).value.File?
    ensures !Present(ParentOf(s, t)) ==> r == Returned(s, msg + "No such file or directory")
    ensures Present(ParentOf(s, t)) && ParentOf(s, t).value.Dir? && Get(s.root, TargetPath(t)).None? ==>
              r == Returned(s, msg + "No such file or directory")
    ensures Present(ParentOf(s, t)) && ParentOf(s, t).value.Dir? && Get(s.root, TargetPath(t)).Some?
            && Get(s.root, TargetPath(t)).value.Dir? ==>
              r == Returned(s, msg + "Is a directory")
    ensures r.Returned? && r.output == "" <==>
              Present(ParentOf(s, t)) && ParentOf(s, t).value.Dir? && Get(s.root, TargetPath(t)).Some?
              && Get(s.root, TargetPath(t)).value.File?
    ensures r.Returned? && r.output == "" ==> Get(r.state.root, TargetPath(t)).None?
  {
    var parent := ParentOf(s, t);
    if !Present(parent) then Returned(s, msg + "No such file or directory")
    else if parent.value.File? then Thrown(InOperatorError(t.leaf, parent.value.content))
    else RmIn(s, t, msg)
  }

  /** The part of `rm` after the parent was found to be a directory. */
  function RmIn(s: State, t: Target, msg: string): (r: Outcome)
    requires IsAbsolute(t.parentPath)
    requires Present(ParentOf(s, t)) && ParentOf(s, t).value.Dir?
    ensures var target := Get(s.root, TargetPath(t));
            && r.Returned?
            && r.state.cwd == s.cwd && r.state.env == s.env && r.state.history == s.history
            && (target.None? ==> r == Returned(s, msg + "No such file or directory"))
            && (target.Some? && target.value.Dir? ==> r == Returned(s, msg + "Is a directory"))
            && (target.Some? && target.value.File? ==> r.output == "" && Get(r.state.root, TargetPath(t)).None?)
  {
    var parent := ParentOf(s, t);
    GetAppend(s.root, Components(t.parentPath), [t.leaf]);
    var target := Lookup(parent.value.entries, t.leaf);
    if target.None? then Returned(s, msg + "No such file or directory")
    else if target.value.Dir? then Returned(s, msg + "Is a directory")
    else
      SetChildHit(s.root, Components(t.parentPath), t.leaf, None);
      Returned(SetEntry(s, t, None), "")
  }

  /** The result of `writeToFile`: the new tree, or the error message it returns. */
  datatype WriteResult = Written(root: Node) | WriteFailed(message: string)

  /** `writeToFile(path, content, mode)`: the target's parent must be a
      (present) directory and the target must not be a directory. Append
      concatenates onto an existing file with no separator; otherwise the
      file is (re)created with exactly `content`. */
  function WriteToFile(s: State, filePath: string, content: string, mode: WriteMode): (r: WriteResult)
    ensures var t := TargetOf(s.cwd, filePath);
            var parent := ParentOf(s, t);
            var target := Get(s.root, TargetPath(t));
            && (!Present(parent) ==> r == WriteFailed("bash: " + filePath + ": No such file or directory"))
            && (Present(parent) && parent.value.File? ==> r == WriteFailed("bash: " + filePath + ": Not a directory"))
            && (Present(parent) && parent.value.Dir? && target.Some? && target.value.Dir? ==>
                  r == WriteFailed("bash: " + filePath + ": Is a directory"))
            && (r.Written? <==> Present(parent) && parent.value.Dir? && !(target.Some? && target.value.Dir?))
            && (r.Written? ==>
                  Get(r.root, TargetPath(t)) ==
                    Some(File(if mode == Append && target.Some? then target.value.content + content else content)))
  {
    var t := TargetOf(s.cwd, filePath);
    var parent := ParentOf(s, t);
    if !Present(parent) then WriteFailed("bash: " + filePath + ": No such file or directory")
    else if parent.value.File? then WriteFailed("bash: " + filePath + ": Not a directory")
    else
      GetAppend(s.root, Components(t.parentPath), [t.leaf]);
      var prev := Lookup(parent.value.entries, t.leaf);
      if prev.Some? && prev.value.Dir? then WriteFailed("bash: " + filePath + ": Is a directory")
      else
        var v := if mode == Append && prev.Some? then prev.value.content + content else content;
        SetChildHit(s.root, Components(t.parentPath), t.leaf, Some(File(v)));
        Written(SetEntry(s, t, Some(File(v))).root)
  }

  /** Dispatch of a name from the command table; `now` is what `new Date()`
      would print. */
  function Run(s: State, name: string, args: seq<string>, now: string): (r: Outcome)
    ensures name == "cd" ==> r == Cd(s, args)
    ensures name == "mkdir" ==> r == Mkdir(s, args)
    ensures name == "touch" ==> r == Touch(s, args)
    ensures name == "rm" ==> r == Rm(s, args)
    ensures r.Thrown? ==> name == "rm" || name == "tree"
    ensures r.Returned? ==> r.state.history == s.history && r.state.env.(pwd := s.env.pwd) == s.env
    ensures r.Returned? && name != "cd" && name != "mkdir" && name != "touch" && name != "rm" ==> r.state == s
  {
    match name
    case "help" => Returned(s, HelpText)
    case "ls" => Returned(s, Ls(s, args))
    case "cd" => Cd(s, args)
    case "pwd" => Returned(s, s.cwd)
    case "cat" => Returned(s, Cat(s, args))
    case "echo" => Returned(s, Echo(args))
    case "clear" => Returned(s, ClearSentinel)
    case "whoami" => Returned(s, s.env.user)
    case "date" => Returned(s, now)
    case "uname" => Returned(s, Uname(args))
    case "env" => Returned(s, Env(s))
    case "history" => Returned(s, History(s))
    case "mkdir" => Mkdir(s, args)
    case "touch" => Touch(s, args)
    case "rm" => Rm(s, args)
    case "tree" => Tree(s)
    case _ => Returned(s, "")
  }

  // ---------------------------------------------------------------------
  // Properties of the commands
  // ---------------------------------------------------------------------

  /** A fresh session satisfies the invariant. */
  lemma InitialValid()
    ensures Valid(Initial())
  {
    HomeComponents();
    DefaultTreeValid(ReadmeText, AboutText, MotdText);
  }

  lemma HomeComponents()
    ensures Components("/home/user") == ["home", "user"]
  {
    assert PathOf(["home", "user"]) == "/home/user";
    ComponentsOfPathOf(["home", "user"]);
  }

  lemma DefaultTreeValid(readme: string, about: string, motd: string)
    ensures var root := DefaultTree(readme, about, motd);
            Tidy(root) && IsDirAt(root, ["home", "user"])
  {
    var root := DefaultTree(readme, about, motd);
    var home := root.entries[0].1;
    var user := home.entries[0].1;
    var etc := root.entries[1].1;
    assert Tidy(user) by {
      assert Names(user.entries) == ["README.txt", "about.txt"];
      assert Tidy(user.entries[0].1) && Tidy(user.entries[1].1);
    }
    assert Tidy(home) by {
      assert Names(home.entries) == ["user"];
    }
    assert Tidy(etc) by {
      assert Names(etc.entries) == ["motd"];
      assert Tidy(etc.entries[0].1);
    }
    assert Names(root.entries) == ["home", "etc"];
    assert Get(root, ["home", "user"]) == Get(home, ["user"]);
  }

  /** Setting or deleting the entry of a target keeps the invariant, provided
      what was there before was not a directory (so the current and home
      directories survive) and what is stored is tidy. */
  lemma SetEntryValid(s: State, t: Target, v: Option<Node>)
    requires Valid(s)
    requires IsAbsolute(t.parentPath) && IsDirAt(s.root, Components(t.parentPath))
    requires var prev := Get(s.root, TargetPath(t)); prev.None? || prev.value.File?
    requires v.Some? ==> Tidy(v.value)
    ensures Valid(SetEntry(s, t, v))
  {
    var path := Components(t.parentPath);
    SetChildTidy(s.root, path, t.leaf, v);
    SetChildKeepsDirectories(s.root, path, t.leaf, v, Components(s.cwd));
    SetChildKeepsDirectories(s.root, path, t.leaf, v, Components(s.env.home));
  }

  lemma MkdirValid(s: State, args: seq<string>)
    requires Valid(s)
    ensures Valid(Mkdir(s, args).state)
  {
    if Arg0(args).Some? && Mkdir(s, args).output == "" {
      var t := TargetOf(s.cwd, args[0]);
      SetEntryValid(s, t, Some(Dir([])));
    }
  }

  lemma TouchValid(s: State, args: seq<string>)
    requires Valid(s)
    ensures Valid(Touch(s, args).state)
  {
    if Arg0(args).Some? {
      var t := TargetOf(s.cwd, args[0]);
      var parent := ParentOf(s, t);
      if Present(parent) && parent.value.Dir? && Get(s.root, TargetPath(t)).None? {
        GetAppend(s.root, Components(t.parentPath), [t.leaf]);
        assert Touch(s, args).state == SetEntry(s, t, Some(File("")));
        SetEntryValid(s, t, Some(File("")));
      }
    }
  }

  lemma RmValid(s: State, args: seq<string>)
    requires Valid(s)
    ensures Rm(s, args).Returned? ==> Valid(Rm(s, args).state)
  {
    if Arg0(args).Some? && Rm(s, args).Returned? && Rm(s, args).output == "" {
      var t := TargetOf(s.cwd, args[0]);
      SetEntryValid(s, t, None);
    }
  }

  lemma CdValid(s: State, args: seq<string>)
    requires Valid(s)
    ensures Valid(Cd(s, args).state)
  {
  }

  /** Every command of the table keeps the invariant. */
  lemma RunValid(s: State, name: string, args: seq<string>, now: string)
    requires Valid(s)
    ensures Run(s, name, args, now).Returned? ==> Valid(Run(s, name, args, now).state)
  {
    if name == "mkdir" {
      MkdirValid(s, args);
    } else if name == "touch" {
      TouchValid(s, args);
    } else if name == "rm" {
      RmValid(s, args);
    } else if name == "cd" {
      CdValid(s, args);
    }
  }

  /** A successful redirection keeps the invariant. */
  lemma WriteValid(s: State, filePath: string, content: string, mode: WriteMode)
    requires Valid(s)
    ensures WriteToFile(s, filePath, content, mode).Written? ==>
              Valid(s.(root := WriteToFile(s, filePath, content, mode).root))
  {
    var t := TargetOf(s.cwd, filePath);
    var parent := ParentOf(s, t);
    if Present(parent) && parent.value.Dir? {
      GetAppend(s.root, Components(t.parentPath), [t.leaf]);
      var prev := Lookup(parent.value.entries, t.leaf);
      if !(prev.Some? && prev.value.Dir?) {
        var v := if mode == Append && prev.Some? then prev.value.content + content else content;
        SetEntryValid(s, t, Some(File(v)));
      }
    }
  }

  /** A successful `mkdir` adds exactly one name, at the end of its parent's
      entries, and changes nothing outside the path to the new directory. */
  lemma MkdirAddsOneEntry(s: State, args: seq<string>, q: seq<string>)
    requires Arg0(args).Some? && Mkdir(s, args).output == ""
    ensures var t := TargetOf(s.cwd, args[0]);
            var path := Components(t.parentPath);
            var after := Mkdir(s, args).state.root;
            && Get(after, path).Some? && Get(after, path).value.Dir?
            && Names(Get(after, path).value.entries) == Names(Get(s.root, path).value.entries) + [t.leaf]
            && (!(q <= path) && !(TargetPath(t) <= q) ==> Get(after, q) == Get(s.root, q))
  {
    var t := TargetOf(s.cwd, args[0]);
    var path := Components(t.parentPath);
    GetAppend(s.root, path, [t.leaf]);
    SetChildAt(s.root, path, t.leaf, Some(Dir([])));
    if !(q <= path) && !(TargetPath(t) <= q) {
      SetChildFrame(s.root, path, t.leaf, Some(Dir([])), q);
    }
  }

  /** `touch` on a missing name appends one empty file to its parent and
      changes nothing off the path to it. */
  lemma TouchAddsOneEntry(s: State, args: seq<string>, q: seq<string>)
    requires Arg0(args).Some? && Touch(s, args).output == ""
    requires Get(s.root, TargetPath(TargetOf(s.cwd, args[0]))).None?
    ensures var t := TargetOf(s.cwd, args[0]);
            var path := Components(t.parentPath);
            var after := Touch(s, args).state.root;
            && Get(after, path).Some? && Get(after, path).value.Dir?
            && Names(Get(after, path).value.entries) == Names(Get(s.root, path).value.entries) + [t.leaf]
            && Lookup(Get(after, path).value.entries, t.leaf) == Some(File(""))
            && (!(q <= path) && !(TargetPath(t) <= q) ==> Get(after, q) == Get(s.root, q))
  {
    var t := TargetOf(s.cwd, args[0]);
    var path := Components(t.parentPath);
    GetAppend(s.root, path, [t.leaf]);
    SetChildAt(s.root, path, t.leaf, Some(File("")));
    if !(q <= path) && !(TargetPath(t) <= q) {
      SetChildFrame(s.root, path, t.leaf, Some(File("")), q);
    }
  }

  /** A successful write sets exactly one entry of the target's parent: the
      parent keeps its other names and their nodes, gains the leaf if it was
      missing, and nothing off the path to the entry changes. */
  lemma WriteChangesOneEntry(s: State, filePath: string, content: string, mode: WriteMode, m: string, q: seq<string>)
    requires WriteToFile(s, filePath, content, mode).Written?
    ensures var t := TargetOf(s.cwd, filePath);
            var path := Components(t.parentPath);
            var before := Get(s.root, path).value.entries;
            var after := WriteToFile(s, filePath, content, mode).root;
            && Get(after, path).Some? && Get(after, path).value.Dir?
            && Names(Get(after, path).value.entries) ==
                 (if t.leaf in Names(before) then Names(before) else Names(before) + [t.leaf])
            && (m != t.leaf ==> Lookup(Get(after, path).value.entries, m) == Lookup(before, m))
            && (!(q <= path) && !(TargetPath(t) <= q) ==> Get(after, q) == Get(s.root, q))
  {
    var t := TargetOf(s.cwd, filePath);
    var path := Components(t.parentPath);
    var prev := Get(s.root, path).value.entries;
    GetAppend(s.root, path, [t.leaf]);
    var v := if mode == Append && Lookup(prev, t.leaf).Some? then Lookup(prev, t.leaf).value.content + content else content;
    SetChildAt(s.root, path, t.leaf, Some(File(v)));
    if !(q <= path) && !(TargetPath(t) <= q) {
      SetChildFrame(s.root, path, t.leaf, Some(File(v)), q);
    }
  }

  /** A successful `rm` deletes exactly the named entry of its parent,
      leaving every other name of the parent and everything outside the path
      to it as it was. */
  lemma RmRemovesOneEntry(s: State, args: seq<string>, m: string, q: seq<string>)
    requires Arg0(args).Some? && Rm(s, args).Returned? && Rm(s, args).output == ""
    ensures var t := TargetOf(s.cwd, args[0]);
            var path := Components(t.parentPath);
            var after := Rm(s, args).state.root;
            && Get(after, path).Some? && Get(after, path).value.Dir?
            && Lookup(Get(after, path).value.entries, t.leaf).None?
            && (m != t.leaf ==> Lookup(Get(after, path).value.entries, m) == Lookup(Get(s.root, path).value.entries, m))
            && (!(q <= path) && !(TargetPath(t) <= q) ==> Get(after, q) == Get(s.root, q))
  {
    var t := TargetOf(s.cwd, args[0]);
    var path := Components(t.parentPath);
    SetChildAt(s.root, path, t.leaf, None);
    if !(q <= path) && !(TargetPath(t) <= q) {
      SetChildFrame(s.root, path, t.leaf, None, q);
    }
  }

  /** Writing a non-empty text to a path and then reading it with `cat`
      gives the text back (the written file is found again because the
      target is exactly the node the path names). */
  lemma WriteThenCat(s: State, filePath: string, content: string)
    requires filePath != "" && content != ""
    requires Components(ResolvePath(s.cwd, filePath)) != []
    requires WriteToFile(s, filePath, content, Overwrite).Written?
    ensures Cat(s.(root := WriteToFile(s, filePath, content, Overwrite).root), [filePath]) == content
  {
    TargetPathOf(s.cwd, filePath);
  }

  /** Appending to an existing file adds the text right after the old
      content; appending to a missing one creates it with just the text. */
  lemma AppendConcatenates(s: State, filePath: string, content: string)
    requires Components(ResolvePath(s.cwd, filePath)) != []
    requires WriteToFile(s, filePath, content, Append).Written?
    ensures var before := GetNode(s.root, s.cwd, filePath);
            var after := GetNode(WriteToFile(s, filePath, content, Append).root, s.cwd, filePath);
            && (before.Some? ==> before.value.File? && after == Some(File(before.value.content + content)))
            && (before.None? ==> after == Some(File(content)))
  {
    TargetPathOf(s.cwd, filePath);
  }

  /** `mkdir /` resolves to no component at all; the popped name is then
      `undefined`, so a directory of that name appears in the root. */
  lemma MkdirRootMakesUndefined(s: State)
    requires Valid(s) && Lookup(s.root.entries, "undefined").None?
    ensures Mkdir(s, ["/"]).output == ""
    ensures Get(Mkdir(s, ["/"]).state.root, ["undefined"]) == Some(Dir([]))
  {
    assert Components("/") == [] by { ComponentsOfPathOf([]); }
    var t := TargetOf(s.cwd, "/");
    assert t == Target("/", "undefined");
    assert TargetPath(t) == ["undefined"];
  }
}

=== FILE: strings.dfy ===
/**
 The string primitives of the JavaScript runtime that the shell, the completion
 engine and the editor rely on: `trim`, `split(/\s+/)`, `split(c)`, `join`,
 `lastIndexOf('/')` and decimal rendering of a count. Strings are `seq<char>`.
 */
module Strings {

  /** The characters matched by `\s` in a JavaScript regular expression.
      `String.prototype.trim` strips exactly the same set. */
  predicate IsSpace(c: char) {
    || c == ' ' || c == '\t' || c == '\n' || c == '\r' || c == '\U{000B}' || c == '\U{000C}'
    || c == '\U{00A0}' || c == '\U{1680}' || ('\U{2000}' <= c <= '\U{200A}')
    || c == '\U{2028}' || c == '\U{2029}' || c == '\U{202F}' || c == '\U{205F}'
    || c == '\U{3000}' || c == '\U{FEFF}'
  }

  /** The characters a regular-expression `.` refuses to match (no `s` flag). */
  predicate IsLineTerminator(c: char) {
    c == '\n' || c == '\r' || c == '\U{2028}' || c == '\U{2029}'
  }

  predicate AllSpace(s: string) {
    forall i :: 0 <= i < |s| ==> IsSpace(s[i])
  }

  predicate SpaceFree(s: string) {
    forall i :: 0 <= i < |s| ==> !IsSpace(s[i])
  }

  /** Neither starts nor ends with white space. */
  predicate Trimmed(s: string) {
    s == [] || (!IsSpace(s[0]) && !IsSpace(s[|s| - 1]))
  }

  /** `String.prototype.trimStart`: the longest suffix not starting with white
      space. */
  function TrimStart(s: string): (r: string)
    ensures r == [] || !IsSpace(r[0])
    ensures r == [] <==> AllSpace(s)
    ensures |r| <= |s| && r == s[|s| - |r|..]
    ensures s == [] || !IsSpace(s[0]) ==> r == s
  {
    if s != [] && IsSpace(s[0]) then TrimStart(s[1..]) else s
  }

  /** `String.prototype.trimEnd`: the longest prefix not ending with white
      space. */
  function TrimEnd(s: string): (r: string)
    ensures r == [] || !IsSpace(r[|r| - 1])
    ensures r == [] <==> AllSpace(s)
    ensures r <= s
    ensures s == [] || !IsSpace(s[|s| - 1]) ==> r == s
  {
    if s != [] && IsSpace(s[|s| - 1]) then TrimEnd(s[..|s| - 1]) else s
  }

  /** `TrimStart` cuts off exactly the leading run of white space. */
  lemma TrimStartCutsRun(s: string)
    ensures TrimStart(s) == s[SpaceRun(s)..]
    ensures AllSpace(s[..|s| - |TrimStart(s)|])
  {
    TrimStartAfterRun(s);
  }

  lemma {:induction false} TrimStartAfterRun(s: string)
    ensures TrimStart(s) == s[SpaceRun(s)..]
    decreases |s|
  {
    if s != [] && IsSpace(s[0]) {
      var m := SpaceRun(s[1..]);
      assert TrimStart(s) == TrimStart(s[1..]);
      assert SpaceRun(s) == 1 + m;
      TrimStartAfterRun(s[1..]);
      assert s[1..][m..] == s[1 + m..];
    } else {
      assert SpaceRun(s) == 0;
      assert s[0..] == s;
    }
  }

  /** `TrimEnd` cuts off exactly the trailing run of white space. */
  lemma {:induction false} TrimEndCutsRun(s: string)
    ensures TrimEnd(s) == s[..|s| - SpaceRunEnd(s)]
    ensures AllSpace(s[|TrimEnd(s)|..])
    decreases |s|
  {
    if s != [] && IsSpace(s[|s| - 1]) {
      TrimEndCutsRun(s[..|s| - 1]);
    }
  }

  /** Length of the run of white space at the end of `s`. */
  function SpaceRunEnd(s: string): (n: nat)
    ensures n <= |s|
    ensures AllSpace(s[|s| - n..])
    ensures n < |s| ==> !IsSpace(s[|s| - n - 1])
  {
    if s != [] && IsSpace(s[|s| - 1]) then
      var m := SpaceRunEnd(s[..|s| - 1]);
      AllSpaceSnoc(s, |s| - 1 - m);
      1 + m
    else 0
  }

  lemma AllSpaceSnoc(s: string, n: nat)
    requires n < |s| && IsSpace(s[|s| - 1]) && AllSpace(s[..|s| - 1][n..])
    ensures AllSpace(s[n..])
  {
    forall i | 0 <= i < |s| - n ensures IsSpace(s[n..][i]) {
      if i < |s| - 1 - n {
        assert s[n..][i] == s[..|s| - 1][n..][i];
      }
    }
  }

  /** `r` is the slice of `s` from `i` with only white space around it. */
  predicate Window(s: string, r: string, i: nat) {
    && i <= |s| - |r|
    && r == s[i..i + |r|]
    && AllSpace(s[..i])
    && AllSpace(s[i + |r|..])
  }

  /** `String.prototype.trim`: a slice of `s` that neither starts nor ends
      with white space, and only white space lies outside it. */
  function Trim(s: string): (r: string)
    ensures Trimmed(r)
    ensures r == [] <==> AllSpace(s)
    ensures Trimmed(s) ==> r == s
    ensures |r| <= |s|
  {
    var t := TrimStart(s);
    var r := TrimEnd(t);
    assert r != [] ==> r[0] == t[0];
    r
  }

  /** Trimming removes white space at the two ends and nothing else: the
      result is the slice of `s` after its leading run of white space, and
      only white space follows it. */
  lemma TrimIsWindow(s: string)
    ensures Window(s, Trim(s), SpaceRun(s))
  {
    TrimStartCutsRun(s);
    TrimEndCutsRun(TrimStart(s));
    TrimWindow(s, TrimStart(s), Trim(s));
  }

  lemma TrimWindow(s: string, t: string, r: string)
    requires |t| <= |s| && t == s[|s| - |t|..] && AllSpace(s[..|s| - |t|])
    requires r <= t && AllSpace(t[|r|..])
    ensures Window(s, r, |s| - |t|)
  {
    var i := |s| - |t|;
    assert r == s[i..i + |r|];
    assert s[i + |r|..] == t[|r|..];
  }

  /** Length of the run of white space at the start of `s`. */
  function SpaceRun(s: string): (n: nat)
    ensures n <= |s|
    ensures AllSpace(s[..n])
    ensures n < |s| ==> !IsSpace(s[n])
  {
    if s != [] && IsSpace(s[0]) then
      var m := SpaceRun(s[1..]);
      assert s[..1 + m] == [s[0]] + s[1..][..m];
      1 + m
    else 0
  }

  /** A white-space prefix ended by a non-space character is exactly the run. */
  lemma {:induction false} SpaceRunExact(t: string, b: nat)
    requires b < |t| && AllSpace(t[..b]) && !IsSpace(t[b])
    ensures SpaceRun(t) == b
  {
    if b > 0 {
      assert IsSpace(t[0]) by { assert t[..b][0] == t[0]; }
      assert t[1..][..b - 1] == t[..b][1..];
      SpaceRunExact(t[1..], b - 1);
    }
  }

  /** Index of the first white-space character of `s`, or `|s|` when there is none. */
  function FirstSpace(s: string): (n: nat)
    ensures n <= |s|
    ensures SpaceFree(s[..n])
    ensures n < |s| ==> IsSpace(s[n])
  {
    if s == [] || IsSpace(s[0]) then 0
    else
      var m := FirstSpace(s[1..]);
      assert s[..1 + m] == [s[0]] + s[1..][..m];
      1 + m
  }

  /** `s.split(/\s+/)`: the pieces between maximal runs of white space. A
      leading or trailing run yields an empty first or last piece, and the
      empty string yields one empty piece. */
  function Tokens(s: string): (r: seq<string>)
    ensures |r| >= 1
    ensures forall k :: 0 <= k < |r| ==> SpaceFree(r[k])
    ensures SpaceFree(s) ==> r == [s]
    ensures |r| == 1 ==> r == [s]
    decreases |s|
  {
    var i := FirstSpace(s);
    if i == |s| then
      assert s[..i] == s;
      [s]
    else
      var j := i + SpaceRun(s[i..]);
      [s[..i]] + Tokens(s[j..])
  }

  /** Splitting a trimmed, non-empty string never produces an empty piece. */
  lemma {:induction false} TokensOfTrimmedNonEmpty(s: string)
    requires Trimmed(s) && s != []
    ensures forall k :: 0 <= k < |Tokens(s)| ==> Tokens(s)[k] != []
    decreases |s|
  {
    var i := FirstSpace(s);
    if i < |s| {
      var j := i + SpaceRun(s[i..]);
      TrimmedRest(s, i, j);
      TokensOfTrimmedNonEmpty(s[j..]);
      TokensAt(s, i, j);
      NonEmptyCons(s[..i], Tokens(s[j..]));
    }
  }

  /** What follows the first gap of a trimmed string is trimmed and non-empty. */
  lemma TrimmedRest(s: string, i: nat, j: nat)
    requires Trimmed(s) && s != []
    requires i == FirstSpace(s) && i < |s| && j == i + SpaceRun(s[i..])
    ensures 0 < i < j < |s| && Trimmed(s[j..]) && s[j..] != []
  {
    var u := s[i..];
    var n := SpaceRun(u);
    assert 0 < i by {
      assert !IsSpace(s[0]);
    }
    assert 0 < n < |u| by {
      assert u[0] == s[i] && u[|u| - 1] == s[|s| - 1];
      SpaceRunStopsBeforeLast(u);
    }
    var t := s[j..];
    assert !IsSpace(t[0]) by {
      assert u[n] == s[i + n] && t[0] == s[j];
    }
    assert t[|t| - 1] == s[|s| - 1];
  }

  lemma NonEmptyCons(w: string, ts: seq<string>)
    requires w != [] && forall k :: 0 <= k < |ts| ==> ts[k] != []
    ensures forall k :: 0 <= k < |[w] + ts| ==> ([w] + ts)[k] != []
  {
    forall k | 0 <= k < |[w] + ts| ensures ([w] + ts)[k] != [] {
      if k > 0 { assert ([w] + ts)[k] == ts[k - 1]; }
    }
  }

  lemma {:induction false} SpaceRunStopsBeforeLast(u: string)
    requires u != [] && !IsSpace(u[|u| - 1])
    ensures SpaceRun(u) < |u|
  {
    if IsSpace(u[0]) {
      SpaceRunStopsBeforeLast(u[1..]);
    }
  }

  /** `parts.join(sep)`. */
  function Join(parts: seq<string>, sep: string): string
  {
    if |parts| == 0 then ""
    else if |parts| == 1 then parts[0]
    else parts[0] + sep + Join(parts[1..], sep)
  }

  /** Joining space-free, non-empty pieces with a white-space separator and
      splitting again on white space gives the pieces back. */
  lemma {:induction false} TokensOfJoin(parts: seq<string>, sep: string)
    requires |parts| >= 1
    requires forall k :: 0 <= k < |parts| ==> parts[k] != [] && SpaceFree(parts[k])
    requires sep != [] && AllSpace(sep)
    ensures Tokens(Join(parts, sep)) == parts
  {
    if |parts| > 1 {
      var rest := Join(parts[1..], sep);
      JoinHead(parts[1..], sep);
      TokensOfGap(parts[0], sep, rest);
      TokensOfJoin(parts[1..], sep);
      assert parts == [parts[0]] + parts[1..];
    }
  }

  /** A word, a white-space gap and a text starting with a non-space
      character split into the word and the words of the text. */
  lemma TokensOfGap(w: string, sep: string, rest: string)
    requires w != [] && SpaceFree(w) && sep != [] && AllSpace(sep)
    requires rest != [] && !IsSpace(rest[0])
    ensures Tokens(w + sep + rest) == [w] + Tokens(rest)
  {
    var s := w + sep + rest;
    assert s == w + (sep + rest);
    FirstSpaceOfPrefix(w, sep + rest);
    var i := |w|;
    assert s[..i] == w;
    assert s[i..] == sep + rest;
    assert (sep + rest)[..|sep|] == sep;
    SpaceRunExact(sep + rest, |sep|);
    assert s[i + |sep|..] == rest;
    TokensAt(s, i, i + |sep|);
  }

  /** One step of `Tokens`: the first word, then the words after the gap. */
  lemma TokensAt(s: string, i: nat, j: nat)
    requires i == FirstSpace(s) && i < |s| && j == i + SpaceRun(s[i..])
    ensures Tokens(s) == [s[..i]] + Tokens(s[j..])
  {
    var rest := s[j..];
    assert Tokens(s) == [s[..i]] + Tokens(rest);
  }

  lemma FirstSpaceOfPrefix(a: string, b: string)
    requires SpaceFree(a) && b != [] && IsSpace(b[0])
    ensures FirstSpace(a + b) == |a|
  {
    if a != [] {
      assert (a + b)[1..] == a[1..] + b;
      FirstSpaceOfPrefix(a[1..], b);
    }
  }

  lemma JoinHead(parts: seq<string>, sep: string)
    requires |parts| >= 1 && parts[0] != []
    ensures Join(parts, sep) != [] && Join(parts, sep)[0] == parts[0][0]
  {
  }

  lemma {:induction false} JoinLast(parts: seq<string>, sep: string)
    requires |parts| >= 1 && parts[|parts| - 1] != []
    ensures var j := Join(parts, sep); j != [] && j[|j| - 1] == parts[|parts| - 1][|parts[|parts| - 1]| - 1]
  {
    if |parts| > 1 {
      JoinLast(parts[1..], sep);
    }
  }

  /** Index of the first `c` in `s`, or `|s|` when there is none. */
  function IndexOf(s: string, c: char): (n: nat)
    ensures n <= |s|
    ensures c !in s[..n]
    ensures n < |s| ==> s[n] == c
  {
    if s == [] || s[0] == c then 0
    else
      var m := IndexOf(s[1..], c);
      assert s[..1 + m] == [s[0]] + s[1..][..m];
      1 + m
  }

  /** `s.split(c)` for a one-character separator. */
  function Split(s: string, c: char): (r: seq<string>)
    ensures |r| >= 1
    ensures forall k :: 0 <= k < |r| ==> c !in r[k]
    decreases |s|
  {
    var i := IndexOf(s, c);
    if i == |s| then
      assert s[..i] == s;
      [s]
    else [s[..i]] + Split(s[i + 1..], c)
  }

  /** Splitting then joining with the same separator restores the string. */
  lemma {:induction false} JoinSplit(s: string, c: char)
    ensures Join(Split(s, c), [c]) == s
    decreases |s|
  {
    var i := IndexOf(s, c);
    if i < |s| {
      JoinSplit(s[i + 1..], c);
      var r := Split(s[i + 1..], c);
      assert Split(s, c) == [s[..i]] + r;
      assert s == s[..i] + [c] + s[i + 1..];
    } else {
      assert s[..i] == s;
    }
  }

  /** Joining separator-free pieces then splitting restores the pieces. */
  lemma {:induction false} SplitJoin(parts: seq<string>, c: char)
    requires |parts| >= 1
    requires forall k :: 0 <= k < |parts| ==> c !in parts[k]
    ensures Split(Join(parts, [c]), c) == parts
  {
    if |parts| == 1 {
      assert IndexOf(parts[0], c) == |parts[0]|;
      assert parts[0][..|parts[0]|] == parts[0];
    } else {
      var rest := Join(parts[1..], [c]);
      var s := parts[0] + [c] + rest;
      assert Join(parts, [c]) == s;
      assert IndexOf(s, c) == |parts[0]| by {
        assert s == parts[0] + ([c] + rest);
        IndexOfPrefix(parts[0], c, [c] + rest);
      }
      assert s[..|parts[0]|] == parts[0];
      assert s[|parts[0]| + 1..] == rest;
      SplitJoin(parts[1..], c);
    }
  }

  lemma IndexOfPrefix(a: string, c: char, b: string)
    requires c !in a && b != [] && b[0] == c
    ensures IndexOf(a + b, c) == |a|
  {
    if a != [] {
      assert (a + b)[1..] == a[1..] + b;
      IndexOfPrefix(a[1..], c, b);
    }
  }

  /** Index just past the last `c` in `s`, or 0 when there is none; the
      part before it is what `s.substring(0, s.lastIndexOf(c) + 1)` keeps. */
  function AfterLast(s: string, c: char): (n: nat)
    ensures n <= |s|
    ensures c !in s[n..]
    ensures n > 0 ==> s[n - 1] == c
    ensures c !in s ==> n == 0
  {
    if s == [] then 0
    else if s[|s| - 1] == c then |s|
    else
      var m := AfterLast(s[..|s| - 1], c);
      assert s[m..] == s[..|s| - 1][m..] + [s[|s| - 1]];
      m
  }

  /** The directory part of a path fragment: everything up to and including
      its last `/`, or the empty string when it has none. */
  function DirPart(s: string): (r: string)
    ensures r <= s
    ensures r == [] || r[|r| - 1] == '/'
    ensures '/' !in s[|r|..]
  {
    s[..AfterLast(s, '/')]
  }

  /** The name part of a path fragment: everything after its last `/`. */
  function BasePart(s: string): (r: string)
    ensures '/' !in r
    ensures DirPart(s) + r == s
  {
    s[AfterLast(s, '/')..]
  }

  function DigitChar(d: nat): char
    requires d < 10
  {
    "0123456789"[d]
  }

  /** Decimal rendering of a natural number, as template literals print it. */
  function NatToString(n: nat): (r: string)
    ensures |r| >= 1
    ensures forall k :: 0 <= k < |r| ==> '0' <= r[k] <= '9'
    ensures n < 10 <==> |r| == 1
  {
    if n < 10 then [DigitChar(n)]
    else NatToString(n / 10) + [DigitChar(n % 10)]
  }

  /** Reading a rendered number back gives the number. */
  function DigitsValue(s: string): nat
    requires forall k :: 0 <= k < |s| ==> '0' <= s[k] <= '9'
  {
    if s == [] then 0
    else 10 * DigitsValue(s[..|s| - 1]) + (s[|s| - 1] as int - '0' as int)
  }

  lemma {:induction false} NatToStringRoundTrip(n: nat)
    ensures DigitsValue(NatToString(n)) == n
  {
    if n >= 10 {
      NatToStringRoundTrip(n / 10);
      var s := NatToString(n);
      assert s[..|s| - 1] == NatToString(n / 10);
    }
  }
}

=== FILE: wrappers.dfy ===
/** Optional values, standing in for JavaScript's `null` / `undefined` results. */
module Wrappers {

  datatype Option<+T> = None | Some(value: T) {

    /** The encapsulated value, or `default` when there is none. */
    function GetOr(default: T): T {
      match this
      case Some(v) => v
      case None => default
    }
  }
}
